=== FILE: README.md ===
# Livestock genetics backend: a functional model of its rules

The system is a Django REST and Channels backend for a cattle-genetics
herd register. Its behaviour rests on a set of small sequential rules,
and this project restates them as pure Dafny functions and proves what
those rules guarantee:

- animal profile images: upload validation, object naming, storage-path
  extraction, deletion outcome, and the field diff logged on update;
- the storage helper `upload_image`, and the inverse extraction of a
  path from a public URL;
- the WebSocket token read from the query string, with JWT verification
  (RFC 7519, HS256 as in section 3.2 of RFC 7518) kept abstract as
  `decode: string -> Option<Claims>`;
- a channel-group registry (`map<string, set<ConnId>>`) threaded through
  the three consumers (`AnimalConsumer`, `NotificacionConsumer`,
  `LogConsumer`). Each is a transition system: connect, receive, push
  handlers and disconnect. Outbound frames are a list of tagged records;
- the `send_*` fan-out helpers and the post_save / post_delete signal
  rules, including who ends up notified;
- the four permission predicates, the per-method permission choice and
  per-role visibility of three viewsets;
- the CORS middleware;
- `UsuarioManager.create_user` / `create_superuser`.

The database is an in-memory record (`Domain.Db`) of sequences. A
queryset is `Ordering.Filter`; `order_by('-field')` is a stable
newest-first sort; slicing is `Ordering.Take`. The clock, `uuid4`, the
storage SDK outcome and JWT decoding are parameters. Modules follow the
source: `AnimalViews`, `FirebaseStorage`, `AnimalConsumer`,
`NotificacionConsumer`, `LogConsumer`, `TokenAuth` (the shared
`get_user_from_token`), `Publish` and `WebsocketUtils`
(utils/websocket_utils.py), `Signals` and `RecordHooks`
(utils/signals.py), `Permissions`, `Cors`, `Viewsets`, `Usuarios`.
`Text`, `Ordering`, `Channels`, `Domain` and `Wrappers` are the shared
vocabulary: Python string operations, querysets, the channel layer,
records and choice lists, and Option/Result.

Where the code and its comments disagree, the model follows the code:

- `split('token=')[1]` is the text between the first and second
  occurrence of `token=`;
- `subir_imagen` answers 500 for a missing animal;
- the notifications POST permission admits anonymous callers;
- `rol` choices are not enforced by `create_user`.

## Model

| member | source | states |
|---|---|---|
| AnimalViews.PermissionsFor | animales/views.py:22-25 | exactly one permission class is chosen per request method |
| AnimalViews.AnimalAccess | animales/views.py:22-25 | safe methods admit exactly the authenticated users; POST, DELETE and every other unsafe method admit exactly the authenticated admins |
| AnimalViews.ExtractFirebasePath | animales/views.py:144-171 | an extracted path never contains '?'; without a `geneticsimg` segment and without the firebasestorage host the result is None |
| AnimalViews.FirebaseBranchUnreachable | animales/views.py:150-165 | every URL containing `firebasestorage.googleapis.com` also contains `storage.googleapis.com`, so the `/o/` branch is never reached |
| AnimalViews.ExtractNeedsHost | animales/views.py:150-167 | without the storage host the extraction is None |
| AnimalViews.ExtractNeedsInnerBucketSegment | animales/views.py:152-157 | the extraction is None when `geneticsimg` is not a `/`-segment, or when its first occurrence is the last segment |
| AnimalViews.SplitBucketUrl | animales/views.py:152 | splitting the bucket URL prefix plus a rest by '/' yields the four fixed segments followed by the rest's segments |
| AnimalViews.ExtractUnderPrefix | animales/views.py:149-157 | for the bucket URL prefix plus any rest, the extraction is the rest up to its first '?' |
| AnimalViews.ExtractRoundTrip | animales/views.py:149-157 | a '?'-free path appended to the bucket URL prefix is extracted back unchanged |
| AnimalViews.ExtractDropsQuery | animales/views.py:149-157 | a query suffix after '?' is dropped and the path recovered |
| AnimalViews.ValidateUpload | animales/views.py:36-57 | a missing image is rejected first; then a content type outside the five allowed types; then a size above 5 MiB; otherwise nothing is reported |
| AnimalViews.SizeBoundary | animales/views.py:53-57 | exactly 5·1024·1024 bytes passes and one byte more is rejected as too large |
| AnimalViews.ObjectNameShape | animales/views.py:59-63 | the name is `animales/` + chapeta + `_` + timestamp + `_` + at most 8 leading uuid characters + the extension; the extension is empty or starts with '.', holds no ASCII capital, is as long as the original and is empty when the file name has no '.' |
| AnimalViews.LowerExtensionShape | animales/views.py:60 | the lower-cased extension keeps its length and leading dot and holds no ASCII capital |
| AnimalViews.RemoveOldImage | animales/views.py:69-81 | removing the previous image only deletes objects; a storage error leaves them all; a deletion removes exactly the path extracted from the current URL |
| AnimalViews.SubirImagen | animales/views.py:27-142 | a missing animal is answered 500; failed validation is a 400 with its message and changes nothing; success happens exactly when validation, the bucket, the upload and `make_public` succeed, and then stores the public URL on the animal, keeps the new object and writes a log; a failed upload leaves the bucket as the old-image removal left it, and a failed `make_public` leaves the new object in it; every failure leaves the animal unchanged and writes no log |
| AnimalViews.SubirMissingAnimalIs500 | animales/views.py:133-142 | as written, a request for a missing animal is answered with status 500 |
| AnimalViews.SubirImagenIntended | animales/views.py:133-137 | corrected: a missing animal is answered 404 and nothing changes; otherwise the behaviour equals the code's |
| AnimalViews.MissingImageFirst | animales/views.py:36-40 | without an `image` file the answer is the 400 "No se envió ninguna imagen" and nothing changes |
| AnimalViews.FailedUploadMayOrphanReference | animales/views.py:69-131 | for any animal whose URL is the bucket URL of a path, when the old object is deleted and the upload or `make_public` then fails, the answer is 500, that object is gone and the animal still points at it; after a failed `make_public` the new object stays in the bucket |
| AnimalViews.EliminarImagen | animales/views.py:173-229 | a missing animal is 404; no URL gives 200 and changes nothing; otherwise the URL is cleared, the answer is 200, objects are only ever removed, and a log is written exactly when no storage warning is returned |
| AnimalViews.EliminarRemovesObject | animales/views.py:187-223 | for a bucket URL the reference is cleared in every case; without storage errors exactly the extracted object is removed and a log written; a bucket error keeps all objects and is reported as the warning |
| AnimalViews.Cambios | animales/views.py:248-255 | the diff holds exactly the fields of the new snapshot whose values differ |
| AnimalViews.ApplyCambios | animales/views.py:248-255 | applying a diff keeps the set of fields |
| AnimalViews.CambiosReconstruct | animales/views.py:248-255 | each entry's `antes` is the old value, and applying the `despues` values to the old snapshot gives the new snapshot |
| AnimalViews.CambiosEmptyIff | animales/views.py:248-255 | the diff is empty exactly when the snapshots agree on every field |
| AnimalViews.UpdateLog | animales/views.py:248-264 | the update log is an `editar` on `animal` for the entity id; its changes are empty exactly when the snapshots agree, and applied to the old snapshot they rebuild the new one |
| FirebaseStorage.StoragePath | core/firebase_storage.py:84-87 | the path starts with entity type / id / `foto_` and always ends in `.jpg` |
| FirebaseStorage.UploadImage | core/firebase_storage.py:55-133 | an uninitialised client, a missing or non-`image/` content type, or a size above 10 MiB each yield their error; success happens exactly when all checks, processing and the upload succeed, with the URL, the `.jpg` path and the fixed bucket; an upload failure becomes an error result |
| FirebaseStorage.ExtractStoragePath | core/firebase_storage.py:188-203 | without the host or the bucket name the result is None; a result exists exactly when `storage.googleapis.com/<bucket>/` occurs; it holds no '?' |
| FirebaseStorage.ContainsBucketPart | core/firebase_storage.py:193-194 | a URL containing the host-and-bucket prefix contains both the host and the bucket name |
| FirebaseStorage.SlashesOfPath | core/firebase_storage.py:87 | a built path has '/' only after the entity type and after the id |
| FirebaseStorage.BucketPartInPath | core/firebase_storage.py:87 | the host-and-bucket prefix can occur in a built path only if the id is the bucket name |
| FirebaseStorage.DigitsAreNotBucketName | core/firebase_storage.py:15 | a decimal id is never the bucket name |
| FirebaseStorage.PathFreeOfBucketPart | core/firebase_storage.py:84-87 | a built path never contains the host-and-bucket prefix |
| FirebaseStorage.PathFreeOfQuery | core/firebase_storage.py:84-87 | a built path never contains '?' |
| FirebaseStorage.ExtractStoragePathRoundTrip | core/firebase_storage.py:84-199 | extracting from the public URL of a built path gives that path back |
| FirebaseStorage.UploadThenExtract | core/firebase_storage.py:124-129 | on success, extraction from the returned URL gives the returned storage path |
| TokenAuth.QueryToken | animales/consumers.py:113-120 | a token is read exactly when `token=` occurs, and it holds no '&' |
| TokenAuth.FindUser | animales/consumers.py:128-130 | the lookup returns a user with that id, or None when there is none |
| TokenAuth.ResolveUser | animales/consumers.py:109-140 | a user is resolved exactly when a non-empty token decodes to a non-zero `user_id` held by a stored user, and it is that user |
| TokenAuth.NoTokenIsAnonymous | animales/consumers.py:116-120 | without a token, or with an empty one, the result is anonymous whatever the decoder does |
| TokenAuth.TokenHead | animales/consumers.py:116 | the head of the split at `token=` and then '&' is the text before the first '&' |
| TokenAuth.TokenRoundTrip | animales/consumers.py:116 | a query string starting `token=` + t + `&…` yields t |
| TokenAuth.TokenAnywhere | animales/consumers.py:116-117 | after any prefix without `token=`, a token free of `&` and `token=` and followed by nothing or by `&…` is read back unchanged |
| AnimalConsumer.Connect | animales/consumers.py:13-32 | an authenticated connect adds exactly `animal_updates` to this connection's groups, leaves every other connection's groups alone, opens and sends one `connection_established`; an anonymous one closes with 4001 and changes no connection's groups |
| AnimalConsumer.ConnectJoinsUpdates | animales/consumers.py:17-30 | a fresh authenticated connection belongs to exactly {`animal_updates`} and received one frame |
| AnimalConsumer.NoTokenClosed | animales/consumers.py:113-120 | with no token, or an empty one, the connection closes with 4001 and joins nothing |
| AnimalConsumer.AnimalGroup | animales/consumers.py:89-102 | a group name built from an id is valid and starts `animal_` |
| AnimalConsumer.NumericIdGroup | animales/consumers.py:91 | a numeric id gives `animal_` followed by its decimal digits |
| AnimalConsumer.Receive | animales/consumers.py:42-66 | the connection is unchanged; invalid JSON gives one `error` frame; a non-object body raises; at most one frame is sent; raising leaves the registry alone |
| AnimalConsumer.SubscribeUnsubscribe | animales/consumers.py:89-107 | subscribing adds exactly the animal's group and confirms with the id; unsubscribing then confirms and restores the registry |
| AnimalConsumer.PingPong | animales/consumers.py:56-60 | ping answers one `pong` echoing the timestamp and changes nothing else |
| AnimalConsumer.UnknownTypeIgnored | animales/consumers.py:46-60 | an unknown type sends nothing and changes nothing |
| Channels.LeaveRoom | animales/consumers.py:34-40 | `AnimalConsumer.Disconnect`: this connection closes with the code and loses exactly the room group when one was set, and nothing otherwise; every other connection keeps its groups; nothing is sent |
| AnimalConsumer.DisconnectKeepsSubscriptions | animales/consumers.py:36-40 | after connect, subscribe and disconnect, the connection is still in the animal's group |
| NotificacionConsumer.UserGroup | notificaciones/consumers.py:18 | a user group starts `user_` and is not the general group |
| NotificacionConsumer.Pending | notificaciones/consumers.py:150-153 | the ten newest unread notifications of this user: min(10, unread) of them, drawn from the unread ones, newest first, and no unread notification left out is newer than one replayed |
| NotificacionConsumer.PendingAllWhenFew | notificaciones/consumers.py:150-153 | with at most 10 unread, all of them are replayed |
| NotificacionConsumer.PendingFrames | notificaciones/consumers.py:155-162 | one `pending_notification` frame per notification, in order |
| NotificacionConsumer.Connect | notificaciones/consumers.py:13-44 | an authenticated connect adds exactly `user_<id>` and `general_notifications` to this connection's groups, leaves every other connection's groups alone and opens; an anonymous one closes with 4001 and changes nothing |
| NotificacionConsumer.ConnectSendsPendingFirst | notificaciones/consumers.py:32-42 | the pending frames come first, then `connection_established` carrying the user id |
| NotificacionConsumer.ConnectJoinsTwoGroups | notificaciones/consumers.py:17-30 | a fresh connection belongs to exactly {`user_<id>`, `general_notifications`} |
| NotificacionConsumer.FindOwned | notificaciones/consumers.py:171-174 | the lookup finds a stored notification with that id owned by this user, or None when there is none |
| NotificacionConsumer.MarkRead | notificaciones/consumers.py:167-179 | only the matching notification is marked read; every other entry is unchanged |
| NotificacionConsumer.MarkReadUnmatched | notificaciones/consumers.py:178-179 | marking an id the user does not own changes nothing |
| NotificacionConsumer.MarkReadCount | notificaciones/consumers.py:168-177 | with unique ids the user's unread count drops by one exactly when the found notification was unread |
| NotificacionConsumer.MarkReadOthersUnchanged | notificaciones/consumers.py:171-176 | another user's unread count is unchanged |
| NotificacionConsumer.MarkReadOthersAux | notificaciones/consumers.py:171-176 | another user's unread notifications are unchanged |
| NotificacionConsumer.Receive | notificaciones/consumers.py:58-91 | acting as the connection's user, the connection and registry are unchanged; invalid JSON gives one `error` frame; at most one frame is sent; raising leaves the store alone |
| NotificacionConsumer.MarkAsReadReply | notificaciones/consumers.py:64-72 | the reply echoes the id, with success exactly when the user owns a notification with that id; otherwise the store is unchanged |
| NotificacionConsumer.UnreadCountReply | notificaciones/consumers.py:181-187 | the count is the number of this user's unread notifications |
| NotificacionConsumer.PingPong | notificaciones/consumers.py:81-85 | ping answers one `pong` echoing the timestamp |
| NotificacionConsumer.Disconnect | notificaciones/consumers.py:46-56 | when the room group was set, this connection loses exactly it and `general_notifications`; otherwise no group changes; every other connection keeps its groups |
| NotificacionConsumer.ConnectDisconnect | notificaciones/consumers.py:17-56 | connect followed by disconnect leaves the connection in no group |
| LogConsumer.Connect | logs/consumers.py:13-38 | an authenticated admin gains exactly `admin_logs` among its groups, opens and gets `connection_established` with its id; every other user is closed with 4003; no other connection's groups change |
| LogConsumer.ConnectGate | logs/consumers.py:17-38 | a fresh connection belongs to exactly {`admin_logs`} when admitted and to no group otherwise |
| LogConsumer.LimitOf | logs/consumers.py:55 | a missing `limit` defaults to 50 |
| LogConsumer.RecentOf | logs/consumers.py:124-129 | the result is a prefix of the newest-first logs, of length min(limit, number of logs) |
| LogConsumer.FilteredOf | logs/consumers.py:131-147 | the 100 newest matching logs: min(100, matches) of them, drawn from the matches, newest first, each stored and passing every given filter, and no match left out is newer than one returned |
| LogConsumer.FalsyFiltersIgnored | logs/consumers.py:136-143 | absent or falsy filters select the 100 newest logs |
| LogConsumer.FilteredSize | logs/consumers.py:145 | the result size is the number of matching logs capped at 100 |
| LogConsumer.AddingFilterNarrows | logs/consumers.py:136-145 | setting a previously unset filter never enlarges the matches or the result |
| LogConsumer.PassesUpdate | logs/consumers.py:136-143 | a log passing the filters with one more set also passes them without it |
| LogConsumer.Receive | logs/consumers.py:48-82 | the connection and registry are unchanged; invalid JSON gives one `error` frame; at most one frame is sent |
| LogConsumer.RecentDefaultLimit | logs/consumers.py:54-61 | `get_recent_logs` without a limit replies with the 50 newest logs |
| LogConsumer.PingPong | logs/consumers.py:72-76 | ping answers one `pong` echoing the timestamp |
| LogConsumer.Disconnect | logs/consumers.py:40-46 | the connection closes with the code and sends nothing; it loses exactly `admin_logs` when connect set it, and the registry is untouched when connect set no group |
| LogConsumer.RefusedDisconnect | logs/consumers.py:37-46 | a refused connection's disconnect leaves the registry as it was |
| Channels.GroupAdd | animales/consumers.py:20-23 | the group gains exactly this connection; other groups are unchanged |
| Channels.GroupDiscard | animales/consumers.py:37-40 | the group loses exactly this connection; other groups are unchanged |
| Channels.AddThenDiscard | animales/consumers.py:89-107 | discarding a connection just added restores the registry |
| Channels.GroupsOfAdd | animales/consumers.py:92 | adding puts the group among this connection's groups and leaves other connections alone |
| Channels.GroupsOfDiscard | animales/consumers.py:102 | discarding removes the group from this connection's groups and leaves other connections alone |
| Channels.TextIdSelectsNumber | notificaciones/consumers.py:171-174 | an id sent as the decimal text of a number selects the same row as the number |
| Publish.UserGroupsDistinct | utils/websocket_utils.py:16 | two users share a group exactly when they are the same user |
| Publish.NotificationReachesOnlyOwner | utils/websocket_utils.py:15-24 | a user notification reaches a connected notification stream exactly when it is that user's, and is relayed as `notification` |
| Publish.BroadcastReachesEveryone | utils/websocket_utils.py:31-39 | a broadcast reaches every connected notification stream |
| Publish.LogReachesOnlyAdmins | utils/websocket_utils.py:46-54 | a log reaches a log stream exactly when it was admitted, and is relayed as `new_log` |
| Publish.SubscribeByNumericId | animales/consumers.py:89-92 | subscribing by a numeric id adds the connection to `animal_<id>` |
| Publish.KnownActionKinds | utils/websocket_utils.py:67 | the three signal actions give the three animal event types |
| Publish.AnimalUpdateReachesSubscriber | utils/websocket_utils.py:63-87 | both messages reach a subscribed animal stream, which relays them under their own type |
| WebsocketUtils.CreateAndSendNotification | utils/websocket_utils.py:90-109 | the record is stored with the next id, now and unread, and is published twice to its user |
| WebsocketUtils.CreatedNotificationIsUnread | utils/websocket_utils.py:96-104 | the recipient's unread count grows by one and every other user's is unchanged |
| WebsocketUtils.NotificationDeliveredTwice | utils/websocket_utils.py:97-107 | a connected owner receives the new notification twice |
| WebsocketUtils.CreateAndSendLog | utils/websocket_utils.py:112-131 | the log is stored with the next id and the entity id as text, and is published twice to `admin_logs` |
| WebsocketUtils.LogEntityIdsDistinct | utils/websocket_utils.py:122 | different entity ids give different stored texts |
| WebsocketUtils.NotifyEach | utils/websocket_utils.py:175-183 | one notification per target, created in order; the store and publications thread through |
| WebsocketUtils.SendSystemNotification | utils/websocket_utils.py:169-183 | one `informativa` per target user with the given message and no animal or event |
| WebsocketUtils.SystemTargetsDefault | utils/websocket_utils.py:175-176 | without a user list, the targets are the active users |
| WebsocketUtils.SystemNotificationTargetsActive | utils/websocket_utils.py:175-183 | without a user list, a stored user is notified exactly when active |
| WebsocketUtils.ActiveRecipients | utils/websocket_utils.py:175-183 | notifying the active users reaches a stored user exactly when active |
| WebsocketUtils.RecordsForSelected | utils/websocket_utils.py:175-183 | with unique ids, the records of a filtered user list name a stored user exactly when the user is selected |
| WebsocketUtils.FilteredRecipients | utils/signals.py:50-60 | notifying a filtered user list reaches a stored user exactly when the filter holds |
| WebsocketUtils.SendIncidenciaAlert | utils/websocket_utils.py:136-144 | an `alerta_sanitaria` with the incidence template, for the animal, stored |
| WebsocketUtils.SendTratamientoReminder | utils/websocket_utils.py:147-155 | a `recordatorio` with the treatment template, for the animal, stored |
| WebsocketUtils.SendEventoReminder | utils/websocket_utils.py:158-166 | a `recordatorio` with the event template, for the event, stored |
| Signals.AnimalSaved | utils/signals.py:24-34 | two identical messages; the action is `created` exactly when the created flag is set, else `updated`; the full record is sent |
| Signals.AnimalDeleted | utils/signals.py:37-44 | two identical `animal_deleted` messages carrying only id and chapeta |
| Signals.AnimalEventsHandled | utils/signals.py:24-44 | an animal stream relays every message these signals publish |
| Signals.IncidenciaSaved | utils/signals.py:47-60 | only creation alerts, one `alerta_sanitaria` per active admin with the incidence message; updates change nothing |
| Signals.IncidenciaAlertsActiveAdmins | utils/signals.py:50-60 | a stored user is alerted exactly when the incidence is new and the user is an active admin |
| Signals.TratamientoSaved | utils/signals.py:63-80 | only creation notifies, one `informativa` per active admin with the treatment message |
| Signals.TratamientoNotifiesActiveAdmins | utils/signals.py:66-80 | a stored user is notified exactly when the treatment is new and the user is an active admin |
| Signals.EventoMessage | utils/signals.py:97-103 | the message starts with the event title and ends ` (HOY)` exactly when the date is today, else ` (MAÑANA)` |
| Signals.EventoSaved | utils/signals.py:83-110 | only a new event dated today or tomorrow notifies, one `recordatorio` per active user with that message |
| Signals.EventoNotifiesActiveUsers | utils/signals.py:91-110 | a stored user is notified exactly when the event is new, soon and the user active |
| RecordHooks.NewNotificationReachesOwner | utils/signals.py:113-118 | a created notification reaches a fresh notification stream exactly when the stream's user owns it, and arrives as a `notification` frame carrying the record |
| RecordHooks.NewLogReachesAdmins | utils/signals.py:121-126 | a created log reaches a fresh log stream exactly when the stream's user is an admin, and arrives as a `new_log` frame |
| RecordHooks.ResaveIsSilent | utils/signals.py:116-118 | re-saving a notification marked read publishes nothing; creation publishes once to its user group |
| Permissions.AdminIsAdminOrUsuario | utils/permissions.py:3-35 | an admin passes `IsAdminOrUsuario` |
| Permissions.AdminOrUsuarioExactly | utils/permissions.py:19-35 | `IsAdminOrUsuario` holds exactly for authenticated users with rol admin or usuario; dueño is denied |
| Permissions.RoleChecksExactly | utils/permissions.py:3-65 | `IsAdminUser` holds exactly for authenticated admins, `IsAuthenticatedAndActive` for authenticated active users, `IsSelfOrAdmin` for admins or the target user |
| Permissions.AnonymousFailsRoleChecks | utils/permissions.py:3-65 | an anonymous user fails all four checks |
| Permissions.SelfOrAdminIgnoresActivo | utils/permissions.py:38-50 | an inactive admin or the target user itself passes `IsSelfOrAdmin` while failing `IsAuthenticatedAndActive` |
| Cors.AllowOrigin | utils/cors_middleware.py:39-50 | an allowlisted origin is echoed, an empty one becomes `http://localhost:5173`, any other `*`; never empty |
| Cors.AddCorsHeaders | utils/cors_middleware.py:32-62 | status and body are kept, the five CORS headers are set with their fixed values, a header naming one of them in another case is replaced, and every other header is kept |
| Cors.SetHeader | utils/cors_middleware.py:47-55 | `response[name] = value` replaces every header of that name ignoring case and keeps all others |
| Cors.CorsHeadersKeys | utils/cors_middleware.py:47-55 | the five assignments leave exactly the CORS names plus the downstream headers that name none of them, with the fixed values |
| Cors.CorsHeaderOnce | utils/cors_middleware.py:47-55 | after the middleware, a header naming a CORS header ignoring case is that header itself |
| Cors.LowerCaseOriginReplaced | utils/cors_middleware.py:47-50 | a downstream `access-control-allow-origin` is gone and the middleware's value stands |
| Cors.Handle | utils/cors_middleware.py:11-30 | OPTIONS answers `{'status': 'ok'}` with CORS headers; otherwise the downstream response gets the headers; an exception becomes a 500 error body; the OPTIONS and error answers carry exactly the five CORS headers and `Content-Type: application/json`; origin and credentials headers are always set |
| Cors.OptionsIgnoresDownstream | utils/cors_middleware.py:13-15 | an OPTIONS answer is 200 and does not depend on the downstream |
| Cors.AllowOriginNeverEmpty | utils/cors_middleware.py:47-50 | every response carries a non-empty Allow-Origin |
| Cors.WildcardWithCredentials | utils/cors_middleware.py:47-55 | a foreign origin gets `*` together with Allow-Credentials `true` |
| Viewsets.TratamientoAccess | tratamientos/views.py:18-22 | POST admits exactly authenticated admins; every other method admits exactly authenticated users |
| Viewsets.TratamientosVisible | tratamientos/views.py:12-16 | an admin sees all treatments; a non-admin only those it administered |
| Viewsets.TratamientoVisibility | tratamientos/views.py:12-16 | a treatment is visible exactly when stored and the viewer is admin or its administrator |
| Viewsets.NonAdminMayModifyOwn | tratamientos/views.py:19-22 | a non-admin may PUT, PATCH or DELETE a treatment it administered |
| Viewsets.NotificacionCreateOpen | notificaciones/views.py:18-22 | as written, a POST is admitted for every caller, anonymous included |
| Viewsets.NotificacionAccessIntended | notificaciones/views.py:18-22 | corrected: POST admits exactly authenticated admins and anonymous callers are never admitted |
| Viewsets.NotificacionNonPostUnchanged | notificaciones/views.py:22 | non-POST methods admit exactly authenticated users, as in the code |
| Viewsets.NotificacionesVisible | notificaciones/views.py:12-16 | an admin sees all notifications; a non-admin only its own |
| Viewsets.NotificacionVisibility | notificaciones/views.py:12-16 | a notification is visible exactly when stored and the viewer is admin or its owner |
| Viewsets.IncidenciaAccess | incidencias/views.py:10 | every method admits exactly authenticated users |
| Viewsets.IncidenciasVisible | incidencias/views.py:12-17 | an admin sees all incidences; a non-admin only those it created |
| Viewsets.IncidenciaVisibility | incidencias/views.py:12-17 | visible exactly when stored and admin or creator; a non-admin's view is within the admin's; reporting without creating does not make it visible |
| Usuarios.CreateUser | usuarios/models.py:7-24 | a missing or empty email fails with the required-email error; an address already stored, after normalising, fails with the unique-constraint error; otherwise the user is appended with the next id, the normalised email and the field defaults (active, not staff) |
| Usuarios.CreateSuperuser | usuarios/models.py:16-19 | fails exactly when the email is missing, empty or already stored after normalising |
| Usuarios.SuperuserFields | usuarios/models.py:16-19 | it succeeds exactly when `create_user` does; staff and superuser then default to True, caller values override, every other field is as `create_user` makes it |
| Usuarios.EmailRegisteredOnce | usuarios/models.py:24 | after a user is created, creating another with the same email fails with the unique-constraint error |
| Usuarios.EmptyEmailRejected | usuarios/models.py:8-9 | None or empty email is rejected by both managers |
| Usuarios.RolChoiceNotEnforced | usuarios/models.py:25-29 | a created user's rol is one of the three choices exactly when the caller passed one of them |
| Ordering.Filter | logs/consumers.py:136-143 | the kept rows satisfy the condition and are drawn from the input |
| Ordering.FilterMembership | logs/consumers.py:136-143 | a row is kept exactly when it is in the input and satisfies the condition |
| Ordering.SortNewestFirst | logs/consumers.py:127 | the result is newest first and a permutation of the input |
| Ordering.SortMembership | logs/consumers.py:127 | the sorted rows are exactly the input rows |
| Ordering.Take | logs/consumers.py:127 | slicing gives a prefix of length min(n, size) |
| Ordering.TakeNewestFirst | logs/consumers.py:127 | a prefix of a newest-first sequence is newest first |
| Ordering.TopK | logs/consumers.py:145 | `order_by('-key')[:n]` returns min(n, size) of the rows, and no row it leaves out is newer than a row it returns |
| Text.Split | animales/views.py:152 | `str.split` yields at least one part, and exactly one when the separator does not occur |
| Text.JoinSplit | animales/views.py:157 | joining the parts of a split with the same separator gives the original string |
| Text.Extension | animales/views.py:60 | `os.path.splitext(name)[1]` is empty or a dot-led suffix with no further dot or slash; it is empty when there is no dot |
| Text.Lower | animales/views.py:60 | lower-casing ASCII text keeps its length and lowers each capital in place |
| Text.Prefix | animales/views.py:62 | `[:8]` is a prefix of length min(8, size) |
| Text.NatToStringInjective | utils/websocket_utils.py:16 | distinct ids print differently |
| Text.IntToStringInjective | utils/websocket_utils.py:122 | distinct integers print differently |
| Text.IntToStringParses | logs/consumers.py:142-143 | `int(str(i)) == i`: every printed integer is an integer literal that reads back as the integer |

## Left out

- Storage SDK calls (bucket lookup, blob upload, delete, make_public, exists), Firebase initialisation and `process_image` (PIL) are foreign I/O. Their outcomes are parameters: `StorageEnv` and `UploadEnv`.
- The `requests.head` probe in `upload_image` is network I/O and is not modelled.
- JWT signature and expiry checks are an uninterpreted `decode` parameter.
- The `except Exception` around `get_user_from_token` maps failures to anonymous, which is what `decode` returning None stands for.
- Async delivery, `database_sync_to_async`, cross-process transport: the registry is sequential and delivery is the set of group members (`Channels.Recipients`).
- The channel layer's group-name length and character rules are modelled only as far as `Channels.ValidGroupName` needs. An animal id whose printed form is too long is treated as the layer's rejection.
- `datetime.now`, `date.today` and `uuid4` are parameters.
- Float fields such as `peso_actual` are not modelled, and `Json` has no float case.
- URL confs, ASGI routing, admin, serializers, apps and the health-check view are wiring. A serialized record is an opaque `Payload` or `AnimalData`.
- The eventos, logs and grupos viewsets are only `IsAdminUser`, which `Permissions.RoleChecksExactly` covers.
- logs/utils.py is a single ORM insert, represented by a `LogRequest` value.
- The `perform_create` and `perform_destroy` hooks of the animal viewset are not modelled.
- The debug `print` calls are not modelled.
- NotificacionConsumer.Receive: an id text that `int()` accepts only after stripping whitespace or dropping underscores (`" 5"`, `"1_0"`) makes `mark_as_read` raise in the model; bare integer literals such as `"5"` select their number, as in the ORM.
- LogConsumer.FilteredOf: the same holds for a `usuario_id` text with whitespace or underscores, which is a lookup error in the model.
- AnimalViews.ExtractFirebasePath: the unreachable `firebasestorage` branch is kept, but without `urllib.parse.unquote`, since no input reaches it.
- LogConsumer.FilteredOf: a `tipo_accion` or `entidad_afectada` filter value that is an array or an object matches nothing in the model. The ORM compares the text column with the value's Python `str()` (`["x"]` selects logs whose field is `"['x']"`); the model does not render arrays or objects, whose key order a Dafny map does not keep.
- NotificacionConsumer.Pending: an exception inside `send_pending_notifications` is not modelled; the replay always succeeds.
- Ordering.SortNewestFirst: the database leaves the order of equal timestamps unspecified; the model keeps store order for ties.
- What a consumer does after a handler raises is outside the model. The step carries a `raised` flag and no frames.
- `normalize_email` is a parameter; `set_password` is reduced to whether the password is usable.
- WebsocketUtils.SendTratamientoReminder: `str(tratamiento)` is passed in as text, because `__str__` of the model is not part of this model.
- Cors.SetHeader: header names are compared after `Text.Lower`, which lowers ASCII capitals only, where Django lowers them with `str.lower`; the two differ only on non-ASCII names, which HTTP header names are not.
- Text.Lower: only the ASCII capitals are lowered. Python's `str.lower` also lowers other letters and can change the length (`'İ'` becomes two characters).
- AnimalViews.LowerExtensionShape: the length and lower-case claims hold for the ASCII lowering only, so they say nothing about non-ASCII extensions.
- AnimalViews.ObjectNameShape: the extension is lowered as `Text.Lower` lowers it, ASCII capitals only.
- AnimalViews.SubirImagen: `animal.save()` fires `animal_saved`, which publishes the record through `send_animal_update` (utils/signals.py:24-34), and the `registrar_log` insert fires `log_saved` (utils/signals.py:121-126). The outcome does not carry these publications; they are modelled only by `Signals.AnimalSaved` and `RecordHooks.LogSaved`.
- AnimalViews.EliminarImagen: the same two publications follow its save and its log, and are likewise modelled only by `Signals.AnimalSaved` and `RecordHooks.LogSaved`.
- TokenAuth.QueryToken: the token is the text between the first `token=` and the second, up to `&`, as the code splits. A query string holding `token=` twice therefore yields only the text before the second occurrence.

## Findings

| source | as written | input that shows it | evidently intended | confidence | as-written member | corrected member |
|---|---|---|---|---|---|---|
| animales/views.py:133-142 | `get_object()` raises `Http404`, not `Animal.DoesNotExist`, so the generic handler answers 500 "Error interno del servidor" | `POST /animales/<absent id>/subir_imagen/` | answer 404 "Animal no encontrado" | not executed | AnimalViews.SubirMissingAnimalIs500 | AnimalViews.SubirImagenIntended |
| notificaciones/views.py:18-22 | POST uses `IsSelfOrAdmin`, whose `has_permission` is the default that always admits, so any caller, anonymous included, may create notifications | an anonymous `POST /notificaciones/` | only admins may create ("Solo admin puede crear") | not executed | Viewsets.NotificacionCreateOpen | Viewsets.NotificacionAccessIntended |

=== FILE: animal_consumer.dfy ===
/** `AnimalConsumer`: live animal changes over a WebSocket. Connect joins
    `animal_updates`; the client may subscribe to single animals; the three
    push handlers relay animal events. */
module AnimalConsumer {
  import opened Wrappers
  import opened Text
  import opened Domain
  import opened Channels
  import opened TokenAuth

  const UpdatesGroup: string := "animal_updates"
  const WelcomeMessage: string := "Conectado a actualizaciones de animales"
  const Unauthorized: int := 4001

  /** `connect` for the user the token resolved to (`None`: anonymous). */
  function Connect(c: Conn, user: Option<Usuario>, reg: Registry): (r: Step)
    ensures user.Some? ==>
      && r.reg == GroupAdd(reg, UpdatesGroup, c.id)
      && r.conn == c.(user := user, roomGroup := Some(UpdatesGroup), state := Open)
      && r.out == [ConnectionEstablished(WelcomeMessage, None)]
    ensures user.None? ==>
      r == Step(c.(state := Closed(Unauthorized)), reg, [], false)
    ensures !r.raised && r.conn.id == c.id
    ensures forall d ::
              GroupsOf(r.reg, d) ==
                if d == c.id && user.Some? then GroupsOf(reg, d) + {UpdatesGroup} else GroupsOf(reg, d)
  {
    GroupsOfAddAll(reg, UpdatesGroup, c.id);
    match user
    case Some(_) =>
      Step(c.(user := user, roomGroup := Some(UpdatesGroup), state := Open),
           GroupAdd(reg, UpdatesGroup, c.id), [ConnectionEstablished(WelcomeMessage, None)], false)
    case None => Step(c.(state := Closed(Unauthorized)), reg, [], false)
  }

  /** `connect` as reached from the handshake: the user comes from the
      query string's token. */
  function ConnectWithQuery(id: ConnId, qs: string, decode: string -> Option<Claims>,
                            users: seq<Usuario>, reg: Registry): Step
  {
    Connect(NewConn(id), ResolveUser(qs, decode, users), reg)
  }

  /** An authenticated connect makes a fresh connection a member of exactly
      `animal_updates` and sends one greeting. */
  lemma ConnectJoinsUpdates(id: ConnId, u: Usuario, reg: Registry)
    requires GroupsOf(reg, id) == {}
    ensures var r := Connect(NewConn(id), Some(u), reg);
      GroupsOf(r.reg, id) == {UpdatesGroup} && |r.out| == 1 && r.out[0].ConnectionEstablished?
  {
    GroupsOfAdd(reg, UpdatesGroup, id, id);
  }

  /** Without a token, or with an empty one, connect closes with 4001, joins
      nothing and sends nothing, whatever the token verifier would say. */
  lemma NoTokenClosed(id: ConnId, qs: string, decode: string -> Option<Claims>, users: seq<Usuario>, reg: Registry)
    requires QueryToken(qs).None? || QueryToken(qs) == Some("")
    ensures var r := ConnectWithQuery(id, qs, decode, users, reg);
      r.conn.state == Closed(4001) && r.reg == reg && r.out == []
  {
    NoTokenIsAnonymous(qs, decode, decode, users);
  }

  /** Python's `str()` of a decoded JSON scalar, as used in `f'animal_{animal_id}'`;
      arrays and objects render with a bracket first and so never form a
      valid group name. */
  function Render(j: Json): Option<string> {
    match j
    case JNull => Some("None")
    case JBool(b) => Some(if b then "True" else "False")
    case JInt(i) => Some(IntToString(i))
    case JStr(s) => Some(s)
    case JArr(_) => None
    case JObj(_) => None
  }

  /** The group of a subscription, when the layer accepts its name. */
  function AnimalGroup(animalId: Json): (g: Option<string>)
    ensures g.Some? ==> ValidGroupName(g.value) && StartsWith(g.value, "animal_")
  {
    match Render(animalId)
    case None => None
    case Some(s) =>
      var name := "animal_" + s;
      if ValidGroupName(name) then
        assert name[..7] == "animal_";
        Some(name)
      else None
  }

  /** Subscribing with an animal's numeric id joins the group its updates
      are published to. */
  lemma NumericIdGroup(id: nat)
    requires |NatToString(id)| < 93
    ensures AnimalGroup(JInt(id)) == Some("animal_" + NatToString(id))
  {
    var name := "animal_" + NatToString(id);
    forall k | 0 <= k < |name| ensures GroupNameChar(name[k]) {
      if k >= 7 {
        assert name[k] == NatToString(id)[k - 7];
      }
    }
  }

  /** `receive`. */
  function Receive(c: Conn, frame: Frame, reg: Registry): (r: Step)
    ensures r.conn == c
    ensures frame.InvalidJson? ==> r == Step(c, reg, [ErrorFrame(InvalidJsonMessage)], false)
    ensures frame.Decoded? && !frame.value.JObj? ==> r.raised && r.reg == reg && r.out == []
    ensures |r.out| <= 1
    ensures r.raised ==> r.reg == reg && r.out == []
  {
    match frame
    case InvalidJson => Step(c, reg, [ErrorFrame(InvalidJsonMessage)], false)
    case Decoded(v) =>
      if !v.JObj? then Step(c, reg, [], true)
      else
        var data := v.fields;
        var kind := Get(data, "type");
        if kind == JStr("subscribe_animal") then
          var animalId := Get(data, "animal_id");
          match AnimalGroup(animalId)
          case None => Step(c, reg, [], true)
          case Some(g) => Step(c, GroupAdd(reg, g, c.id), [SubscriptionConfirmed(animalId)], false)
        else if kind == JStr("unsubscribe_animal") then
          var animalId := Get(data, "animal_id");
          match AnimalGroup(animalId)
          case None => Step(c, reg, [], true)
          case Some(g) => Step(c, GroupDiscard(reg, g, c.id), [UnsubscriptionConfirmed(animalId)], false)
        else if kind == JStr("ping") then
          Step(c, reg, [Pong(Get(data, "timestamp"))], false)
        else Step(c, reg, [], false)
  }

  /** A subscription joins `animal_<id>`, leaves every other group alone and
      echoes the id; unsubscribing undoes it. */
  lemma SubscribeUnsubscribe(c: Conn, animalId: Json, reg: Registry)
    requires AnimalGroup(animalId).Some? && WellFormed(reg)
    requires c.id !in Members(reg, AnimalGroup(animalId).value)
    ensures var g := AnimalGroup(animalId).value;
      var s := Receive(c, Decoded(JObj(map["type" := JStr("subscribe_animal"), "animal_id" := animalId])), reg);
      var u := Receive(c, Decoded(JObj(map["type" := JStr("unsubscribe_animal"), "animal_id" := animalId])), s.reg);
      && GroupsOf(s.reg, c.id) == GroupsOf(reg, c.id) + {g}
      && s.out == [SubscriptionConfirmed(animalId)]
      && u.out == [UnsubscriptionConfirmed(animalId)]
      && u.reg == reg
  {
    var g := AnimalGroup(animalId).value;
    GroupsOfAdd(reg, g, c.id, c.id);
    AddThenDiscard(reg, g, c.id);
  }

  /** `ping` answers `pong` with the same timestamp; memberships stay. */
  lemma PingPong(c: Conn, fields: map<string, Json>, reg: Registry)
    requires Get(fields, "type") == JStr("ping")
    ensures Receive(c, Decoded(JObj(fields)), reg) == Step(c, reg, [Pong(Get(fields, "timestamp"))], false)
  {
  }

  /** A message of any other type gets no answer and changes nothing. */
  lemma UnknownTypeIgnored(c: Conn, fields: map<string, Json>, reg: Registry)
    requires Get(fields, "type") !in {JStr("subscribe_animal"), JStr("unsubscribe_animal"), JStr("ping")}
    ensures Receive(c, Decoded(JObj(fields)), reg) == Step(c, reg, [], false)
  {
  }

  /** The push handlers: an animal event is relayed with its tag and data
      untouched; an event without a handler raises. */
  function Push(c: Conn, reg: Registry, ev: Event): (r: Step)
    ensures r.conn == c && r.reg == reg
    ensures ev.kind in {"animal_created", "animal_updated", "animal_deleted"} ==>
      r.out == [Relayed(ev.kind, ev.data)] && !r.raised
    ensures ev.kind !in {"animal_created", "animal_updated", "animal_deleted"} ==> r.raised && r.out == []
  {
    if ev.kind in {"animal_created", "animal_updated", "animal_deleted"} then
      Step(c, reg, [Relayed(ev.kind, ev.data)], false)
    else Step(c, reg, [], true)
  }

  /** `disconnect`: leaves `room_group_name` if connect set it. */
  function Disconnect(c: Conn, code: int, reg: Registry): Step {
    LeaveRoom(c, code, reg)
  }

  /** Disconnect releases `animal_updates` only: a connection that subscribed
      to an animal stays in that animal's group after it is gone. */
  lemma DisconnectKeepsSubscriptions(id: ConnId, u: Usuario, animalId: Json, code: int, reg: Registry)
    requires GroupsOf(reg, id) == {}
    requires AnimalGroup(animalId).Some?
    ensures var g := AnimalGroup(animalId).value;
      var s1 := Connect(NewConn(id), Some(u), reg);
      var s2 := Receive(s1.conn, Decoded(JObj(map["type" := JStr("subscribe_animal"), "animal_id" := animalId])), s1.reg);
      var s3 := Disconnect(s2.conn, code, s2.reg);
      && GroupsOf(s3.reg, id) == {g} - {UpdatesGroup}
      && (g != UpdatesGroup ==> id in Members(s3.reg, g))
  {
    var g := AnimalGroup(animalId).value;
    var s1 := Connect(NewConn(id), Some(u), reg);
    GroupsOfAdd(reg, UpdatesGroup, id, id);
    var s2 := Receive(s1.conn, Decoded(JObj(map["type" := JStr("subscribe_animal"), "animal_id" := animalId])), s1.reg);
    GroupsOfAdd(s1.reg, g, id, id);
    GroupsOfDiscard(s2.reg, UpdatesGroup, id, id);
  }
}

=== FILE: animal_views.dfy ===
/** animales/views.py: access rules of the animal resource, the image upload
    and removal actions, the storage-path extractor they share, and the
    field diff recorded on update. Storage calls appear only as outcomes. */
module AnimalViews {
  import opened Wrappers
  import opened Text
  import opened Domain
  import opened Permissions

  /** `get_permissions`: read-only methods need a login, the rest an admin. */
  function PermissionsFor(m: Method): (ps: seq<Permission>)
    ensures |ps| == 1
  {
    if IsSafe(m) then [AllowAuthenticated] else [AdminUser]
  }

  /** Reads need only authentication; every other method needs an admin.
      This also governs the two image actions: `get_permissions` never
      consults the classes an action declares, so uploading (POST) is
      admin-only although `subir_imagen` lists `IsAuthenticated`. */
  lemma AnimalAccess(m: Method, ru: RequestUser)
    ensures IsSafe(m) ==> (Admits(PermissionsFor(m), ru) <==> IsAuthenticated(ru))
    ensures !IsSafe(m) ==> (Admits(PermissionsFor(m), ru) <==> IsAdminUser(ru))
    ensures Admits(PermissionsFor(POST), ru) <==> IsAdminUser(ru)
    ensures Admits(PermissionsFor(DELETE), ru) <==> IsAdminUser(ru)
  {
    assert PermissionsFor(m)[0] == (if IsSafe(m) then AllowAuthenticated else AdminUser);
    assert PermissionsFor(POST)[0] == AdminUser;
    assert PermissionsFor(DELETE)[0] == AdminUser;
  }

  // ---------------------------------------------------------------------
  // Storage path of a stored image URL

  const StorageHost: string := "storage.googleapis.com"
  const FirebaseHost: string := "firebasestorage.googleapis.com"
  const BucketSegment: string := "geneticsimg"
  /** The URL prefix of an object in the `geneticsimg` bucket. */
  const BucketUrlPrefix: string := "https://" + StorageHost + "/" + BucketSegment + "/"

  /** `extract_firebase_path`. The `firebasestorage.googleapis.com` branch
      is kept as written (without its percent-decoding), although no URL
      reaches it: see `FirebaseBranchUnreachable`. */
  function ExtractFirebasePath(url: string): (r: Option<string>)
    ensures r.Some? ==> '?' !in r.value
    ensures BucketSegment !in Split(url, "/") && !Contains(url, FirebaseHost) ==> r.None?
  {
    if Contains(url, StorageHost) then
      var parts := Split(url, "/");
      if |parts| > 4 && BucketSegment in parts && FirstIndex(parts, BucketSegment) + 1 < |parts| then
        var joined := Join(parts[FirstIndex(parts, BucketSegment) + 1..], "/");
        SplitHeadFree(joined, "?");
        ContainsChar(Split(joined, "?")[0], '?');
        Some(Split(joined, "?")[0])
      else None
    else if Contains(url, FirebaseHost) then
      if Contains(url, "/o/") then
        var p := Split(Split(url, "/o/")[1], "?")[0];
        SplitHeadFree(Split(url, "/o/")[1], "?");
        ContainsChar(p, '?');
        Some(p)
      else None
    else None
  }

  /** `firebasestorage.googleapis.com` contains `storage.googleapis.com`, so
      a URL naming the first host always takes the first branch. */
  lemma FirebaseBranchUnreachable(url: string)
    ensures Contains(url, FirebaseHost) ==> Contains(url, StorageHost)
  {
    if Contains(url, FirebaseHost) {
      var i: nat :| i <= |url| && IsAt(url, FirebaseHost, i);
      assert FirebaseHost[8..] == StorageHost;
      SliceOfSlice(url, i, |FirebaseHost|, 8, |FirebaseHost|);
      assert IsAt(url, StorageHost, i + 8);
    }
  }

  /** Without the storage host in the URL there is no path. */
  lemma ExtractNeedsHost(url: string)
    requires !Contains(url, StorageHost)
    ensures ExtractFirebasePath(url) == None
  {
    FirebaseBranchUnreachable(url);
  }

  /** Without a `geneticsimg` segment, or with it as the last segment,
      there is no path. */
  lemma ExtractNeedsInnerBucketSegment(url: string)
    requires BucketSegment !in Split(url, "/") ||
      FirstIndex(Split(url, "/"), BucketSegment) == |Split(url, "/")| - 1
    ensures ExtractFirebasePath(url) == None
  {
    FirebaseBranchUnreachable(url);
  }

  /** The pieces of a URL under the bucket prefix. */
  lemma SplitBucketUrl(rest: string)
    ensures Split(BucketUrlPrefix + rest, "/") ==
      ["https:", "", StorageHost, BucketSegment] + Split(rest, "/")
  {
    assert BucketUrlPrefix + rest ==
      "https:" + ['/'] + ("" + ['/'] + (StorageHost + ['/'] + (BucketSegment + ['/'] + rest)));
    SplitCharCons4("https:", "", StorageHost, BucketSegment, '/', rest);
  }

  /** For a URL under the bucket prefix the extractor returns what follows
      the prefix, cut at the first `?`. */
  lemma {:induction false} ExtractUnderPrefix(rest: string)
    ensures ExtractFirebasePath(BucketUrlPrefix + rest) == Some(Split(rest, "?")[0])
  {
    var url := BucketUrlPrefix + rest;
    var tail := "/" + BucketSegment + "/" + rest;
    assert url == "https://" + StorageHost + tail;
    SliceMiddle("https://", StorageHost, tail);
    assert IsAt(url, StorageHost, 8);
    SplitBucketUrl(rest);
    var parts := Split(url, "/");
    assert parts[3] == BucketSegment;
    var k := FirstIndex(parts, BucketSegment);
    assert parts[0] != BucketSegment && parts[1] != BucketSegment && parts[2] != BucketSegment;
    assert k == 3;
    assert parts[k + 1..] == Split(rest, "/");
    JoinSplit(rest, "/");
  }

  /** Round trip: a path without `?` under the bucket prefix comes back. */
  lemma ExtractRoundTrip(p: string)
    requires '?' !in p
    ensures ExtractFirebasePath(BucketUrlPrefix + p) == Some(p)
  {
    ExtractUnderPrefix(p);
    SplitCharAbsent(p, '?');
  }

  /** A query string after the path is dropped. */
  lemma ExtractDropsQuery(p: string, q: string)
    requires '?' !in p
    ensures ExtractFirebasePath(BucketUrlPrefix + p + "?" + q) == Some(p)
  {
    assert BucketUrlPrefix + p + "?" + q == BucketUrlPrefix + (p + ['?'] + q);
    ExtractUnderPrefix(p + ['?'] + q);
    SplitCharHead(p, '?', q);
  }

  // ---------------------------------------------------------------------
  // subir_imagen

  /** An entry of `request.FILES`; `contentType` is `None` when the part
      carries no content type. */
  datatype UploadedFile = UploadedFile(name: string, contentType: Option<string>, size: nat)

  const AllowedTypes: seq<string> := ["image/jpeg", "image/jpg", "image/png", "image/gif", "image/webp"]
  const MaxImageBytes: nat := 5 * 1024 * 1024

  const NoImage: string := "No se envió ninguna imagen"
  const TypeNotAllowed: string := "Tipo de archivo no permitido. Use JPEG, PNG, GIF o WebP"
  const ImageTooLarge: string := "El archivo es demasiado grande. Máximo 5MB"
  const UploadFailedPrefix: string := "Error al subir a Firebase Storage: "
  const InternalErrorPrefix: string := "Error interno del servidor: "
  /** The text of the framework's not-found exception raised by `get_object`. */
  const NotFoundDetail: string := "No Animal matches the given query."

  /** The request validation of `subir_imagen`: the first failing check's
      message, or `None` when the file may be stored. */
  function ValidateUpload(image: Option<UploadedFile>): (err: Option<string>)
    ensures image.None? ==> err == Some(NoImage)
    ensures image.Some? && (image.value.contentType.None? || image.value.contentType.value !in AllowedTypes)
      ==> err == Some(TypeNotAllowed)
    ensures (image.Some? && image.value.contentType.Some? && image.value.contentType.value in AllowedTypes)
      ==> (err.None? <==> image.value.size <= MaxImageBytes)
    ensures err.Some? ==> err.value in {NoImage, TypeNotAllowed, ImageTooLarge}
  {
    match image
    case None => Some(NoImage)
    case Some(f) =>
      if f.contentType.None? || f.contentType.value !in AllowedTypes then Some(TypeNotAllowed)
      else if f.size > MaxImageBytes then Some(ImageTooLarge)
      else None
  }

  /** A file of exactly 5 MiB with an allowed type passes; one byte more does not. */
  lemma SizeBoundary(name: string, ct: string)
    requires ct in AllowedTypes
    ensures ValidateUpload(Some(UploadedFile(name, Some(ct), 5 * 1024 * 1024))) == None
    ensures ValidateUpload(Some(UploadedFile(name, Some(ct), 5 * 1024 * 1024 + 1))) == Some(ImageTooLarge)
  {
  }

  /** The object name: `animales/<chapeta>_<timestamp>_<uuid[:8]><ext>` with
      the original extension lower-cased. */
  function ObjectName(chapeta: string, timestamp: string, uuid: string, fileName: string): string {
    "animales/" + chapeta + "_" + timestamp + "_" + Prefix(uuid, 8) + Lower(Extension(fileName))
  }

  /** The object name decomposes into the fixed folder, the tag, the time
      stamp, at most eight characters of the uuid and an extension that is
      empty or a dot followed by characters that are neither ASCII
      capitals nor `.`/`/`. */
  lemma ObjectNameShape(chapeta: string, timestamp: string, uuid: string, fileName: string)
    ensures var n := ObjectName(chapeta, timestamp, uuid, fileName);
      var head := "animales/" + chapeta + "_" + timestamp + "_";
      var ext := Lower(Extension(fileName));
      && StartsWith(n, head)
      && n == head + Prefix(uuid, 8) + ext
      && |Prefix(uuid, 8)| <= 8 && Prefix(uuid, 8) <= uuid
      && |ext| == |Extension(fileName)|
      && (ext == [] || ext[0] == '.')
      && (forall k :: 0 <= k < |ext| ==> !('A' <= ext[k] <= 'Z'))
      && ('.' !in fileName ==> ext == [])
  {
    var head := "animales/" + chapeta + "_" + timestamp + "_";
    var tail := Prefix(uuid, 8) + Lower(Extension(fileName));
    StartsWithConcat(head, tail);
    assert head + tail == ObjectName(chapeta, timestamp, uuid, fileName);
    LowerExtensionShape(fileName);
  }

  /** The lower-cased extension is empty or a dot and text without ASCII
      capitals. */
  lemma LowerExtensionShape(fileName: string)
    ensures var ext := Lower(Extension(fileName));
      && |ext| == |Extension(fileName)|
      && (ext == [] || ext[0] == '.')
      && (forall k :: 0 <= k < |ext| ==> !('A' <= ext[k] <= 'Z'))
      && ('.' !in fileName ==> ext == [])
  {
  }

  /** What a storage call does when reached: `storage.bucket()` failing,
      `blob.delete()` failing, `upload_from_file` failing or `make_public`
      failing after a stored upload, each with the exception's message, and
      the `public_url` of a successful upload. */
  datatype StorageEnv = StorageEnv(
    bucketError: Option<string>,
    deleteError: Option<string>,
    uploadError: Option<string>,
    makePublicError: Option<string>,
    publicUrl: string)

  /** The arguments of a `registrar_log` call. */
  datatype LogRequest = LogRequest(
    usuario: nat,
    tipoAccion: string,
    entidadAfectada: string,
    entidadId: string,
    cambios: Option<map<string, Change>>,
    observaciones: string)

  datatype SubirResponse =
    | SubirBadRequest(error: string)
    | SubirNotFound
    | SubirServerError(error: string)
    | SubirOk(url: string, animalId: nat, fileName: string)
  {
    function Status(): int {
      match this
      case SubirBadRequest(_) => 400
      case SubirNotFound => 404
      case SubirServerError(_) => 500
      case SubirOk(_, _, _) => 200
    }
  }

  /** Response, the animal as stored afterwards, the bucket's objects
      afterwards, and the log written. */
  datatype SubirOutcome = SubirOutcome(
    response: SubirResponse,
    animal: Option<Animal>,
    blobs: set<string>,
    log: Option<LogRequest>)

  /** The bucket after the best-effort removal of the animal's previous
      image: removal failures are swallowed. */
  function RemoveOldImage(a: Animal, blobs: set<string>, env: StorageEnv): (r: set<string>)
    ensures r <= blobs
    ensures env.deleteError.Some? ==> r == blobs
    ensures r != blobs ==>
      && Present(a.fotoPerfilUrl)
      && ExtractFirebasePath(a.fotoPerfilUrl.value).Some?
      && r == blobs - {ExtractFirebasePath(a.fotoPerfilUrl.value).value}
  {
    if Present(a.fotoPerfilUrl) then
      match ExtractFirebasePath(a.fotoPerfilUrl.value)
      case Some(prev) =>
        if prev != "" && prev in blobs && env.deleteError.None? then blobs - {prev} else blobs
      case None => blobs
    else blobs
  }

  /** `subir_imagen` for the animal `lookup` found (or `None`), uploaded by
      user `actor`. A missing animal makes `get_object` raise the framework's
      not-found exception, which is not `Animal.DoesNotExist`: the generic
      handler turns it into a 500. */
  function SubirImagen(lookup: Option<Animal>, image: Option<UploadedFile>, actor: nat,
                       timestamp: string, uuid: string, blobs: set<string>, env: StorageEnv): (r: SubirOutcome)
    ensures lookup.None? ==>
      r == SubirOutcome(SubirServerError(InternalErrorPrefix + NotFoundDetail), None, blobs, None)
    ensures lookup.Some? && ValidateUpload(image).Some? ==>
      r == SubirOutcome(SubirBadRequest(ValidateUpload(image).value), lookup, blobs, None)
    ensures r.response.SubirOk? <==>
      && lookup.Some? && ValidateUpload(image).None? && env.bucketError.None?
      && env.uploadError.None? && env.makePublicError.None?
    ensures lookup.Some? && ValidateUpload(image).None? && env.bucketError.None? ==>
      var name := ObjectName(lookup.value.chapeta, timestamp, uuid, image.value.name);
      var kept := RemoveOldImage(lookup.value, blobs, env);
      && (env.uploadError.Some? ==> r.blobs == kept)
      && (env.uploadError.None? ==> r.blobs == kept + {name})
    ensures r.response.SubirOk? ==>
      && r.response.url == env.publicUrl
      && r.response.fileName == ObjectName(lookup.value.chapeta, timestamp, uuid, image.value.name)
      && r.animal == Some(lookup.value.(fotoPerfilUrl := Some(env.publicUrl)))
      && r.response.fileName in r.blobs
      && r.log.Some?
    ensures !r.response.SubirOk? ==> r.animal == lookup && r.log.None?
  {
    match lookup
    case None => SubirOutcome(SubirServerError(InternalErrorPrefix + NotFoundDetail), None, blobs, None)
    case Some(a) =>
      match ValidateUpload(image)
      case Some(err) => SubirOutcome(SubirBadRequest(err), lookup, blobs, None)
      case None =>
        var name := ObjectName(a.chapeta, timestamp, uuid, image.value.name);
        match env.bucketError
        case Some(e) => SubirOutcome(SubirServerError(UploadFailedPrefix + e), lookup, blobs, None)
        case None =>
          var kept := RemoveOldImage(a, blobs, env);
          match env.uploadError
          case Some(e) => SubirOutcome(SubirServerError(UploadFailedPrefix + e), lookup, kept, None)
          case None =>
            match env.makePublicError
            case Some(e) => SubirOutcome(SubirServerError(UploadFailedPrefix + e), lookup, kept + {name}, None)
            case None =>
              var a' := a.(fotoPerfilUrl := Some(env.publicUrl));
              var log := LogRequest(actor, "actualizar_imagen", "animal", NatToString(a.id), None,
                "Imagen actualizada para animal " + a.chapeta + " - Firebase Storage");
              SubirOutcome(SubirOk(env.publicUrl, a.id, name), Some(a'), kept + {name}, Some(log))
  }

  /** As written, uploading to a missing animal answers 500, not the 404 the
      `Animal.DoesNotExist` handler was meant to produce. */
  lemma SubirMissingAnimalIs500(image: Option<UploadedFile>, actor: nat, timestamp: string,
                                uuid: string, blobs: set<string>, env: StorageEnv)
    ensures SubirImagen(None, image, actor, timestamp, uuid, blobs, env).response.Status() == 500
  {
  }

  /** `subir_imagen` with the not-found case answered 404 as intended. */
  function SubirImagenIntended(lookup: Option<Animal>, image: Option<UploadedFile>, actor: nat,
                               timestamp: string, uuid: string, blobs: set<string>, env: StorageEnv): (r: SubirOutcome)
    ensures lookup.None? ==> r == SubirOutcome(SubirNotFound, None, blobs, None) && r.response.Status() == 404
    ensures lookup.Some? ==> r == SubirImagen(lookup, image, actor, timestamp, uuid, blobs, env)
  {
    if lookup.None? then SubirOutcome(SubirNotFound, None, blobs, None)
    else SubirImagen(lookup, image, actor, timestamp, uuid, blobs, env)
  }

  /** A request without an image is refused before its type or size is
      looked at, and before any storage call. */
  lemma MissingImageFirst(a: Animal, actor: nat, timestamp: string, uuid: string, blobs: set<string>, env: StorageEnv)
    ensures SubirImagen(Some(a), None, actor, timestamp, uuid, blobs, env) ==
      SubirOutcome(SubirBadRequest(NoImage), Some(a), blobs, None)
  {
  }

  /** The previous image is removed before the upload is tried, so a failed
      upload can leave the animal pointing at an object that is gone. When
      only `make_public` fails, the new object stays in the bucket,
      referenced by nothing. */
  lemma FailedUploadMayOrphanReference(a: Animal, image: UploadedFile, actor: nat, p: string,
                                       timestamp: string, uuid: string, blobs: set<string>, env: StorageEnv)
    requires ValidateUpload(Some(image)).None?
    requires env.bucketError.None? && env.deleteError.None?
    requires env.uploadError.Some? || env.makePublicError.Some?
    requires '?' !in p && p != "" && a.fotoPerfilUrl == Some(BucketUrlPrefix + p)
    ensures var r := SubirImagen(Some(a), Some(image), actor, timestamp, uuid, blobs, env);
      var name := ObjectName(a.chapeta, timestamp, uuid, image.name);
      && r.response.Status() == 500 && r.animal == Some(a)
      && (p != name ==> p !in r.blobs)
      && (env.uploadError.Some? ==> r.blobs == blobs - {p})
      && (env.uploadError.None? ==> r.blobs == (blobs - {p}) + {name})
  {
    ExtractRoundTrip(p);
  }

  // ---------------------------------------------------------------------
  // eliminar_imagen

  datatype EliminarResponse =
    | EliminarNotFound
    | EliminarOk(message: string, warning: Option<string>)
  {
    function Status(): int {
      match this
      case EliminarNotFound => 404
      case EliminarOk(_, _) => 200
    }
  }

  datatype EliminarOutcome = EliminarOutcome(
    response: EliminarResponse,
    animal: Option<Animal>,
    blobs: set<string>,
    log: Option<LogRequest>)

  const NoProfileImage: string := "El animal no tiene imagen de perfil"
  const ImageRemoved: string := "Imagen eliminada exitosamente"
  const ReferenceRemoved: string := "Referencia de imagen eliminada (posible error en Firebase)"

  /** `eliminar_imagen` for the animal `lookup` found (or `None`). */
  function EliminarImagen(lookup: Option<Animal>, actor: nat, blobs: set<string>, env: StorageEnv): (r: EliminarOutcome)
    ensures lookup.None? ==> r == EliminarOutcome(EliminarNotFound, None, blobs, None)
    ensures lookup.Some? && !Present(lookup.value.fotoPerfilUrl) ==>
      r == EliminarOutcome(EliminarOk(NoProfileImage, None), lookup, blobs, None)
    ensures lookup.Some? && Present(lookup.value.fotoPerfilUrl) ==>
      && r.animal == Some(lookup.value.(fotoPerfilUrl := None))
      && r.response.Status() == 200
      && r.blobs <= blobs
      && (r.log.Some? <==> r.response.warning.None?)
  {
    match lookup
    case None => EliminarOutcome(EliminarNotFound, None, blobs, None)
    case Some(a) =>
      if !Present(a.fotoPerfilUrl) then EliminarOutcome(EliminarOk(NoProfileImage, None), lookup, blobs, None)
      else
        var cleared := Some(a.(fotoPerfilUrl := None));
        match env.bucketError
        case Some(e) => EliminarOutcome(EliminarOk(ReferenceRemoved, Some(e)), cleared, blobs, None)
        case None =>
          var path := ExtractFirebasePath(a.fotoPerfilUrl.value);
          if path.Some? && path.value != "" && path.value in blobs && env.deleteError.Some? then
            EliminarOutcome(EliminarOk(ReferenceRemoved, env.deleteError), cleared, blobs, None)
          else
            var blobs' := if path.Some? && path.value != "" && path.value in blobs then blobs - {path.value} else blobs;
            var log := LogRequest(actor, "eliminar_imagen", "animal", NatToString(a.id), None,
              "Imagen eliminada para animal " + a.chapeta);
            EliminarOutcome(EliminarOk(ImageRemoved, None), cleared, blobs', Some(log))
  }

  /** Removing an image stored at a bucket URL deletes exactly that object
      when storage works; when storage fails, the object stays but the
      reference is cleared all the same. */
  lemma EliminarRemovesObject(a: Animal, actor: nat, p: string, blobs: set<string>, env: StorageEnv)
    requires '?' !in p && p != "" && a.fotoPerfilUrl == Some(BucketUrlPrefix + p)
    ensures var r := EliminarImagen(Some(a), actor, blobs, env);
      && r.animal == Some(a.(fotoPerfilUrl := None))
      && (env.bucketError.None? && env.deleteError.None? ==> r.blobs == blobs - {p} && r.log.Some?)
      && (env.bucketError.Some? ==> r.blobs == blobs && r.response.warning == env.bucketError)
  {
    ExtractRoundTrip(p);
  }

  // ---------------------------------------------------------------------
  // perform_update

  /** One entry of `cambios`. */
  datatype Change = Change(antes: Json, despues: Json)

  /** The field diff of `perform_update` between the serialized animal
      before and after the save. Both snapshots come from the same
      serializer, so every field of the new one exists in the old one. */
  function Cambios(before: map<string, Json>, after: map<string, Json>): (r: map<string, Change>)
    requires after.Keys <= before.Keys
    ensures r.Keys <= after.Keys
    ensures forall f :: f in r ==> before[f] != after[f]
    ensures forall f :: f in after && f !in r ==> before[f] == after[f]
  {
    map f | f in after && before[f] != after[f] :: Change(before[f], after[f])
  }

  /** Applies a diff to a snapshot: every changed field takes its new value. */
  function ApplyCambios(before: map<string, Json>, c: map<string, Change>): (r: map<string, Json>)
    ensures r.Keys == before.Keys
  {
    map f | f in before :: if f in c then c[f].despues else before[f]
  }

  /** The diff records the old values and, applied to the old snapshot,
      rebuilds the new one. */
  lemma CambiosReconstruct(before: map<string, Json>, after: map<string, Json>)
    requires after.Keys == before.Keys
    ensures forall f :: f in Cambios(before, after) ==> Cambios(before, after)[f].antes == before[f]
    ensures ApplyCambios(before, Cambios(before, after)) == after
  {
  }

  /** The diff is empty exactly when the snapshots agree on every field. */
  lemma CambiosEmptyIff(before: map<string, Json>, after: map<string, Json>)
    requires after.Keys <= before.Keys
    ensures Cambios(before, after) == map[] <==> forall f :: f in after ==> before[f] == after[f]
  {
    if Cambios(before, after) != map[] {
      var f :| f in Cambios(before, after);
      assert before[f] != after[f];
    }
  }

  /** The log entry `perform_update` writes for animal `id` edited by `actor`. */
  function UpdateLog(actor: nat, id: nat, before: map<string, Json>, after: map<string, Json>): (l: LogRequest)
    requires after.Keys <= before.Keys
    ensures l.cambios == Some(Cambios(before, after))
    ensures l.tipoAccion == "editar" && l.entidadAfectada == "animal" && l.entidadId == NatToString(id)
    ensures l.cambios.value == map[] <==> forall f :: f in after ==> before[f] == after[f]
    ensures after.Keys == before.Keys ==> ApplyCambios(before, l.cambios.value) == after
  {
    var c := Cambios(before, after);
    CambiosEmptyIff(before, after);
    assert after.Keys == before.Keys ==> ApplyCambios(before, c) == after by {
      if after.Keys == before.Keys {
        CambiosReconstruct(before, after);
      }
    }
    LogRequest(actor, "editar", "animal", NatToString(id), Some(c), "Actualización de animal")
  }
}

=== FILE: auth.dfy ===
/** `get_user_from_token`, shared verbatim by the three consumers: the token
    is cut out of the WebSocket query string, verified as a JWT, and its
    `user_id` claim looked up. Verification (RFC 7519 with HS256, section
    3.2 of RFC 7518, and the expiry check) is the uninterpreted `decode`. */
module TokenAuth {
  import opened Wrappers
  import opened Text
  import opened Domain

  /** The claims of a token that verified. `userId` is the id the `user_id`
      claim selects in `Usuario.objects.get(id=...)`, which applies `int()`:
      a number, or a text holding a number (`"5"` selects user 5). It is
      `None` when the claim is absent or null, and when it is a text that
      is not a number, whose lookup error the outer handler turns into the
      anonymous user. */
  datatype Claims = Claims(userId: Option<int>)

  const TokenKey: string := "token="

  /** The token of a query string: `query_string.split('token=')[1].split('&')[0]`
      when `'token='` occurs, `None` otherwise. */
  function QueryToken(qs: string): (t: Option<string>)
    ensures t.None? <==> !Contains(qs, TokenKey)
    ensures t.Some? ==> '&' !in t.value
  {
    if Contains(qs, TokenKey) then
      var after := Split(qs, TokenKey)[1];
      SplitHeadFree(after, "&");
      ContainsChar(Split(after, "&")[0], '&');
      Some(Split(after, "&")[0])
    else None
  }

  /** `Usuario.objects.get(id=...)`, with ids unique in the store. */
  function FindUser(users: seq<Usuario>, id: int): (r: Option<Usuario>)
    ensures r.Some? ==> r.value in users && r.value.id == id
    ensures r.None? ==> forall u :: u in users ==> u.id != id
  {
    if |users| == 0 then None
    else if users[0].id == id then Some(users[0])
    else FindUser(users[1..], id)
  }

  /** The user a connection authenticates as; `None` is `AnonymousUser`. */
  function ResolveUser(qs: string, decode: string -> Option<Claims>, users: seq<Usuario>): (r: Option<Usuario>)
    ensures r.Some? <==>
      && QueryToken(qs).Some? && QueryToken(qs).value != ""
      && decode(QueryToken(qs).value).Some?
      && decode(QueryToken(qs).value).value.userId.Some?
      && decode(QueryToken(qs).value).value.userId.value != 0
      && exists u :: u in users && u.id == decode(QueryToken(qs).value).value.userId.value
    ensures r.Some? ==> r.value in users && r.value.id == decode(QueryToken(qs).value).value.userId.value
  {
    match QueryToken(qs)
    case None => None
    case Some(token) =>
      if token == "" then None
      else match decode(token)
        case None => None
        case Some(claims) =>
          match claims.userId
          case None => None
          case Some(uid) => if uid == 0 then None else FindUser(users, uid)
  }

  /** Without a token, or with an empty one, the connection is anonymous and
      the token is never decoded: the verifier's behaviour is irrelevant. */
  lemma NoTokenIsAnonymous(qs: string, d1: string -> Option<Claims>, d2: string -> Option<Claims>, users: seq<Usuario>)
    requires QueryToken(qs).None? || QueryToken(qs) == Some("")
    ensures ResolveUser(qs, d1, users) == None
    ensures ResolveUser(qs, d1, users) == ResolveUser(qs, d2, users)
  {
  }

  /** An occurrence of a pattern without `&` in `t + "&" + b` that starts
      within `t` lies inside `t`. */
  lemma NoMatchAcrossAmp(t: string, b: string, pat: string, j: nat)
    requires '&' !in pat && |pat| > 0 && j <= |t|
    ensures IsAt(t + "&" + b, pat, j) ==> IsAt(t, pat, j)
  {
    var s := t + "&" + b;
    if j + |pat| <= |t| {
      assert s[j..j + |pat|] == t[j..j + |pat|];
    } else if j + |pat| <= |s| {
      assert s[j..j + |pat|][|t| - j] == s[|t|] == '&';
      assert pat[|t| - j] != '&';
    }
  }

  /** Splitting a string that starts with the separator gives an empty
      first piece. */
  lemma SplitLeadingSep(sep: string, rest: string)
    requires |sep| > 0
    ensures Split(sep + rest, sep) == [""] + Split(rest, sep)
  {
    assert sep + rest == "" + sep + rest;
    SplitAfterPrefix("", sep, rest);
  }

  /** The text before the first `token=` in `t + "&" + b` starts with `t + "&"`
      when `t` has neither `&` nor `token=`. */
  lemma TokenHead(t: string, b: string)
    requires '&' !in t && !Contains(t, TokenKey)
    ensures Split(Split(t + "&" + b, TokenKey)[0], "&")[0] == t
  {
    var rest := t + "&" + b;
    forall j: nat | j <= |t| ensures !IsAt(rest, TokenKey, j) {
      NoMatchAcrossAmp(t, b, TokenKey, j);
      assert !IsAt(t, TokenKey, j);
    }
    HeadPastPrefix(rest, TokenKey, |t| + 1);
    var head := Split(rest, TokenKey)[0];
    assert rest[..|t| + 1] == t + "&";
    assert head == t + "&" + head[|t| + 1..];
    SplitCharHead(t, '&', head[|t| + 1..]);
  }

  /** A query string starting `token=<t>&`, with `t` free of `&` and of
      `token=`, yields `t`. */
  lemma TokenRoundTrip(t: string, b: string)
    requires '&' !in t && !Contains(t, TokenKey)
    ensures QueryToken(TokenKey + t + "&" + b) == Some(t)
  {
    var qs := TokenKey + t + "&" + b;
    var rest := t + "&" + b;
    assert qs == TokenKey + rest;
    assert qs[0..|TokenKey|] == TokenKey;
    assert IsAt(qs, TokenKey, 0);
    SplitLeadingSep(TokenKey, rest);
    assert Split(qs, TokenKey)[1] == Split(rest, TokenKey)[0];
    TokenHead(t, b);
  }

  /** After a prefix without `token=`, the first `token=` is the one that
      follows the prefix. */
  lemma KeyAfterPrefix(p: string, rest: string)
    requires !Contains(p, TokenKey)
    ensures Contains(p + TokenKey + rest, TokenKey)
    ensures Split(p + TokenKey + rest, TokenKey)[1] == Split(rest, TokenKey)[0]
  {
    var qs := p + TokenKey + rest;
    assert qs[|p|] == 't';
    forall j: nat | j < |p| ensures !IsAt(qs, TokenKey, j) {
      if j + |TokenKey| <= |p| {
        assert qs[j..j + |TokenKey|] == p[j..j + |TokenKey|];
        assert !IsAt(p, TokenKey, j);
      } else {
        NotAtByChar(qs, TokenKey, j, |p| - j);
      }
    }
    SplitAfterPrefix(p, TokenKey, rest);
    assert qs[|p|..|p| + |TokenKey|] == TokenKey;
    assert IsAt(qs, TokenKey, |p|);
  }

  /** A token followed by nothing or by `&...` is read up to that point. */
  lemma TokenTail(t: string, s: string)
    requires '&' !in t && !Contains(t, TokenKey)
    requires s == [] || s[0] == '&'
    ensures Split(Split(t + s, TokenKey)[0], "&")[0] == t
  {
    if s == [] {
      assert t + s == t;
      assert IndexOf(t, TokenKey).None?;
      SplitCharAbsent(t, '&');
    } else {
      assert t + s == t + "&" + s[1..];
      TokenHead(t, s[1..]);
    }
  }

  /** `token=` found anywhere: after a prefix without `token=`, the token
      runs to the next `&` or to the end of the query string. */
  lemma TokenAnywhere(p: string, t: string, s: string)
    requires !Contains(p, TokenKey) && '&' !in t && !Contains(t, TokenKey)
    requires s == [] || s[0] == '&'
    ensures QueryToken(p + TokenKey + t + s) == Some(t)
  {
    assert p + TokenKey + t + s == p + TokenKey + (t + s);
    KeyAfterPrefix(p, t + s);
    TokenTail(t, s);
  }

  /** When `sep` does not start at any index up to `n - 1`, the first piece
      of the split keeps the first `n` characters. */
  lemma HeadPastPrefix(s: string, sep: string, n: nat)
    requires |sep| > 0 && n <= |s|
    requires forall j: nat :: j < n ==> !IsAt(s, sep, j)
    ensures n <= |Split(s, sep)[0]| && Split(s, sep)[0][..n] == s[..n]
  {
    match IndexOf(s, sep)
    case None =>
    case Some(i) =>
      assert IsAt(s, sep, i);
      assert i >= n;
      assert Split(s, sep)[0] == s[..i];
  }
}

=== FILE: channels.dfy ===
/** The channel layer's group registry, the events sent through it, and the
    frames a consumer exchanges with its client. Transport, async delivery
    and group expiry are not modelled: the registry is updated in order. */
module Channels {
  import opened Wrappers
  import opened Text
  import opened Domain

  /** A connection's `channel_name`. */
  type ConnId = nat

  /** Group name to member connections. */
  type Registry = map<string, set<ConnId>>

  /** The in-memory layer never keeps a group without members. */
  predicate WellFormed(reg: Registry) {
    forall g :: g in reg ==> reg[g] != {}
  }

  function Members(reg: Registry, g: string): set<ConnId> {
    if g in reg then reg[g] else {}
  }

  /** The groups connection `c` belongs to. */
  function GroupsOf(reg: Registry, c: ConnId): set<string> {
    set g | g in reg && c in reg[g]
  }

  /** A character the layer accepts in a group name. */
  predicate GroupNameChar(ch: char) {
    ('a' <= ch <= 'z') || ('A' <= ch <= 'Z') || ('0' <= ch <= '9') || ch == '-' || ch == '_' || ch == '.'
  }

  /** The layer's group-name check: non-empty, shorter than 100 characters,
      letters, digits, `-`, `_` and `.` only. */
  predicate ValidGroupName(g: string) {
    0 < |g| < 100 && forall k :: 0 <= k < |g| ==> GroupNameChar(g[k])
  }

  /** `group_add`. */
  function GroupAdd(reg: Registry, g: string, c: ConnId): (r: Registry)
    ensures Members(r, g) == Members(reg, g) + {c}
    ensures forall h :: h != g ==> Members(r, h) == Members(reg, h)
    ensures WellFormed(reg) ==> WellFormed(r)
  {
    reg[g := Members(reg, g) + {c}]
  }

  /** `group_discard`: a group left empty is dropped. */
  function GroupDiscard(reg: Registry, g: string, c: ConnId): (r: Registry)
    ensures Members(r, g) == Members(reg, g) - {c}
    ensures forall h :: h != g ==> Members(r, h) == Members(reg, h)
    ensures WellFormed(reg) ==> WellFormed(r)
  {
    var rest := Members(reg, g) - {c};
    if rest == {} then map h | h in reg && h != g :: reg[h] else reg[g := rest]
  }

  /** Two well-formed registries with the same members everywhere are equal. */
  lemma RegistryExt(a: Registry, b: Registry)
    requires WellFormed(a) && WellFormed(b)
    requires forall g :: Members(a, g) == Members(b, g)
    ensures a == b
  {
    forall g | g in a ensures g in b && a[g] == b[g] {
      assert Members(a, g) == a[g];
    }
    forall g | g in b ensures g in a {
      assert Members(b, g) == b[g];
    }
  }

  /** Adding a connection to a group it was not in and discarding it again
      restores the registry. */
  lemma AddThenDiscard(reg: Registry, g: string, c: ConnId)
    requires WellFormed(reg) && c !in Members(reg, g)
    ensures GroupDiscard(GroupAdd(reg, g, c), g, c) == reg
  {
    var r := GroupDiscard(GroupAdd(reg, g, c), g, c);
    forall h ensures Members(r, h) == Members(reg, h) {
    }
    RegistryExt(r, reg);
  }

  /** `group_add` adds exactly one group to the connection's groups and
      leaves every other connection's groups alone. */
  lemma GroupsOfAdd(reg: Registry, g: string, c: ConnId, d: ConnId)
    ensures GroupsOf(GroupAdd(reg, g, c), c) == GroupsOf(reg, c) + {g}
    ensures d != c ==> GroupsOf(GroupAdd(reg, g, c), d) == GroupsOf(reg, d)
  {
    var r := GroupAdd(reg, g, c);
    forall h ensures h in GroupsOf(r, c) <==> h in GroupsOf(reg, c) + {g} {
      assert h in GroupsOf(r, c) <==> c in Members(r, h);
      assert h in GroupsOf(reg, c) <==> c in Members(reg, h);
    }
    if d != c {
      forall h ensures h in GroupsOf(r, d) <==> h in GroupsOf(reg, d) {
        assert h in GroupsOf(r, d) <==> d in Members(r, h);
        assert h in GroupsOf(reg, d) <==> d in Members(reg, h);
      }
    }
  }

  /** `group_discard` removes exactly one group from the connection's
      groups and leaves every other connection's groups alone. */
  lemma GroupsOfDiscard(reg: Registry, g: string, c: ConnId, d: ConnId)
    ensures GroupsOf(GroupDiscard(reg, g, c), c) == GroupsOf(reg, c) - {g}
    ensures d != c ==> GroupsOf(GroupDiscard(reg, g, c), d) == GroupsOf(reg, d)
  {
    var r := GroupDiscard(reg, g, c);
    forall h ensures h in GroupsOf(r, c) <==> h in GroupsOf(reg, c) - {g} {
      assert h in GroupsOf(r, c) <==> c in Members(r, h);
      assert h in GroupsOf(reg, c) <==> c in Members(reg, h);
    }
    if d != c {
      forall h ensures h in GroupsOf(r, d) <==> h in GroupsOf(reg, d) {
        assert h in GroupsOf(r, d) <==> d in Members(r, h);
        assert h in GroupsOf(reg, d) <==> d in Members(reg, h);
      }
    }
  }

  /** `group_add` seen from every connection at once. */
  lemma GroupsOfAddAll(reg: Registry, g: string, c: ConnId)
    ensures forall d :: GroupsOf(GroupAdd(reg, g, c), d) == if d == c then GroupsOf(reg, d) + {g} else GroupsOf(reg, d)
  {
    forall d ensures GroupsOf(GroupAdd(reg, g, c), d) == if d == c then GroupsOf(reg, d) + {g} else GroupsOf(reg, d) {
      GroupsOfAdd(reg, g, c, d);
    }
  }

  /** `group_discard` seen from every connection at once. */
  lemma GroupsOfDiscardAll(reg: Registry, g: string, c: ConnId)
    ensures forall d :: GroupsOf(GroupDiscard(reg, g, c), d) == if d == c then GroupsOf(reg, d) - {g} else GroupsOf(reg, d)
  {
    forall d ensures GroupsOf(GroupDiscard(reg, g, c), d) == if d == c then GroupsOf(reg, d) - {g} else GroupsOf(reg, d) {
      GroupsOfDiscard(reg, g, c, d);
    }
  }

  /** The `data` of an event: what the serializers produced for a record. */
  datatype AnimalData =
    | AnimalRecord(animal: Animal)
    | AnimalStub(id: nat, chapeta: string)

  datatype Payload =
    | AnimalPayload(id: nat, action: string, animal: AnimalData)
    | NotificationPayload(notification: Notificacion)
    | LogPayload(log: LogEntry)

  /** A `group_send` message: its `type` names the consumer handler. */
  datatype Event = Event(kind: string, data: Payload)

  /** A `group_send` call: the group and the message. */
  datatype Publication = Publication(group: string, event: Event)

  /** The connections a publication reaches. */
  function Recipients(reg: Registry, p: Publication): set<ConnId> {
    Members(reg, p.group)
  }

  /** A text frame from the client: undecodable, or a decoded JSON value.
      A decoded value that is not an object makes `data.get` raise. */
  datatype Frame = InvalidJson | Decoded(value: Json)

  /** `data.get(key)`: `None` (JSON null) when absent. */
  function Get(fields: map<string, Json>, key: string): (v: Json)
    ensures key !in fields ==> v == JNull
    ensures key in fields ==> v == fields[key]
  {
    if key in fields then fields[key] else JNull
  }

  /** A frame sent to the client (`self.send(text_data=json.dumps(...))`). */
  datatype Outbound =
    | ConnectionEstablished(message: string, userId: Option<nat>)
    | Pong(timestamp: Json)
    | ErrorFrame(message: string)
    | SubscriptionConfirmed(animalId: Json)
    | UnsubscriptionConfirmed(animalId: Json)
    | Relayed(kind: string, data: Payload)
    | PendingNotification(notification: Notificacion)
    | NotificationReadResponse(notificationId: Json, success: bool)
    | UnreadCount(count: nat)
    | RecentLogs(logs: seq<LogEntry>)
    | FilteredLogs(logs: seq<LogEntry>)

  /** What a JSON value selects when compared with an integer key, the
      field applying `int()` to it: an integer (a boolean counts as 0 or 1),
      a text holding an integer literal selects that integer, null selects
      nothing, and anything else is a lookup error. */
  datatype IdLookup = ById(id: int) | NoId | BadId

  function LookupOf(j: Json): IdLookup {
    match j
    case JInt(i) => ById(i)
    case JBool(b) => ById(if b then 1 else 0)
    case JStr(s) => if IsIntLiteral(s) then ById(ParseInt(s)) else BadId
    case JNull => NoId
    case _ => BadId
  }

  /** An id sent as the text of a number selects the same row as the number. */
  lemma TextIdSelectsNumber(i: int)
    ensures LookupOf(JStr(IntToString(i))) == LookupOf(JInt(i)) == ById(i)
  {
    IntToStringParses(i);
  }

  const InvalidJsonMessage: string := "Formato JSON inválido"

  datatype ConnState = Handshake | Open | Closed(code: int)

  /** A consumer instance: its channel, the user resolved at connect, and
      `room_group_name` when connect set it. */
  datatype Conn = Conn(id: ConnId, user: Option<Usuario>, roomGroup: Option<string>, state: ConnState)

  /** A fresh connection before `connect` runs. */
  function NewConn(id: ConnId): Conn {
    Conn(id, None, None, Handshake)
  }

  /** The result of a handler: the connection, the registry and the frames
      sent, in order. `raised` marks a handler that ended with an uncaught
      exception; what the server does next is not modelled. */
  datatype Step = Step(conn: Conn, reg: Registry, out: seq<Outbound>, raised: bool)

  /** The `disconnect` the animal and log consumers share: the connection
      closes with `code` and leaves `room_group_name` if connect set it,
      sending nothing. */
  function LeaveRoom(c: Conn, code: int, reg: Registry): (r: Step)
    ensures c.roomGroup.None? ==> r.reg == reg
    ensures c.roomGroup.Some? ==> r.reg == GroupDiscard(reg, c.roomGroup.value, c.id)
    ensures r.conn == c.(state := Closed(code)) && r.out == [] && !r.raised
    ensures forall d ::
              GroupsOf(r.reg, d) ==
                if d == c.id && c.roomGroup.Some? then GroupsOf(reg, d) - {c.roomGroup.value} else GroupsOf(reg, d)
  {
    match c.roomGroup
    case None => Step(c.(state := Closed(code)), reg, [], false)
    case Some(g) =>
      GroupsOfDiscardAll(reg, g, c.id);
      Step(c.(state := Closed(code)), GroupDiscard(reg, g, c.id), [], false)
  }
}

=== FILE: cors.dfy ===
/** utils/cors_middleware.py: the middleware that answers pre-flight requests
    itself, turns downstream exceptions into JSON errors, and stamps CORS
    headers on every response. */
module Cors {
  import opened Domain
  import opened Permissions
  import Text

  datatype Request = Request(httpMethod: Method, origin: string, path: string)

  datatype Response = Response(status: int, body: Json, headers: map<string, string>)

  /** An exception raised by the downstream handler: its class name and `str(e)`. */
  datatype Exception = Exception(typeName: string, message: string)

  const DefaultOrigin: string := "http://localhost:5173"

  const AllowedOrigins: seq<string> := [
    "http://localhost:5173",
    "http://127.0.0.1:5173",
    "http://localhost:3000",
    "http://127.0.0.1:3000"
  ]

  const AllowMethods: string := "GET, POST, PUT, DELETE, OPTIONS, PATCH"
  const AllowHeaders: string := "Content-Type, Authorization, X-Requested-With, Accept, Origin"

  const HOrigin: string := "Access-Control-Allow-Origin"
  const HMethods: string := "Access-Control-Allow-Methods"
  const HHeaders: string := "Access-Control-Allow-Headers"
  const HCredentials: string := "Access-Control-Allow-Credentials"
  const HMaxAge: string := "Access-Control-Max-Age"

  const CorsHeaderNames: set<string> := {HOrigin, HMethods, HHeaders, HCredentials, HMaxAge}

  /** The value of `Access-Control-Allow-Origin` for a request origin
      (`''` when the request carries none). */
  function AllowOrigin(origin: string): (r: string)
    ensures r != ""
    ensures origin in AllowedOrigins ==> r == origin
    ensures origin == "" ==> r == DefaultOrigin
    ensures origin !in AllowedOrigins && origin != "" ==> r == "*"
  {
    if origin in AllowedOrigins || origin == "" then
      if origin != "" then origin else DefaultOrigin
    else "*"
  }

  /** Response header names compare as Django's response headers compare
      them: ignoring case. */
  predicate SameName(a: string, b: string) {
    Text.Lower(a) == Text.Lower(b)
  }

  /** A header name that one of the five CORS assignments replaces. */
  predicate IsCorsName(h: string) {
    SameName(h, HOrigin) || SameName(h, HMethods) || SameName(h, HHeaders)
    || SameName(h, HCredentials) || SameName(h, HMaxAge)
  }

  /** `response[name] = value`: a header whose name equals `name` ignoring
      case is replaced, and the name is kept as written here. */
  function SetHeader(hs: map<string, string>, name: string, value: string): (r: map<string, string>)
    ensures forall h :: h in r <==> h == name || (h in hs && !SameName(h, name))
    ensures r[name] == value
    ensures forall h :: h in hs && !SameName(h, name) ==> r[h] == hs[h]
  {
    (map h | h in hs && !SameName(h, name) :: hs[h])[name := value]
  }

  /** No two of the six names the middleware writes are the same name. */
  lemma DistinctNames()
    ensures !SameName(HOrigin, HMethods) && !SameName(HOrigin, HHeaders)
    ensures !SameName(HOrigin, HCredentials) && !SameName(HOrigin, HMaxAge)
    ensures !SameName(HMethods, HHeaders) && !SameName(HMethods, HCredentials)
    ensures !SameName(HMethods, HMaxAge) && !SameName(HHeaders, HCredentials)
    ensures !SameName(HHeaders, HMaxAge) && !SameName(HCredentials, HMaxAge)
    ensures !IsCorsName(HContentType)
  {
    assert HMethods[21] == 'M' && HHeaders[21] == 'H';
    assert Text.Lower(HMethods)[21] != Text.Lower(HHeaders)[21];
  }

  /** `add_cors_headers`: sets the five CORS headers, replacing any header
      of the same name in another case, and leaves status, body and every
      other header as they were. */
  function AddCorsHeaders(req: Request, resp: Response): (r: Response)
    ensures r.status == resp.status && r.body == resp.body
    ensures r.headers.Keys == (set h | h in resp.headers && !IsCorsName(h)) + CorsHeaderNames
    ensures r.headers[HOrigin] == AllowOrigin(req.origin)
    ensures r.headers[HMethods] == AllowMethods && r.headers[HHeaders] == AllowHeaders
    ensures r.headers[HCredentials] == "true" && r.headers[HMaxAge] == "86400"
    ensures forall h :: h in resp.headers && !IsCorsName(h) ==> r.headers[h] == resp.headers[h]
  {
    var hs := CorsHeaders(resp.headers, AllowOrigin(req.origin));
    CorsHeadersKeys(resp.headers, AllowOrigin(req.origin));
    resp.(headers := hs)
  }

  /** The five assignments of `add_cors_headers`, in the source's order. */
  function CorsHeaders(hs: map<string, string>, origin: string): map<string, string> {
    SetHeader(SetHeader(SetHeader(SetHeader(SetHeader(hs,
      HOrigin, origin), HMethods, AllowMethods), HHeaders, AllowHeaders),
      HCredentials, "true"), HMaxAge, "86400")
  }

  /** What the five assignments leave: the CORS headers with their values,
      and every other header untouched. */
  lemma CorsHeadersKeys(hs: map<string, string>, origin: string)
    ensures var r := CorsHeaders(hs, origin);
      && r.Keys == (set h | h in hs && !IsCorsName(h)) + CorsHeaderNames
      && r[HOrigin] == origin && r[HMethods] == AllowMethods && r[HHeaders] == AllowHeaders
      && r[HCredentials] == "true" && r[HMaxAge] == "86400"
      && forall h :: h in hs && !IsCorsName(h) ==> r[h] == hs[h]
  {
    DistinctNames();
    var h1 := SetHeader(hs, HOrigin, origin);
    var h2 := SetHeader(h1, HMethods, AllowMethods);
    var h3 := SetHeader(h2, HHeaders, AllowHeaders);
    var h4 := SetHeader(h3, HCredentials, "true");
    var r := SetHeader(h4, HMaxAge, "86400");
    assert r == CorsHeaders(hs, origin);
    assert r[HCredentials] == "true";
    assert r[HHeaders] == AllowHeaders;
    assert r[HMethods] == AllowMethods;
    assert r[HOrigin] == origin;
    forall h | h in hs && !IsCorsName(h)
      ensures h in r && r[h] == hs[h]
    {
    }
    forall h
      ensures h in r <==> h in (set h | h in hs && !IsCorsName(h)) + CorsHeaderNames
    {
    }
  }

  /** Each CORS header appears once: a downstream header naming it in
      another case does not survive beside it. */
  lemma CorsHeaderOnce(req: Request, resp: Response, h: string)
    requires h in AddCorsHeaders(req, resp).headers && IsCorsName(h)
    ensures h in CorsHeaderNames
    ensures SameName(h, HOrigin) ==> h == HOrigin
  {
    DistinctNames();
  }

  /** A downstream `access-control-allow-origin` is replaced, not kept
      beside the middleware's own header. */
  lemma LowerCaseOriginReplaced(req: Request, resp: Response)
    requires "access-control-allow-origin" in resp.headers
    ensures "access-control-allow-origin" !in AddCorsHeaders(req, resp).headers
    ensures AddCorsHeaders(req, resp).headers[HOrigin] == AllowOrigin(req.origin)
  {
    var l := "access-control-allow-origin";
    assert Text.Lower(l) == Text.Lower(HOrigin);
    DistinctNames();
  }

  const HContentType: string := "Content-Type"
  const JsonContentType: string := "application/json"

  /** A `JsonResponse` with the given status: its one header of its own is
      the JSON content type. */
  function JsonResponse(body: Json, status: int): (r: Response)
    ensures r.status == status && r.body == body
    ensures r.headers == map[HContentType := JsonContentType]
  {
    Response(status, body, map[HContentType := JsonContentType])
  }

  /** The body of the 500 response built from a downstream exception. */
  function ErrorBody(e: Exception): Json {
    JObj(map["error" := JStr("Internal Server Error"), "message" := JStr(e.message), "type" := JStr(e.typeName)])
  }

  /** `CorsMiddleware.__call__`; `downstream` is what `get_response(request)`
      returns or raises if it is called. */
  function Handle(req: Request, downstream: Wrappers.Result<Response, Exception>): (r: Response)
    ensures req.httpMethod == OPTIONS ==>
      r == AddCorsHeaders(req, JsonResponse(JObj(map["status" := JStr("ok")]), 200))
    ensures req.httpMethod != OPTIONS && downstream.Success? ==> r == AddCorsHeaders(req, downstream.value)
    ensures req.httpMethod != OPTIONS && downstream.Failure? ==>
      r.status == 500 && r.body == ErrorBody(downstream.error)
    ensures HOrigin in r.headers && r.headers[HOrigin] == AllowOrigin(req.origin)
    ensures HCredentials in r.headers && r.headers[HCredentials] == "true"
    ensures req.httpMethod == OPTIONS || downstream.Failure? ==>
      && r.headers.Keys == CorsHeaderNames + {HContentType}
      && r.headers[HContentType] == JsonContentType
  {
    DistinctNames();
    if req.httpMethod == OPTIONS then
      AddCorsHeaders(req, JsonResponse(JObj(map["status" := JStr("ok")]), 200))
    else
      var response := match downstream
        case Success(resp) => resp
        case Failure(e) => JsonResponse(ErrorBody(e), 500);
      AddCorsHeaders(req, response)
  }

  /** A pre-flight request never reaches the downstream handler: the answer
      is the same whatever the handler would have done. */
  lemma OptionsIgnoresDownstream(req: Request, d1: Wrappers.Result<Response, Exception>, d2: Wrappers.Result<Response, Exception>)
    requires req.httpMethod == OPTIONS
    ensures Handle(req, d1) == Handle(req, d2)
    ensures Handle(req, d1).status == 200
  {
  }

  /** Every response carries a non-empty `Access-Control-Allow-Origin`. */
  lemma AllowOriginNeverEmpty(req: Request, d: Wrappers.Result<Response, Exception>)
    ensures HOrigin in Handle(req, d).headers && Handle(req, d).headers[HOrigin] != ""
  {
  }

  /** An origin outside the allowlist gets the wildcard together with
      `Access-Control-Allow-Credentials: true`. */
  lemma WildcardWithCredentials(req: Request, d: Wrappers.Result<Response, Exception>)
    requires req.origin != "" && req.origin !in AllowedOrigins
    ensures Handle(req, d).headers[HOrigin] == "*"
    ensures Handle(req, d).headers[HCredentials] == "true"
  {
  }
}

=== FILE: domain.dfy ===
/** The persisted entities of the livestock backend and the choice lists of
    their model fields. Foreign keys are the referenced record's id. */
module Domain {
  import opened Wrappers

  /** A JSON value, as decoded from a client frame or produced by a serializer. */
  datatype Json =
    | JNull
    | JBool(b: bool)
    | JInt(i: int)
    | JStr(s: string)
    | JArr(items: seq<Json>)
    | JObj(fields: map<string, Json>)

  /** Python truthiness of a decoded JSON value (`if value:`). */
  predicate Truthy(j: Json) {
    match j
    case JNull => false
    case JBool(b) => b
    case JInt(i) => i != 0
    case JStr(s) => s != ""
    case JArr(items) => |items| > 0
    case JObj(fields) => |fields| > 0
  }

  /** Python truthiness of an optional string (`None` and `''` are false). */
  predicate Present(s: Option<string>) {
    s.Some? && s.value != ""
  }

  /** `Animal.SEXO_CHOICES`. */
  datatype Sexo = Macho | Hembra {
    function Code(): string {
      match this
      case Macho => "macho"
      case Hembra => "hembra"
    }
  }

  /** `Animal.ESTADO_REPRODUCTIVO_CHOICES`. */
  datatype EstadoReproductivo = Gestante | Lactante | Vacio | Castrado {
    function Code(): string {
      match this
      case Gestante => "gestante"
      case Lactante => "lactante"
      case Vacio => "vacío"
      case Castrado => "castrado"
    }
  }

  /** `Animal.ESTADO_PRODUCTIVO_CHOICES`. */
  datatype EstadoProductivo = Activo | Retirado | Engorde {
    function Code(): string {
      match this
      case Activo => "activo"
      case Retirado => "retirado"
      case Engorde => "engorde"
    }
  }

  /** `Notificacion.TIPO_CHOICES`. */
  datatype TipoNotificacion = Informativa | AlertaSanitaria | Recordatorio {
    function Code(): string {
      match this
      case Informativa => "informativa"
      case AlertaSanitaria => "alerta_sanitaria"
      case Recordatorio => "recordatorio"
    }
  }

  /** The choices of `Usuario.rol`. The field itself stores a string: Django
      does not enforce choices when a record is saved. */
  datatype Rol = RolAdmin | RolUsuario | RolDueno {
    function Code(): string {
      match this
      case RolAdmin => "admin"
      case RolUsuario => "usuario"
      case RolDueno => "dueño"
    }
  }

  const AdminCode: string := RolAdmin.Code()
  const UsuarioCode: string := RolUsuario.Code()
  const DuenoCode: string := RolDueno.Code()

  /** `Incidencia.ESTADO_CHOICES`. */
  datatype EstadoIncidencia = Pendiente | EnTratamiento | Resuelto

  /** `Evento.TIPO_CHOICES`. */
  datatype TipoEvento = Visita | TratamientoProgramado | AlertaParto | Otro

  datatype Usuario = Usuario(
    id: nat,
    email: string,
    nombre: string,
    apellidos: string,
    rol: string,
    activo: bool,
    isStaff: bool,
    isSuperuser: bool,
    passwordUsable: bool)

  datatype Animal = Animal(
    id: nat,
    chapeta: string,
    nombre: Option<string>,
    sexo: Sexo,
    raza: string,
    estadoReproductivo: EstadoReproductivo,
    estadoProductivo: EstadoProductivo,
    fotoPerfilUrl: Option<string>,
    creadoPor: Option<nat>,
    modificadoPor: Option<nat>)

  /** A notification row; `fechaCreacion` is the creation instant as a number. */
  datatype Notificacion = Notificacion(
    id: nat,
    usuario: nat,
    mensaje: string,
    tipo: TipoNotificacion,
    fechaCreacion: int,
    visto: bool,
    animal: Option<nat>,
    evento: Option<nat>)

  /** An audit-log row; `fechaHora` is the creation instant as a number. */
  datatype LogEntry = LogEntry(
    id: nat,
    usuario: Option<nat>,
    tipoAccion: string,
    entidadAfectada: string,
    entidadId: string,
    fechaHora: int,
    cambios: Option<Json>,
    observaciones: Option<string>)

  datatype Incidencia = Incidencia(
    id: nat,
    animal: nat,
    creadoPor: Option<nat>,
    tipo: string,
    reportadoPor: Option<nat>,
    estado: EstadoIncidencia)

  datatype Tratamiento = Tratamiento(
    id: nat,
    animal: nat,
    medicamento: string,
    dosis: string,
    administradoPor: Option<nat>)

  /** An event; `fechaInicioDia` is the calendar day of `fecha_inicio`. */
  datatype Evento = Evento(
    id: nat,
    titulo: string,
    fechaInicioDia: int,
    tipo: TipoEvento,
    animal: Option<nat>,
    creadoPor: Option<nat>)
}

=== FILE: log_consumer.dfy ===
/** `LogConsumer`: the audit log stream for administrators. Only an admin
    may connect; the client can ask for recent logs or filter them. */
module LogConsumer {
  import opened Wrappers
  import opened Text
  import opened Domain
  import opened Ordering
  import opened Channels

  const AdminGroup: string := "admin_logs"
  const WelcomeMessage: string := "Conectado a logs en tiempo real"
  const Forbidden: int := 4003
  const DefaultLimit: nat := 50
  const FilterCap: nat := 100

  /** The connect gate: a resolved user whose `rol` is `admin`. */
  predicate Admitted(user: Option<Usuario>) {
    user.Some? && user.value.rol == AdminCode
  }

  /** `connect` for the user the token resolved to (`None`: anonymous). */
  function Connect(c: Conn, user: Option<Usuario>, reg: Registry): (r: Step)
    ensures Admitted(user) ==>
      && r.reg == GroupAdd(reg, AdminGroup, c.id)
      && r.conn == c.(user := user, roomGroup := Some(AdminGroup), state := Open)
      && r.out == [ConnectionEstablished(WelcomeMessage, Some(user.value.id))]
    ensures !Admitted(user) ==> r == Step(c.(state := Closed(Forbidden)), reg, [], false)
    ensures !r.raised
    ensures forall d ::
              GroupsOf(r.reg, d) ==
                if d == c.id && Admitted(user) then GroupsOf(reg, d) + {AdminGroup} else GroupsOf(reg, d)
  {
    GroupsOfAddAll(reg, AdminGroup, c.id);
    if Admitted(user) then
      Step(c.(user := user, roomGroup := Some(AdminGroup), state := Open),
           GroupAdd(reg, AdminGroup, c.id), [ConnectionEstablished(WelcomeMessage, Some(user.value.id))], false)
    else Step(c.(state := Closed(Forbidden)), reg, [], false)
  }

  /** A fresh connection ends in exactly `{admin_logs}` when admitted and in
      no group otherwise. */
  lemma ConnectGate(id: ConnId, user: Option<Usuario>, reg: Registry)
    requires GroupsOf(reg, id) == {}
    ensures var r := Connect(NewConn(id), user, reg);
      && (Admitted(user) ==> GroupsOf(r.reg, id) == {AdminGroup} && r.conn.state == Open)
      && (!Admitted(user) ==> GroupsOf(r.reg, id) == {} && r.conn.state == Closed(4003))
  {
    GroupsOfAdd(reg, AdminGroup, id, id);
  }

  function When(l: LogEntry): int {
    l.fechaHora
  }

  /** The slice bound of `get_recent_logs`: `data.get('limit', 50)`. A null
      limit slices nothing off; a negative or non-integer one makes the
      query raise. */
  datatype Limit = UpTo(n: nat) | NoLimit | BadLimit

  function LimitOf(data: map<string, Json>): (l: Limit)
    ensures "limit" !in data ==> l == UpTo(DefaultLimit)
  {
    if "limit" !in data then UpTo(DefaultLimit)
    else match data["limit"]
      case JNull => NoLimit
      case JInt(i) => if i >= 0 then UpTo(i) else BadLimit
      case JBool(b) => UpTo(if b then 1 else 0)
      case _ => BadLimit
  }

  /** `get_recent_logs`: a newest-first prefix of all logs. */
  function RecentOf(logs: seq<LogEntry>, limit: Limit): (r: seq<LogEntry>)
    requires !limit.BadLimit?
    ensures r <= SortNewestFirst(logs, When)
    ensures limit.UpTo? ==> |r| == if limit.n < |logs| then limit.n else |logs|
    ensures limit.NoLimit? ==> |r| == |logs|
    ensures NewestFirst(r, When)
  {
    var sorted := SortNewestFirst(logs, When);
    TakeNewestFirst(sorted, When, if limit.UpTo? then limit.n else |sorted|);
    match limit
    case UpTo(n) => Take(sorted, n)
    case NoLimit => sorted
  }

  /** A filter value compared with a text column: the framework compares
      with the value's `str()`. Arrays and objects, whose `str()` is not
      rendered here, match nothing. */
  predicate TextMatches(field: string, v: Json) {
    match v
    case JStr(s) => field == s
    case JInt(i) => field == IntToString(i)
    case JBool(b) => field == (if b then "True" else "False")
    case _ => false
  }

  /** The record passes the filters given in `f`: each of the three keys
      narrows only when its value is truthy. */
  predicate Passes(l: LogEntry, f: map<string, Json>) {
    && (Truthy(Get(f, "tipo_accion")) ==> TextMatches(l.tipoAccion, Get(f, "tipo_accion")))
    && (Truthy(Get(f, "entidad_afectada")) ==> TextMatches(l.entidadAfectada, Get(f, "entidad_afectada")))
    && (Truthy(Get(f, "usuario_id")) ==>
          LookupOf(Get(f, "usuario_id")).ById? && l.usuario == Some(LookupOf(Get(f, "usuario_id")).id))
  }

  /** A truthy `usuario_id` that is not an integer makes the query raise. */
  predicate BadUserFilter(f: map<string, Json>) {
    Truthy(Get(f, "usuario_id")) && !LookupOf(Get(f, "usuario_id")).ById?
  }

  /** The logs passing the filters, in store order. */
  function Matching(logs: seq<LogEntry>, f: map<string, Json>): seq<LogEntry> {
    Filter(logs, (l: LogEntry) => Passes(l, f))
  }

  /** `get_filtered_logs`: the 100 newest matching logs, newest first. */
  function FilteredOf(logs: seq<LogEntry>, f: map<string, Json>): (r: seq<LogEntry>)
    ensures |r| <= FilterCap
    ensures NewestFirst(r, When)
    ensures forall i :: 0 <= i < |r| ==> r[i] in logs && Passes(r[i], f)
    ensures |r| == if |Matching(logs, f)| < FilterCap then |Matching(logs, f)| else FilterCap
    ensures multiset(r) <= multiset(Matching(logs, f))
    ensures forall l :: l in multiset(Matching(logs, f)) - multiset(r) ==>
      forall k :: 0 <= k < |r| ==> When(l) <= When(r[k])
  {
    var p := (l: LogEntry) => Passes(l, f);
    TopK(Matching(logs, f), When, FilterCap);
    var sorted := SortNewestFirst(Matching(logs, f), When);
    var r := Take(sorted, FilterCap);
    forall i | 0 <= i < |r| ensures r[i] in logs && Passes(r[i], f) {
      assert r[i] == sorted[i];
      SortMembership(Matching(logs, f), When, r[i]);
      FilterMembership(logs, p, r[i]);
    }
    TakeNewestFirst(sorted, When, FilterCap);
    r
  }

  /** Falsy or absent filters are ignored: the answer is then the 100 newest logs. */
  lemma FalsyFiltersIgnored(logs: seq<LogEntry>, f: map<string, Json>)
    requires !Truthy(Get(f, "tipo_accion")) && !Truthy(Get(f, "entidad_afectada")) && !Truthy(Get(f, "usuario_id"))
    ensures FilteredOf(logs, f) == Take(SortNewestFirst(logs, When), FilterCap)
  {
    FilterAll(logs, (l: LogEntry) => Passes(l, f));
  }

  const FilterKeys: set<string> := {"tipo_accion", "entidad_afectada", "usuario_id"}

  /** Setting a key that was not in force only adds a condition. */
  lemma PassesUpdate(l: LogEntry, f: map<string, Json>, k: string, v: Json)
    requires k in FilterKeys && !Truthy(Get(f, k))
    ensures Passes(l, f[k := v]) ==> Passes(l, f)
  {
    var g := f[k := v];
    assert k != "tipo_accion" ==> Get(g, "tipo_accion") == Get(f, "tipo_accion");
    assert k != "entidad_afectada" ==> Get(g, "entidad_afectada") == Get(f, "entidad_afectada");
    assert k != "usuario_id" ==> Get(g, "usuario_id") == Get(f, "usuario_id");
  }

  /** The answer holds all matches, or the first 100 of them. */
  lemma FilteredSize(logs: seq<LogEntry>, f: map<string, Json>)
    ensures var n := |Filter(logs, (l: LogEntry) => Passes(l, f))|;
      |FilteredOf(logs, f)| == if n < FilterCap then n else FilterCap
  {
  }

  /** Setting a key that was not in force only narrows, for every record. */
  lemma PassesUpdateAll(f: map<string, Json>, k: string, v: Json)
    requires k in FilterKeys && !Truthy(Get(f, k))
    ensures forall l :: Passes(l, f[k := v]) ==> Passes(l, f)
  {
    forall l ensures Passes(l, f[k := v]) ==> Passes(l, f) {
      PassesUpdate(l, f, k, v);
    }
  }

  /** Adding one filter that was not in force never enlarges the answer. */
  lemma AddingFilterNarrows(logs: seq<LogEntry>, f: map<string, Json>, k: string, v: Json)
    requires k in FilterKeys && !Truthy(Get(f, k))
    ensures |Filter(logs, (l: LogEntry) => Passes(l, f[k := v]))| <= |Filter(logs, (l: LogEntry) => Passes(l, f))|
    ensures forall l :: Passes(l, f[k := v]) ==> Passes(l, f)
    ensures |FilteredOf(logs, f[k := v])| <= |FilteredOf(logs, f)|
  {
    PassesUpdateAll(f, k, v);
    FilterStronger(logs, (l: LogEntry) => Passes(l, f), (l: LogEntry) => Passes(l, f[k := v]));
    FilteredSize(logs, f);
    FilteredSize(logs, f[k := v]);
  }

  /** `receive`. */
  function Receive(c: Conn, frame: Frame, reg: Registry, logs: seq<LogEntry>): (r: Step)
    ensures r.conn == c && r.reg == reg
    ensures frame.InvalidJson? ==> r == Step(c, reg, [ErrorFrame(InvalidJsonMessage)], false)
    ensures |r.out| <= 1
    ensures r.raised ==> r.out == []
  {
    match frame
    case InvalidJson => Step(c, reg, [ErrorFrame(InvalidJsonMessage)], false)
    case Decoded(v) =>
      if !v.JObj? then Step(c, reg, [], true)
      else
        var data := v.fields;
        var kind := Get(data, "type");
        if kind == JStr("get_recent_logs") then
          var limit := LimitOf(data);
          if limit.BadLimit? then Step(c, reg, [], true)
          else Step(c, reg, [RecentLogs(RecentOf(logs, limit))], false)
        else if kind == JStr("filter_logs") then
          var filters := if "filters" in data then data["filters"] else JObj(map[]);
          if !filters.JObj? || BadUserFilter(filters.fields) then Step(c, reg, [], true)
          else Step(c, reg, [FilteredLogs(FilteredOf(logs, filters.fields))], false)
        else if kind == JStr("ping") then
          Step(c, reg, [Pong(Get(data, "timestamp"))], false)
        else Step(c, reg, [], false)
  }

  /** Without a `limit` the reply holds the 50 newest logs (all, when fewer). */
  lemma RecentDefaultLimit(c: Conn, reg: Registry, logs: seq<LogEntry>)
    ensures var r := Receive(c, Decoded(JObj(map["type" := JStr("get_recent_logs")])), reg, logs);
      && r.out == [RecentLogs(Take(SortNewestFirst(logs, When), 50))]
      && |r.out[0].logs| == if |logs| < 50 then |logs| else 50
  {
    assert "limit" !in map["type" := JStr("get_recent_logs")];
  }

  /** `ping` echoes the timestamp. */
  lemma PingPong(c: Conn, fields: map<string, Json>, reg: Registry, logs: seq<LogEntry>)
    requires Get(fields, "type") == JStr("ping")
    ensures Receive(c, Decoded(JObj(fields)), reg, logs) == Step(c, reg, [Pong(Get(fields, "timestamp"))], false)
  {
  }

  /** The push handler: `new_log` relays the event's data as it is. */
  function Push(c: Conn, reg: Registry, ev: Event): (r: Step)
    ensures r.conn == c && r.reg == reg
    ensures ev.kind == "new_log" ==> r.out == [Relayed("new_log", ev.data)] && !r.raised
    ensures ev.kind != "new_log" ==> r.raised && r.out == []
  {
    if ev.kind == "new_log" then Step(c, reg, [Relayed("new_log", ev.data)], false)
    else Step(c, reg, [], true)
  }

  /** `disconnect`: leaves `admin_logs` if connect set it. */
  function Disconnect(c: Conn, code: int, reg: Registry): (r: Step)
    ensures c.roomGroup == Some(AdminGroup) ==>
      GroupsOf(r.reg, c.id) == GroupsOf(reg, c.id) - {AdminGroup}
    ensures c.roomGroup.None? ==> r.reg == reg
    ensures r.conn.state == Closed(code) && r.out == []
  {
    LeaveRoom(c, code, reg)
  }

  /** A refused connection leaves the registry as it was when it disconnects. */
  lemma RefusedDisconnect(id: ConnId, user: Option<Usuario>, code: int, reg: Registry)
    requires !Admitted(user)
    ensures var s := Connect(NewConn(id), user, reg);
      Disconnect(s.conn, code, s.reg).reg == reg
  {
  }
}

=== FILE: notificacion_consumer.dfy ===
/** `NotificacionConsumer`: a user's notification stream. Connect joins the
    user's own group and the broadcast group, replays unread notifications
    and then greets; the client can mark notifications read and ask for the
    unread count. */
module NotificacionConsumer {
  import opened Wrappers
  import opened Text
  import opened Domain
  import opened Ordering
  import opened Channels

  const GeneralGroup: string := "general_notifications"
  const WelcomeMessage: string := "Conectado a notificaciones en tiempo real"
  const Unauthorized: int := 4001
  const PendingLimit: nat := 10

  /** `f'user_{id}'`. */
  function UserGroup(id: nat): (g: string)
    ensures StartsWith(g, "user_") && g != GeneralGroup
  {
    var g := "user_" + NatToString(id);
    assert g[..5] == "user_";
    assert g[0] != GeneralGroup[0];
    g
  }

  predicate IsUnreadOf(n: Notificacion, uid: nat) {
    n.usuario == uid && !n.visto
  }

  /** `filter(usuario=user, visto=False)`. */
  function UnreadOf(store: seq<Notificacion>, uid: nat): seq<Notificacion> {
    Filter(store, (n: Notificacion) => IsUnreadOf(n, uid))
  }

  lemma UnreadMembership(store: seq<Notificacion>, uid: nat, n: Notificacion)
    ensures n in UnreadOf(store, uid) <==> n in store && IsUnreadOf(n, uid)
  {
    FilterMembership(store, (n: Notificacion) => IsUnreadOf(n, uid), n);
  }

  function Created(n: Notificacion): int {
    n.fechaCreacion
  }

  /** `send_pending_notifications`' query: `order_by('-fecha_creacion')[:10]`,
      the ten newest unread notifications of the user. */
  function Pending(store: seq<Notificacion>, uid: nat): (r: seq<Notificacion>)
    ensures |r| <= PendingLimit
    ensures forall i :: 0 <= i < |r| ==> r[i] in store && IsUnreadOf(r[i], uid)
    ensures NewestFirst(r, Created)
    ensures |r| == if |UnreadOf(store, uid)| < PendingLimit then |UnreadOf(store, uid)| else PendingLimit
    ensures multiset(r) <= multiset(UnreadOf(store, uid))
    ensures forall n :: n in multiset(UnreadOf(store, uid)) - multiset(r) ==>
      forall k :: 0 <= k < |r| ==> Created(n) <= Created(r[k])
  {
    var u := UnreadOf(store, uid);
    var sorted := SortNewestFirst(u, Created);
    var r := Take(sorted, PendingLimit);
    forall i | 0 <= i < |r| ensures r[i] in store && IsUnreadOf(r[i], uid) {
      assert r[i] == sorted[i];
      SortMembership(u, Created, r[i]);
      UnreadMembership(store, uid, r[i]);
    }
    TakeNewestFirst(sorted, Created, PendingLimit);
    TopK(u, Created, PendingLimit);
    r
  }

  /** Fewer than ten unread notifications are all replayed. */
  lemma PendingAllWhenFew(store: seq<Notificacion>, uid: nat)
    requires |UnreadOf(store, uid)| <= PendingLimit
    ensures |Pending(store, uid)| == |UnreadOf(store, uid)|
    ensures multiset(Pending(store, uid)) == multiset(UnreadOf(store, uid))
  {
  }

  function PendingFrames(ns: seq<Notificacion>): (r: seq<Outbound>)
    ensures |r| == |ns|
    ensures forall i :: 0 <= i < |ns| ==> r[i] == PendingNotification(ns[i])
  {
    if |ns| == 0 then [] else [PendingNotification(ns[0])] + PendingFrames(ns[1..])
  }

  /** `connect` for the user the token resolved to (`None`: anonymous). */
  function Connect(c: Conn, user: Option<Usuario>, reg: Registry, store: seq<Notificacion>): (r: Step)
    ensures user.None? ==> r == Step(c.(state := Closed(Unauthorized)), reg, [], false)
    ensures user.Some? ==>
      && r.reg == GroupAdd(GroupAdd(reg, UserGroup(user.value.id), c.id), GeneralGroup, c.id)
      && r.conn == c.(user := user, roomGroup := Some(UserGroup(user.value.id)), state := Open)
    ensures !r.raised
    ensures forall d ::
              GroupsOf(r.reg, d) ==
                if d == c.id && user.Some? then GroupsOf(reg, d) + {UserGroup(user.value.id), GeneralGroup} else GroupsOf(reg, d)
  {
    match user
    case None => Step(c.(state := Closed(Unauthorized)), reg, [], false)
    case Some(u) =>
      var g := UserGroup(u.id);
      GroupsOfAddAll(reg, g, c.id);
      GroupsOfAddAll(GroupAdd(reg, g, c.id), GeneralGroup, c.id);
      var reg' := GroupAdd(GroupAdd(reg, g, c.id), GeneralGroup, c.id);
      var out := PendingFrames(Pending(store, u.id)) + [ConnectionEstablished(WelcomeMessage, Some(u.id))];
      Step(c.(user := user, roomGroup := Some(g), state := Open), reg', out, false)
  }

  /** The pending notifications go out before the greeting, which carries
      the user's id and comes last. */
  lemma ConnectSendsPendingFirst(c: Conn, u: Usuario, reg: Registry, store: seq<Notificacion>)
    ensures var r := Connect(c, Some(u), reg, store);
      var p := Pending(store, u.id);
      && |r.out| == |p| + 1
      && (forall i :: 0 <= i < |p| ==> r.out[i] == PendingNotification(p[i]))
      && r.out[|p|] == ConnectionEstablished(WelcomeMessage, Some(u.id))
  {
  }

  /** A fresh authenticated connection is a member of exactly its user group
      and the broadcast group. */
  lemma ConnectJoinsTwoGroups(id: ConnId, u: Usuario, reg: Registry, store: seq<Notificacion>)
    requires GroupsOf(reg, id) == {}
    ensures GroupsOf(Connect(NewConn(id), Some(u), reg, store).reg, id) == {UserGroup(u.id), GeneralGroup}
  {
    var r1 := GroupAdd(reg, UserGroup(u.id), id);
    GroupsOfAdd(reg, UserGroup(u.id), id, id);
    GroupsOfAdd(r1, GeneralGroup, id, id);
  }

  /** The user's notification with this id, if there is one. */
  function FindOwned(store: seq<Notificacion>, id: int, uid: nat): (r: Option<Notificacion>)
    ensures r.Some? ==> r.value in store && r.value.id == id && r.value.usuario == uid
    ensures r.None? ==> forall n :: n in store ==> !(n.id == id && n.usuario == uid)
  {
    if |store| == 0 then None
    else if store[0].id == id && store[0].usuario == uid then Some(store[0])
    else FindOwned(store[1..], id, uid)
  }

  /** Sets `visto` on the user's notification with this id, if any. */
  function MarkRead(store: seq<Notificacion>, id: int, uid: nat): (r: seq<Notificacion>)
    ensures |r| == |store|
    ensures forall i :: 0 <= i < |store| ==>
      r[i] == if store[i].id == id && store[i].usuario == uid then store[i].(visto := true) else store[i]
  {
    if |store| == 0 then []
    else
      var n := store[0];
      [if n.id == id && n.usuario == uid then n.(visto := true) else n] + MarkRead(store[1..], id, uid)
  }

  predicate UniqueIds(store: seq<Notificacion>) {
    forall i, j :: 0 <= i < j < |store| ==> store[i].id != store[j].id
  }

  /** `get_unread_count`. */
  function UnreadTotal(store: seq<Notificacion>, uid: nat): nat {
    |UnreadOf(store, uid)|
  }

  /** The unread records of a sequence with a known first element. */
  lemma UnreadOfCons(x: Notificacion, xs: seq<Notificacion>, uid: nat)
    ensures UnreadOf([x] + xs, uid) == (if IsUnreadOf(x, uid) then [x] else []) + UnreadOf(xs, uid)
  {
    assert ([x] + xs)[0] == x;
    assert ([x] + xs)[1..] == xs;
  }

  /** The unread count of a sequence with a known first element. */
  lemma UnreadCons(x: Notificacion, xs: seq<Notificacion>, uid: nat)
    ensures UnreadTotal([x] + xs, uid) == (if IsUnreadOf(x, uid) then 1 else 0) + UnreadTotal(xs, uid)
  {
    UnreadOfCons(x, xs, uid);
  }

  /** Marking is a no-op when the user owns no notification with the id. */
  lemma {:induction false} MarkReadUnmatched(store: seq<Notificacion>, id: int, uid: nat)
    requires FindOwned(store, id, uid).None?
    ensures MarkRead(store, id, uid) == store
  {
    if |store| > 0 {
      assert store[0] in store;
      MarkReadUnmatched(store[1..], id, uid);
    }
  }

  /** With unique ids, the first record owning the id is the only one. */
  lemma UniqueTail(store: seq<Notificacion>)
    requires |store| > 0 && UniqueIds(store)
    ensures UniqueIds(store[1..])
    ensures forall n :: n in store[1..] ==> n.id != store[0].id
  {
    forall n | n in store[1..] ensures n.id != store[0].id {
      var k :| 0 <= k < |store[1..]| && store[1..][k] == n;
      assert store[k + 1] == n;
    }
  }

  /** `MarkRead` and `FindOwned` on a store with a known first record. */
  lemma MarkReadCons(x: Notificacion, rest: seq<Notificacion>, id: int, uid: nat)
    ensures MarkRead([x] + rest, id, uid) ==
      [if x.id == id && x.usuario == uid then x.(visto := true) else x] + MarkRead(rest, id, uid)
    ensures FindOwned([x] + rest, id, uid) ==
      if x.id == id && x.usuario == uid then Some(x) else FindOwned(rest, id, uid)
  {
    assert ([x] + rest)[0] == x;
    assert ([x] + rest)[1..] == rest;
  }

  /** Marking one's own unread notification read lowers one's unread count
      by one; in every other case the count stays. */
  lemma {:induction false} MarkReadCount(store: seq<Notificacion>, id: int, uid: nat)
    requires UniqueIds(store)
    ensures var found := FindOwned(store, id, uid);
      UnreadTotal(MarkRead(store, id, uid), uid) + (if found.Some? && !found.value.visto then 1 else 0)
        == UnreadTotal(store, uid)
  {
    if |store| > 0 {
      var x := store[0];
      var rest := store[1..];
      assert store == [x] + rest;
      UniqueTail(store);
      MarkReadCons(x, rest, id, uid);
      UnreadCons(x, rest, uid);
      if x.id == id && x.usuario == uid {
        assert x in store;
        assert FindOwned(rest, id, uid).None?;
        MarkReadUnmatched(rest, id, uid);
        UnreadCons(x.(visto := true), rest, uid);
      } else {
        MarkReadCount(rest, id, uid);
        UnreadCons(x, MarkRead(rest, id, uid), uid);
      }
    }
  }

  /** Nobody else's notifications change when a user marks one read. */
  lemma MarkReadOthersUnchanged(store: seq<Notificacion>, id: int, uid: nat, other: nat)
    requires other != uid
    ensures UnreadTotal(MarkRead(store, id, uid), other) == UnreadTotal(store, other)
  {
    MarkReadOthersAux(store, id, uid, other);
  }

  lemma {:induction false} MarkReadOthersAux(store: seq<Notificacion>, id: int, uid: nat, other: nat)
    requires other != uid
    ensures UnreadOf(MarkRead(store, id, uid), other) == UnreadOf(store, other)
  {
    if |store| > 0 {
      var x := store[0];
      var rest := store[1..];
      assert store == [x] + rest;
      MarkReadCons(x, rest, id, uid);
      MarkReadOthersAux(rest, id, uid, other);
      var y := if x.id == id && x.usuario == uid then x.(visto := true) else x;
      assert IsUnreadOf(x, other) ==> y == x;
      assert IsUnreadOf(y, other) ==> IsUnreadOf(x, other);
      UnreadOfCons(x, rest, other);
      UnreadOfCons(y, MarkRead(rest, id, uid), other);
    }
  }

  /** A handler's step together with the notification store afterwards. */
  datatype Outcome = Outcome(step: Step, store: seq<Notificacion>)

  /** `receive` on a connection that connect authenticated; `self.user` is
      the connection's user. */
  function Receive(c: Conn, frame: Frame, reg: Registry, store: seq<Notificacion>): (r: Outcome)
    requires c.user.Some?
    ensures r.step.conn == c && r.step.reg == reg
    ensures frame.InvalidJson? ==> r == Outcome(Step(c, reg, [ErrorFrame(InvalidJsonMessage)], false), store)
    ensures |r.step.out| <= 1
    ensures r.step.raised ==> r.step.out == [] && r.store == store
  {
    var uid := c.user.value.id;
    match frame
    case InvalidJson => Outcome(Step(c, reg, [ErrorFrame(InvalidJsonMessage)], false), store)
    case Decoded(v) =>
      if !v.JObj? then Outcome(Step(c, reg, [], true), store)
      else
        var data := v.fields;
        var kind := Get(data, "type");
        if kind == JStr("mark_as_read") then
          var nid := Get(data, "notification_id");
          match LookupOf(nid)
          case BadId => Outcome(Step(c, reg, [], true), store)
          case NoId => Outcome(Step(c, reg, [NotificationReadResponse(nid, false)], false), store)
          case ById(id) =>
            var ok := FindOwned(store, id, uid).Some?;
            Outcome(Step(c, reg, [NotificationReadResponse(nid, ok)], false), MarkRead(store, id, uid))
        else if kind == JStr("get_unread_count") then
          Outcome(Step(c, reg, [UnreadCount(UnreadTotal(store, uid))], false), store)
        else if kind == JStr("ping") then
          Outcome(Step(c, reg, [Pong(Get(data, "timestamp"))], false), store)
        else Outcome(Step(c, reg, [], false), store)
  }

  /** `mark_as_read` with an integer id succeeds exactly when the id is one
      of this user's notifications; the reply echoes the id, and only that
      record changes, to `visto = True`. */
  lemma MarkAsReadReply(c: Conn, id: int, reg: Registry, store: seq<Notificacion>)
    requires c.user.Some?
    ensures var uid := c.user.value.id;
      var r := Receive(c, Decoded(JObj(map["type" := JStr("mark_as_read"), "notification_id" := JInt(id)])), reg, store);
      && r.step.out == [NotificationReadResponse(JInt(id), FindOwned(store, id, uid).Some?)]
      && (FindOwned(store, id, uid).Some? <==> exists n :: n in store && n.id == id && n.usuario == uid)
      && (FindOwned(store, id, uid).None? ==> r.store == store)
      && (FindOwned(store, id, uid).Some? ==> r.store == MarkRead(store, id, uid))
      && |r.store| == |store|
      && (forall i :: 0 <= i < |store| ==>
            r.store[i] == if store[i].id == id && store[i].usuario == uid then store[i].(visto := true) else store[i])
  {
    var uid := c.user.value.id;
    if FindOwned(store, id, uid).None? {
      var m := MarkRead(store, id, uid);
      assert forall i :: 0 <= i < |store| ==> store[i] in store;
      assert m == store;
    }
  }

  /** `get_unread_count` answers the number of this user's unread notifications. */
  lemma UnreadCountReply(c: Conn, reg: Registry, store: seq<Notificacion>)
    requires c.user.Some?
    ensures var uid := c.user.value.id;
      var r := Receive(c, Decoded(JObj(map["type" := JStr("get_unread_count")])), reg, store);
      && r.step.out == [UnreadCount(|UnreadOf(store, uid)|)]
      && multiset(UnreadOf(store, uid)) <= multiset(store)
      && forall n :: n in UnreadOf(store, uid) <==> n in store && n.usuario == uid && !n.visto
  {
    var uid := c.user.value.id;
    forall n ensures n in UnreadOf(store, uid) <==> n in store && n.usuario == uid && !n.visto {
      FilterMembership(store, (m: Notificacion) => IsUnreadOf(m, uid), n);
    }
  }

  /** `ping` echoes the timestamp; the connection stays open. */
  lemma PingPong(c: Conn, fields: map<string, Json>, reg: Registry, store: seq<Notificacion>)
    requires c.user.Some? && Get(fields, "type") == JStr("ping")
    ensures Receive(c, Decoded(JObj(fields)), reg, store) ==
      Outcome(Step(c, reg, [Pong(Get(fields, "timestamp"))], false), store)
  {
  }

  /** The push handlers: `notification_message` and `broadcast_message`
      relay the event's data as `notification` and `broadcast`. */
  function Push(c: Conn, reg: Registry, ev: Event): (r: Step)
    ensures r.conn == c && r.reg == reg
    ensures ev.kind == "notification_message" ==> r.out == [Relayed("notification", ev.data)] && !r.raised
    ensures ev.kind == "broadcast_message" ==> r.out == [Relayed("broadcast", ev.data)] && !r.raised
    ensures ev.kind !in {"notification_message", "broadcast_message"} ==> r.raised && r.out == []
  {
    if ev.kind == "notification_message" then Step(c, reg, [Relayed("notification", ev.data)], false)
    else if ev.kind == "broadcast_message" then Step(c, reg, [Relayed("broadcast", ev.data)], false)
    else Step(c, reg, [], true)
  }

  /** `disconnect`: leaves both groups when connect set `room_group_name`. */
  function Disconnect(c: Conn, code: int, reg: Registry): (r: Step)
    ensures c.roomGroup.None? ==> r.reg == reg
    ensures c.roomGroup.Some? ==> r.reg == GroupDiscard(GroupDiscard(reg, c.roomGroup.value, c.id), GeneralGroup, c.id)
    ensures r.conn == c.(state := Closed(code)) && r.out == [] && !r.raised
    ensures forall d ::
              GroupsOf(r.reg, d) ==
                if d == c.id && c.roomGroup.Some? then GroupsOf(reg, d) - {c.roomGroup.value, GeneralGroup} else GroupsOf(reg, d)
  {
    match c.roomGroup
    case None => Step(c.(state := Closed(code)), reg, [], false)
    case Some(g) =>
      GroupsOfDiscardAll(reg, g, c.id);
      GroupsOfDiscardAll(GroupDiscard(reg, g, c.id), GeneralGroup, c.id);
      Step(c.(state := Closed(code)), GroupDiscard(GroupDiscard(reg, g, c.id), GeneralGroup, c.id), [], false)
  }

  /** Connecting and disconnecting a fresh connection leaves it in no group. */
  lemma ConnectDisconnect(id: ConnId, u: Usuario, code: int, reg: Registry, store: seq<Notificacion>)
    requires GroupsOf(reg, id) == {}
    ensures var s := Connect(NewConn(id), Some(u), reg, store);
      GroupsOf(Disconnect(s.conn, code, s.reg).reg, id) == {}
  {
    var s := Connect(NewConn(id), Some(u), reg, store);
    ConnectJoinsTwoGroups(id, u, reg, store);
    var d1 := GroupDiscard(s.reg, UserGroup(u.id), id);
    GroupsOfDiscard(s.reg, UserGroup(u.id), id, id);
    GroupsOfDiscard(d1, GeneralGroup, id, id);
  }
}

=== FILE: ordering.dfy ===
/** In-memory stand-ins for the queryset operations the core uses:
    `filter(...)`, `order_by('-field')` and slicing `[:n]`. The store's
    order is the order of the sequence; the sort is stable, so rows with
    equal keys keep that order. */
module Ordering {

  /** `queryset.filter(...)`: the rows satisfying `p`, in store order. */
  function Filter<T>(xs: seq<T>, p: T -> bool): (r: seq<T>)
    ensures |r| <= |xs|
    ensures forall i :: 0 <= i < |r| ==> p(r[i])
    ensures multiset(r) <= multiset(xs)
  {
    if |xs| == 0 then []
    else
      var rest := Filter(xs[1..], p);
      assert xs == [xs[0]] + xs[1..];
      if p(xs[0]) then [xs[0]] + rest else rest
  }

  /** An element is kept exactly when it is in the input and satisfies `p`. */
  lemma {:induction false} FilterMembership<T>(xs: seq<T>, p: T -> bool, x: T)
    ensures x in Filter(xs, p) <==> x in xs && p(x)
  {
    if |xs| > 0 {
      FilterMembership(xs[1..], p, x);
      assert xs == [xs[0]] + xs[1..];
    }
  }

  /** A condition every row meets keeps all rows. */
  lemma {:induction false} FilterAll<T>(xs: seq<T>, p: T -> bool)
    requires forall i :: 0 <= i < |xs| ==> p(xs[i])
    ensures Filter(xs, p) == xs
  {
    if |xs| > 0 {
      FilterAll(xs[1..], p);
      assert xs == [xs[0]] + xs[1..];
    }
  }

  /** Filtering distributes over concatenation: appending rows appends
      their matches. */
  lemma {:induction false} FilterConcat<T>(xs: seq<T>, ys: seq<T>, p: T -> bool)
    ensures Filter(xs + ys, p) == Filter(xs, p) + Filter(ys, p)
  {
    if |xs| > 0 {
      var zs := xs + ys;
      assert zs[0] == xs[0];
      assert zs[1..] == xs[1..] + ys;
      FilterConcat(xs[1..], ys, p);
      assert Filter(zs, p) == (if p(xs[0]) then [xs[0]] else []) + Filter(zs[1..], p);
      assert Filter(xs, p) == (if p(xs[0]) then [xs[0]] else []) + Filter(xs[1..], p);
    } else {
      assert xs + ys == ys;
    }
  }

  /** Filtering by a stronger condition keeps no more rows. */
  lemma {:induction false} FilterStronger<T>(xs: seq<T>, p: T -> bool, q: T -> bool)
    requires forall x :: q(x) ==> p(x)
    ensures |Filter(xs, q)| <= |Filter(xs, p)|
  {
    if |xs| > 0 {
      FilterStronger(xs[1..], p, q);
    }
  }

  /** `key` is non-increasing along `xs`: newest first. */
  predicate NewestFirst<T>(xs: seq<T>, key: T -> int) {
    forall i, j :: 0 <= i < j < |xs| ==> key(xs[i]) >= key(xs[j])
  }

  /** Inserts `x` before the first element whose key is not larger, so
      that `x` precedes the rows with its key. */
  function Insert<T>(x: T, xs: seq<T>, key: T -> int): (r: seq<T>)
    requires NewestFirst(xs, key)
    ensures NewestFirst(r, key)
    ensures multiset(r) == multiset(xs) + multiset{x}
    ensures |r| == |xs| + 1
  {
    if |xs| == 0 then [x]
    else if key(x) >= key(xs[0]) then [x] + xs
    else
      var rest := Insert(x, xs[1..], key);
      assert xs == [xs[0]] + xs[1..];
      BoundedByHead(x, xs, rest, key);
      [xs[0]] + rest
  }

  /** Every element of a rearrangement of `xs[1..]` plus `x` has a key no
      larger than the head of `xs`, when `x`'s key is not. */
  lemma BoundedByHead<T>(x: T, xs: seq<T>, rest: seq<T>, key: T -> int)
    requires |xs| > 0 && NewestFirst(xs, key) && key(x) <= key(xs[0])
    requires multiset(rest) == multiset(xs[1..]) + multiset{x}
    ensures forall k :: 0 <= k < |rest| ==> key(rest[k]) <= key(xs[0])
  {
    forall k | 0 <= k < |rest|
      ensures key(rest[k]) <= key(xs[0])
    {
      assert rest[k] in multiset(rest);
      if rest[k] in multiset(xs[1..]) {
        var m :| 0 <= m < |xs[1..]| && xs[1..][m] == rest[k];
        assert xs[1..][m] == xs[m + 1];
      }
    }
  }

  /** `order_by('-key')`: a stable newest-first arrangement of the rows. */
  function SortNewestFirst<T>(xs: seq<T>, key: T -> int): (r: seq<T>)
    ensures NewestFirst(r, key)
    ensures multiset(r) == multiset(xs)
    ensures |r| == |xs|
  {
    if |xs| == 0 then []
    else
      assert xs == [xs[0]] + xs[1..];
      Insert(xs[0], SortNewestFirst(xs[1..], key), key)
  }

  /** The sorted rows are the input rows. */
  lemma SortMembership<T>(xs: seq<T>, key: T -> int, x: T)
    ensures x in SortNewestFirst(xs, key) <==> x in xs
  {
    assert x in SortNewestFirst(xs, key) <==> x in multiset(SortNewestFirst(xs, key));
    assert x in xs <==> x in multiset(xs);
  }

  /** Slicing `[:n]`: the first `n` rows, or all of them when fewer. */
  function Take<T>(xs: seq<T>, n: nat): (r: seq<T>)
    ensures |r| == if n < |xs| then n else |xs|
    ensures r <= xs
  {
    if n < |xs| then xs[..n] else xs
  }

  /** A prefix of a newest-first sequence is newest first. */
  lemma TakeNewestFirst<T>(xs: seq<T>, key: T -> int, n: nat)
    requires NewestFirst(xs, key)
    ensures NewestFirst(Take(xs, n), key)
  {
  }

  /** `order_by('-key')[:n]` keeps the `n` newest rows: it returns as many
      rows as it can, and every row it leaves out is no newer than any row
      it returns. */
  lemma TopK<T>(xs: seq<T>, key: T -> int, n: nat)
    ensures var r := Take(SortNewestFirst(xs, key), n);
      && |r| == (if n < |xs| then n else |xs|)
      && multiset(r) <= multiset(xs)
      && forall x :: x in multiset(xs) - multiset(r) ==> forall k :: 0 <= k < |r| ==> key(x) <= key(r[k])
  {
    var s := SortNewestFirst(xs, key);
    var r := Take(s, n);
    if n < |s| {
      assert s == s[..n] + s[n..];
      assert multiset(s) == multiset(s[..n]) + multiset(s[n..]);
      assert multiset(xs) - multiset(r) == multiset(s[n..]);
      forall x | x in multiset(xs) - multiset(r)
        ensures forall k :: 0 <= k < |r| ==> key(x) <= key(r[k])
      {
        assert x in s[n..];
        var m :| 0 <= m < |s[n..]| && s[n..][m] == x;
        assert s[n + m] == x;
      }
    } else {
      assert multiset(xs) - multiset(r) == multiset{};
    }
  }
}

=== FILE: permissions.dfy ===
/** The role and authentication predicates of utils/permissions.py, and the
    framework's rule for combining a view's permission classes. */
module Permissions {
  import opened Domain

  /** `request.user`: Django's `AnonymousUser` (no `rol`, no `activo`) or a
      logged-in `Usuario`. */
  datatype RequestUser = Anonymous | Authenticated(user: Usuario)

  /** The object an object-level check is asked about. */
  datatype Target = UserTarget(user: Usuario) | OtherTarget

  datatype Method = GET | HEAD | OPTIONS | POST | PUT | PATCH | DELETE

  /** The framework's `SAFE_METHODS`. */
  predicate IsSafe(m: Method) {
    m == GET || m == HEAD || m == OPTIONS
  }

  /** `hasattr(request.user, 'rol') and request.user.rol == code`. */
  predicate HasRol(ru: RequestUser, code: string) {
    ru.Authenticated? && ru.user.rol == code
  }

  /** `request.user and request.user.is_authenticated`. */
  predicate IsAuthenticated(ru: RequestUser) {
    ru.Authenticated?
  }

  /** `IsAdminUser.has_permission`. */
  predicate IsAdminUser(ru: RequestUser) {
    IsAuthenticated(ru) && HasRol(ru, AdminCode)
  }

  /** `IsAdminOrUsuario.has_permission`. */
  predicate IsAdminOrUsuario(ru: RequestUser) {
    IsAuthenticated(ru) && (HasRol(ru, AdminCode) || HasRol(ru, UsuarioCode))
  }

  /** `request.user == obj`: model instances compare by primary key; an
      anonymous user equals no record. */
  predicate IsSelf(ru: RequestUser, obj: Target) {
    ru.Authenticated? && obj.UserTarget? && ru.user.id == obj.user.id
  }

  /** `IsSelfOrAdmin.has_object_permission`. */
  predicate IsSelfOrAdmin(ru: RequestUser, obj: Target) {
    HasRol(ru, AdminCode) || IsSelf(ru, obj)
  }

  /** `IsAuthenticatedAndActive.has_permission`. */
  predicate IsAuthenticatedAndActive(ru: RequestUser) {
    IsAuthenticated(ru) && ru.Authenticated? && ru.user.activo
  }

  /** A permission class a view can list. */
  datatype Permission =
    | AllowAuthenticated      // the framework's IsAuthenticated
    | AdminUser
    | AdminOrUsuario
    | SelfOrAdmin
    | AuthenticatedAndActive

  /** `has_permission` of each class. `IsSelfOrAdmin` only defines the
      object-level hook, so it inherits the framework default `True`. */
  predicate HasPermission(p: Permission, ru: RequestUser) {
    match p
    case AllowAuthenticated => IsAuthenticated(ru)
    case AdminUser => IsAdminUser(ru)
    case AdminOrUsuario => IsAdminOrUsuario(ru)
    case SelfOrAdmin => true
    case AuthenticatedAndActive => IsAuthenticatedAndActive(ru)
  }

  /** `has_object_permission` of each class; every class but `IsSelfOrAdmin`
      inherits the framework default `True`. */
  predicate HasObjectPermission(p: Permission, ru: RequestUser, obj: Target) {
    match p
    case SelfOrAdmin => IsSelfOrAdmin(ru, obj)
    case _ => true
  }

  /** The framework admits a request when every listed class admits it. */
  predicate Admits(ps: seq<Permission>, ru: RequestUser) {
    forall i :: 0 <= i < |ps| ==> HasPermission(ps[i], ru)
  }

  /** Being an admin implies passing the admin-or-usuario check. */
  lemma AdminIsAdminOrUsuario(ru: RequestUser)
    ensures IsAdminUser(ru) ==> IsAdminOrUsuario(ru)
  {
  }

  /** `IsAdminOrUsuario` admits exactly authenticated users whose role is
      `admin` or `usuario`; in particular an owner (`dueño`) is refused. */
  lemma AdminOrUsuarioExactly(ru: RequestUser)
    ensures IsAdminOrUsuario(ru) <==>
      ru.Authenticated? && (ru.user.rol == RolAdmin.Code() || ru.user.rol == RolUsuario.Code())
    ensures ru.Authenticated? && ru.user.rol == RolDueno.Code() ==> !IsAdminOrUsuario(ru)
  {
  }

  /** The three other checks in terms of the user record: `IsAdminUser`
      admits exactly authenticated admins, `IsAuthenticatedAndActive`
      exactly authenticated users with `activo`, and `IsSelfOrAdmin` an
      authenticated admin or the user the object is. */
  lemma RoleChecksExactly(ru: RequestUser, obj: Target)
    ensures IsAdminUser(ru) <==> ru.Authenticated? && ru.user.rol == RolAdmin.Code()
    ensures IsAuthenticatedAndActive(ru) <==> ru.Authenticated? && ru.user.activo
    ensures IsSelfOrAdmin(ru, obj) <==>
      ru.Authenticated? && (ru.user.rol == RolAdmin.Code() || (obj.UserTarget? && obj.user.id == ru.user.id))
  {
  }

  /** The anonymous user, which has no `rol` attribute, fails every role check. */
  lemma AnonymousFailsRoleChecks(obj: Target)
    ensures !IsAdminUser(Anonymous) && !IsAdminOrUsuario(Anonymous)
    ensures !IsSelfOrAdmin(Anonymous, obj) && !IsAuthenticatedAndActive(Anonymous)
  {
  }

  /** `IsSelfOrAdmin` looks at neither authentication nor `activo`: an
      inactive admin passes for any object, an inactive user for itself. */
  lemma SelfOrAdminIgnoresActivo(u: Usuario, obj: Target)
    requires !u.activo
    ensures u.rol == AdminCode ==> IsSelfOrAdmin(Authenticated(u), obj)
    ensures IsSelfOrAdmin(Authenticated(u), UserTarget(u))
    ensures !IsAuthenticatedAndActive(Authenticated(u))
  {
  }
}

=== FILE: publish.dfy ===
/** The `send_*` helpers: which group a message goes to and under which
    handler type, and who receives it once the consumers have connected. */
module Publish {
  import opened Wrappers
  import opened Text
  import opened Domain
  import opened Channels
  import AC = AnimalConsumer
  import NC = NotificacionConsumer
  import LC = LogConsumer

  /** `send_notification_to_user`. */
  function SendNotificationToUser(userId: nat, data: Payload): (p: Publication)
    ensures p.group == NC.UserGroup(userId)
    ensures p.event == Event("notification_message", data)
  {
    Publication(NC.UserGroup(userId), Event("notification_message", data))
  }

  /** `send_broadcast_notification`. */
  function SendBroadcast(data: Payload): (p: Publication)
    ensures p.group == NC.GeneralGroup
    ensures p.event == Event("broadcast_message", data)
  {
    Publication(NC.GeneralGroup, Event("broadcast_message", data))
  }

  /** `send_log_to_admins`. */
  function SendLogToAdmins(data: Payload): (p: Publication)
    ensures p.group == LC.AdminGroup
    ensures p.event == Event("new_log", data)
  {
    Publication(LC.AdminGroup, Event("new_log", data))
  }

  /** `send_animal_update`: the general group first, then the animal's own. */
  function SendAnimalUpdate(animalId: nat, action: string, data: AnimalData): (r: seq<Publication>)
    ensures |r| == 2
    ensures r[0].group == AC.UpdatesGroup && r[1].group == "animal_" + NatToString(animalId)
    ensures r[0].event == r[1].event
    ensures r[0].event == Event("animal_" + action, AnimalPayload(animalId, action, data))
  {
    var ev := Event("animal_" + action, AnimalPayload(animalId, action, data));
    [Publication(AC.UpdatesGroup, ev), Publication("animal_" + NatToString(animalId), ev)]
  }

  /** Distinct users have distinct groups. */
  lemma UserGroupsDistinct(a: nat, b: nat)
    ensures NC.UserGroup(a) == NC.UserGroup(b) <==> a == b
  {
    if NC.UserGroup(a) == NC.UserGroup(b) {
      assert NC.UserGroup(a)[5..] == NatToString(a);
      assert NC.UserGroup(b)[5..] == NatToString(b);
      NatToStringInjective(a, b);
    }
  }

  /** A notification for user `u` reaches a freshly connected notification
      stream exactly when that stream belongs to `u`, and it is relayed as
      `notification`. */
  lemma NotificationReachesOnlyOwner(id: ConnId, v: Usuario, reg: Registry, store: seq<Notificacion>,
                                     u: nat, data: Payload)
    requires GroupsOf(reg, id) == {}
    ensures var s := NC.Connect(NewConn(id), Some(v), reg, store);
      var p := SendNotificationToUser(u, data);
      && (id in Recipients(s.reg, p) <==> u == v.id)
      && NC.Push(s.conn, s.reg, p.event).out == [Relayed("notification", data)]
  {
    var s := NC.Connect(NewConn(id), Some(v), reg, store);
    NC.ConnectJoinsTwoGroups(id, v, reg, store);
    UserGroupsDistinct(u, v.id);
    assert id in Members(s.reg, NC.UserGroup(u)) <==> NC.UserGroup(u) in GroupsOf(s.reg, id);
  }

  /** A broadcast reaches every connected notification stream. */
  lemma BroadcastReachesEveryone(id: ConnId, v: Usuario, reg: Registry, store: seq<Notificacion>, data: Payload)
    ensures var s := NC.Connect(NewConn(id), Some(v), reg, store);
      var p := SendBroadcast(data);
      && id in Recipients(s.reg, p)
      && NC.Push(s.conn, s.reg, p.event).out == [Relayed("broadcast", data)]
  {
  }

  /** A log reaches a fresh log stream exactly when the admin gate let it in. */
  lemma LogReachesOnlyAdmins(id: ConnId, user: Option<Usuario>, reg: Registry, data: Payload)
    requires GroupsOf(reg, id) == {}
    ensures var s := LC.Connect(NewConn(id), user, reg);
      var p := SendLogToAdmins(data);
      && (id in Recipients(s.reg, p) <==> LC.Admitted(user))
      && LC.Push(s.conn, s.reg, p.event).out == [Relayed("new_log", data)]
  {
    var s := LC.Connect(NewConn(id), user, reg);
    LC.ConnectGate(id, user, reg);
    assert id in Members(s.reg, LC.AdminGroup) <==> LC.AdminGroup in GroupsOf(s.reg, id);
  }

  /** The subscribe request by numeric id adds the connection to the animal's group. */
  lemma SubscribeByNumericId(c: Conn, reg: Registry, animalId: nat)
    requires |NatToString(animalId)| < 93
    ensures AC.Receive(c, Decoded(JObj(map["type" := JStr("subscribe_animal"), "animal_id" := JInt(animalId)])), reg).reg
      == GroupAdd(reg, "animal_" + NatToString(animalId), c.id)
  {
    AC.NumericIdGroup(animalId);
    var m := map["type" := JStr("subscribe_animal"), "animal_id" := JInt(animalId)];
    assert Get(m, "type") == JStr("subscribe_animal");
    assert Get(m, "animal_id") == JInt(animalId);
  }

  /** The three actions the signals use give the three tags the consumer relays. */
  lemma KnownActionKinds(action: string)
    ensures action in {"created", "updated", "deleted"} ==>
      "animal_" + action in {"animal_created", "animal_updated", "animal_deleted"}
  {
    if action == "created" {
      assert "animal_" + action == "animal_created";
    } else if action == "updated" {
      assert "animal_" + action == "animal_updated";
    } else if action == "deleted" {
      assert "animal_" + action == "animal_deleted";
    }
  }

  /** Both messages of an animal update reach a connection that connected and
      subscribed to that animal by its numeric id; the consumer relays the
      three known actions under their own tag. */
  lemma AnimalUpdateReachesSubscriber(id: ConnId, u: Usuario, reg: Registry,
                                      animalId: nat, action: string, data: AnimalData)
    requires |NatToString(animalId)| < 93
    ensures var s1 := AC.Connect(NewConn(id), Some(u), reg);
      var s2 := AC.Receive(s1.conn, Decoded(JObj(map["type" := JStr("subscribe_animal"), "animal_id" := JInt(animalId)])), s1.reg);
      var ps := SendAnimalUpdate(animalId, action, data);
      && id in Recipients(s2.reg, ps[0])
      && id in Recipients(s2.reg, ps[1])
      && (action in {"created", "updated", "deleted"} ==>
            AC.Push(s2.conn, s2.reg, ps[1].event).out == [Relayed("animal_" + action, AnimalPayload(animalId, action, data))])
  {
    var s1 := AC.Connect(NewConn(id), Some(u), reg);
    SubscribeByNumericId(s1.conn, s1.reg, animalId);
    KnownActionKinds(action);
    assert id in Members(s1.reg, AC.UpdatesGroup);
  }
}

=== FILE: record_hooks.dfy ===
/** The `post_save` receivers for notifications and logs: they publish a
    record only when it was just created. */
module RecordHooks {
  import opened Wrappers
  import opened Domain
  import opened Channels
  import opened Publish
  import NotificacionConsumer
  import LogConsumer

  /** `notificacion_saved`. */
  function NotificacionSaved(n: Notificacion, created: bool): (r: seq<Publication>)
    ensures !created ==> r == []
    ensures created ==> r == [SendNotificationToUser(n.usuario, NotificationPayload(n))]
  {
    if created then [SendNotificationToUser(n.usuario, NotificationPayload(n))] else []
  }

  /** `log_saved`. */
  function LogSaved(l: LogEntry, created: bool): (r: seq<Publication>)
    ensures !created ==> r == []
    ensures created ==> r == [SendLogToAdmins(LogPayload(l))]
  {
    if created then [SendLogToAdmins(LogPayload(l))] else []
  }

  /** Saving a notification again, as marking it read does, republishes
      nothing, whatever changed in it. */
  lemma ResaveIsSilent(n: Notificacion)
    ensures NotificacionSaved(n.(visto := true), false) == []
    ensures |NotificacionSaved(n, true)| == 1 && NotificacionSaved(n, true)[0].group == NotificacionConsumer.UserGroup(n.usuario)
  {
  }

  /** A created notification reaches a fresh notification stream exactly
      when the stream belongs to the notification's user, and arrives there
      as a `notification` frame carrying the record. */
  lemma NewNotificationReachesOwner(id: ConnId, v: Usuario, reg: Registry, store: seq<Notificacion>, n: Notificacion)
    requires GroupsOf(reg, id) == {}
    ensures var s := NotificacionConsumer.Connect(NewConn(id), Some(v), reg, store);
      var ps := NotificacionSaved(n, true);
      && |ps| == 1
      && (id in Recipients(s.reg, ps[0]) <==> n.usuario == v.id)
      && NotificacionConsumer.Push(s.conn, s.reg, ps[0].event).out == [Relayed("notification", NotificationPayload(n))]
  {
    NotificationReachesOnlyOwner(id, v, reg, store, n.usuario, NotificationPayload(n));
  }

  /** A created log reaches a fresh log stream exactly when the stream's
      user is an admin, and arrives there as a `new_log` frame. */
  lemma NewLogReachesAdmins(id: ConnId, user: Option<Usuario>, reg: Registry, l: LogEntry)
    requires GroupsOf(reg, id) == {}
    ensures var s := LogConsumer.Connect(NewConn(id), user, reg);
      var ps := LogSaved(l, true);
      && |ps| == 1
      && (id in Recipients(s.reg, ps[0]) <==> LogConsumer.Admitted(user))
      && LogConsumer.Push(s.conn, s.reg, ps[0].event).out == [Relayed("new_log", LogPayload(l))]
  {
    LogReachesOnlyAdmins(id, user, reg, LogPayload(l));
  }
}

=== FILE: signals.dfy ===
/** The `post_save` / `post_delete` receivers that publish animal changes
    and notify users about new incidents, treatments and events. */
module Signals {
  import opened Wrappers
  import opened Text
  import opened Domain
  import opened Ordering
  import opened Channels
  import opened Publish
  import opened WebsocketUtils
  import AC = AnimalConsumer

  function ActionOf(created: bool): string {
    if created then "created" else "updated"
  }

  /** `animal_saved`: the serialized animal, tagged `created` or `updated`. */
  function AnimalSaved(a: Animal, created: bool): (r: seq<Publication>)
    ensures |r| == 2 && r[0].event == r[1].event
    ensures r[0].group == AC.UpdatesGroup && r[1].group == "animal_" + NatToString(a.id)
    ensures r[0].event.kind == "animal_created" <==> created
    ensures r[0].event.kind == "animal_updated" <==> !created
    ensures r[0].event.data == AnimalPayload(a.id, ActionOf(created), AnimalRecord(a))
  {
    assert "animal_" + ActionOf(created) == if created then "animal_created" else "animal_updated";
    assert "animal_created"[7] != "animal_updated"[7];
    SendAnimalUpdate(a.id, ActionOf(created), AnimalRecord(a))
  }

  /** `animal_deleted`: only the id and the ear tag travel. */
  function AnimalDeleted(a: Animal): (r: seq<Publication>)
    ensures |r| == 2 && r[0].event == r[1].event
    ensures r[0].group == AC.UpdatesGroup && r[1].group == "animal_" + NatToString(a.id)
    ensures r[0].event == Event("animal_deleted", AnimalPayload(a.id, "deleted", AnimalStub(a.id, a.chapeta)))
  {
    SendAnimalUpdate(a.id, "deleted", AnimalStub(a.id, a.chapeta))
  }

  /** Every animal publication has a handler in the animal consumer, which
      relays it unchanged. */
  lemma AnimalEventsHandled(c: Conn, reg: Registry, a: Animal, created: bool)
    ensures forall k :: 0 <= k < 2 ==>
      AC.Push(c, reg, AnimalSaved(a, created)[k].event) == Step(c, reg, [Relayed(AnimalSaved(a, created)[k].event.kind, AnimalSaved(a, created)[k].event.data)], false)
    ensures forall k :: 0 <= k < 2 ==>
      AC.Push(c, reg, AnimalDeleted(a)[k].event) == Step(c, reg, [Relayed("animal_deleted", AnimalDeleted(a)[k].event.data)], false)
  {
    var kind := AnimalSaved(a, created)[0].event.kind;
    assert kind == "animal_" + ActionOf(created);
    if created {
      assert kind == "animal_created";
    } else {
      assert kind == "animal_updated";
    }
  }

  predicate IsActiveAdmin(u: Usuario) {
    u.rol == AdminCode && u.activo
  }


  /** Nothing written and nothing sent. */
  function Unchanged(db: Db): (r: Batch)
    ensures r.db == db && r.pubs == [] && r.records == []
  {
    Batch(db, [], [])
  }

  /** `incidencia_saved`: on creation, one `send_incidencia_alert` per active
      admin. `animal` is the incident's animal. */
  function IncidenciaSaved(db: Db, inc: Incidencia, animal: Animal, created: bool): (r: Batch)
    requires animal.id == inc.animal
    ensures !created ==> r == Unchanged(db)
    ensures created ==> |r.records| == |Filter(db.usuarios, IsActiveAdmin)|
    ensures created ==> forall i :: 0 <= i < |r.records| ==>
      && r.records[i].usuario == Filter(db.usuarios, IsActiveAdmin)[i].id
      && r.records[i].tipo == AlertaSanitaria
      && r.records[i].mensaje == "Nueva incidencia detectada: " + inc.tipo + " en animal " + animal.chapeta
      && r.records[i].animal == Some(inc.animal)
  {
    if created then
      NotifyEach(db, Filter(db.usuarios, IsActiveAdmin),
                 "Nueva incidencia detectada: " + inc.tipo + " en animal " + animal.chapeta,
                 AlertaSanitaria, Some(animal.id), None)
    else Unchanged(db)
  }

  /** A stored user is alerted about a new incident exactly when the user
      is an active admin; saving an existing incident alerts nobody. */
  lemma IncidenciaAlertsActiveAdmins(db: Db, inc: Incidencia, animal: Animal, created: bool, u: Usuario)
    requires animal.id == inc.animal
    requires UniqueUserIds(db.usuarios) && u in db.usuarios
    ensures var r := IncidenciaSaved(db, inc, animal, created);
      (exists i :: 0 <= i < |r.records| && r.records[i].usuario == u.id) <==>
        created && u.rol == "admin" && u.activo
  {
    assert AdminCode == "admin";
    if created {
      var msg := "Nueva incidencia detectada: " + inc.tipo + " en animal " + animal.chapeta;
      assert IncidenciaSaved(db, inc, animal, created) == NotifyEach(db, Filter(db.usuarios, IsActiveAdmin), msg, AlertaSanitaria, Some(animal.id), None);
      FilteredRecipients(db, IsActiveAdmin, msg, AlertaSanitaria, Some(animal.id), None, u,
                         IncidenciaSaved(db, inc, animal, created));
    } else {
      assert IncidenciaSaved(db, inc, animal, created).records == [];
    }
  }

  /** `tratamiento_saved`: on creation, one `informativa` per active admin. */
  function TratamientoSaved(db: Db, t: Tratamiento, animal: Animal, created: bool): (r: Batch)
    requires animal.id == t.animal
    ensures !created ==> r == Unchanged(db)
    ensures created ==> |r.records| == |Filter(db.usuarios, IsActiveAdmin)|
    ensures created ==> forall i :: 0 <= i < |r.records| ==>
      && r.records[i].usuario == Filter(db.usuarios, IsActiveAdmin)[i].id
      && r.records[i].tipo == Informativa
      && r.records[i].mensaje == "Nuevo tratamiento registrado: " + t.medicamento + " para " + animal.chapeta
      && r.records[i].animal == Some(t.animal)
  {
    if created then
      NotifyEach(db, Filter(db.usuarios, IsActiveAdmin),
                 "Nuevo tratamiento registrado: " + t.medicamento + " para " + animal.chapeta,
                 Informativa, Some(animal.id), None)
    else Unchanged(db)
  }

  /** A stored user hears of a new treatment exactly when the user is an
      active admin. */
  lemma TratamientoNotifiesActiveAdmins(db: Db, t: Tratamiento, animal: Animal, created: bool, u: Usuario)
    requires animal.id == t.animal
    requires UniqueUserIds(db.usuarios) && u in db.usuarios
    ensures var r := TratamientoSaved(db, t, animal, created);
      (exists i :: 0 <= i < |r.records| && r.records[i].usuario == u.id) <==>
        created && u.rol == "admin" && u.activo
  {
    assert AdminCode == "admin";
    if created {
      var msg := "Nuevo tratamiento registrado: " + t.medicamento + " para " + animal.chapeta;
      assert TratamientoSaved(db, t, animal, created) == NotifyEach(db, Filter(db.usuarios, IsActiveAdmin), msg, Informativa, Some(animal.id), None);
      FilteredRecipients(db, IsActiveAdmin, msg, Informativa, Some(animal.id), None, u,
                         TratamientoSaved(db, t, animal, created));
    } else {
      assert TratamientoSaved(db, t, animal, created).records == [];
    }
  }

  /** The reminder text of a new event: ` (HOY)` for today, ` (MAÑANA)` otherwise. */
  function EventoMessage(titulo: string, isToday: bool): (m: string)
    ensures StartsWith(m, "Evento programado: " + titulo)
    ensures EndsWith(m, " (HOY)") <==> isToday
    ensures EndsWith(m, " (MAÑANA)") <==> !isToday
  {
    var head := "Evento programado: " + titulo;
    var m := head + if isToday then " (HOY)" else " (MAÑANA)";
    assert m[..|head|] == head;
    if isToday then
      assert m[|m| - 6..] == " (HOY)";
      assert m[|m| - 2] != " (MAÑANA)"[7];
      m
    else
      assert m[|m| - 9..] == " (MAÑANA)";
      assert m[|m| - 2] != " (HOY)"[4];
      m
  }

  /** An event day that triggers reminders: today or tomorrow. */
  predicate Soon(day: int, today: int) {
    day == today || day == today + 1
  }

  /** `evento_saved`: a new event happening today or tomorrow notifies every
      active user with a `recordatorio`; `today` is the current day. */
  function EventoSaved(db: Db, ev: Evento, created: bool, today: int): (r: Batch)
    ensures !(created && Soon(ev.fechaInicioDia, today)) ==> r == Unchanged(db)
    ensures created && Soon(ev.fechaInicioDia, today) ==>
      && |r.records| == |Filter(db.usuarios, IsActive)|
      && forall i :: 0 <= i < |r.records| ==>
           && r.records[i].usuario == Filter(db.usuarios, IsActive)[i].id
           && r.records[i].tipo == Recordatorio
           && r.records[i].mensaje == EventoMessage(ev.titulo, ev.fechaInicioDia == today)
           && r.records[i].evento == Some(ev.id) && r.records[i].animal.None?
  {
    if created && Soon(ev.fechaInicioDia, today) then
      NotifyEach(db, Filter(db.usuarios, IsActive), EventoMessage(ev.titulo, ev.fechaInicioDia == today),
                 Recordatorio, None, Some(ev.id))
    else Unchanged(db)
  }

  /** A stored user is reminded of a new event exactly when the user is
      active and the event is today or tomorrow. */
  lemma EventoNotifiesActiveUsers(db: Db, ev: Evento, created: bool, today: int, u: Usuario)
    requires UniqueUserIds(db.usuarios) && u in db.usuarios
    ensures var r := EventoSaved(db, ev, created, today);
      (exists i :: 0 <= i < |r.records| && r.records[i].usuario == u.id) <==>
        created && Soon(ev.fechaInicioDia, today) && u.activo
  {
    if created && Soon(ev.fechaInicioDia, today) {
      var msg := EventoMessage(ev.titulo, ev.fechaInicioDia == today);
      assert EventoSaved(db, ev, created, today) == NotifyEach(db, Filter(db.usuarios, IsActive), msg, Recordatorio, None, Some(ev.id));
      FilteredRecipients(db, IsActive, msg, Recordatorio, None, Some(ev.id), u,
                         EventoSaved(db, ev, created, today));
    } else {
      assert EventoSaved(db, ev, created, today).records == [];
    }
  }
}

=== FILE: storage.dfy ===
/** core/firebase_storage.py: validation and naming in `upload_image`, and
    `extract_storage_path_from_url`. The storage SDK, the image re-encoding
    and the reachability probe are represented only by their outcomes. */
module FirebaseStorage {
  import opened Wrappers
  import opened Text

  const BucketName: string := "genetics-426ea.appspot.com"
  const StorageHost: string := "storage.googleapis.com"
  /** `f"storage.googleapis.com/{self.bucket_name}/"`. */
  const BucketPart: string := StorageHost + "/" + BucketName + "/"
  const MaxUploadBytes: nat := 10 * 1024 * 1024

  /** The uploaded file as the service sees it; `contentType` is `None` when
      the upload carries no content type. */
  datatype ImageFile = ImageFile(contentType: Option<string>, size: nat)

  /** The dictionary `upload_image` returns. */
  datatype UploadResult =
    | Uploaded(url: string, storagePath: string, bucket: string)
    | UploadError(error: string)

  /** What the foreign calls do when they are reached: whether Firebase is
      initialised, whether the image re-encoding succeeds, and the public URL
      the upload yields or the message of the exception it raises. */
  datatype UploadEnv = UploadEnv(initialized: bool, processed: bool, upload: Result<string, string>)

  const NotConfigured: string := "Firebase no configurado correctamente"
  const NotAnImage: string := "El archivo debe ser una imagen"
  const TooLarge: string := "La imagen es demasiado grande (máximo 10MB)"
  const NotProcessed: string := "Error procesando la imagen"
  const UploadFailedPrefix: string := "Error subiendo imagen: "
  /** `str(e)` of the AttributeError raised by `None.startswith`. */
  const NoContentTypeMessage: string := "'NoneType' object has no attribute 'startswith'"

  predicate IsHexDigit(c: char) {
    '0' <= c <= '9' || 'a' <= c <= 'f'
  }

  /** `uuid.uuid4().hex`: lower-case hexadecimal digits. */
  predicate IsHex(s: string) {
    forall k :: 0 <= k < |s| ==> IsHexDigit(s[k])
  }

  /** The object path built for an upload: always a `.jpg` under the
      entity's folder, whatever the uploaded file was called. */
  function StoragePath(entityType: string, entityId: nat, hex: string): (p: string)
    ensures EndsWith(p, ".jpg")
    ensures StartsWith(p, entityType + "/" + NatToString(entityId) + "/foto_")
  {
    var p := entityType + "/" + NatToString(entityId) + "/foto_" + hex + ".jpg";
    assert p[|p| - 4..] == ".jpg";
    p
  }

  /** `upload_image`: checks run in the order initialisation, content type,
      size, processing; any exception becomes an error dictionary. */
  function UploadImage(file: ImageFile, entityType: string, entityId: nat, hex: string, env: UploadEnv): (r: UploadResult)
    ensures !env.initialized ==> r == UploadError(NotConfigured)
    ensures env.initialized && file.contentType.None? ==> r == UploadError(UploadFailedPrefix + NoContentTypeMessage)
    ensures env.initialized && file.contentType.Some? && !StartsWith(file.contentType.value, "image/") ==>
      r == UploadError(NotAnImage)
    ensures (env.initialized && file.contentType.Some? && StartsWith(file.contentType.value, "image/")
             && file.size > MaxUploadBytes) ==> r == UploadError(TooLarge)
    ensures r.Uploaded? <==>
      env.initialized && file.contentType.Some? && StartsWith(file.contentType.value, "image/")
      && file.size <= MaxUploadBytes && env.processed && env.upload.Success?
    ensures r.Uploaded? ==>
      r.url == env.upload.value && r.bucket == BucketName
      && r.storagePath == StoragePath(entityType, entityId, hex) && EndsWith(r.storagePath, ".jpg")
    ensures (env.initialized && file.contentType.Some? && StartsWith(file.contentType.value, "image/")
             && file.size <= MaxUploadBytes && env.processed && env.upload.Failure?) ==>
      r == UploadError(UploadFailedPrefix + env.upload.error)
  {
    if !env.initialized then UploadError(NotConfigured)
    else match file.contentType
      case None => UploadError(UploadFailedPrefix + NoContentTypeMessage)
      case Some(ct) =>
        if !StartsWith(ct, "image/") then UploadError(NotAnImage)
        else if file.size > MaxUploadBytes then UploadError(TooLarge)
        else if !env.processed then UploadError(NotProcessed)
        else
          var path := StoragePath(entityType, entityId, hex);
          match env.upload
          case Failure(e) => UploadError(UploadFailedPrefix + e)
          case Success(url) => Uploaded(url, path, BucketName)
  }

  /** `extract_storage_path_from_url`: the text between the first and the
      second occurrence of the bucket marker, cut at the first `?`. */
  function ExtractStoragePath(url: string): (r: Option<string>)
    ensures !Contains(url, StorageHost) || !Contains(url, BucketName) ==> r.None?
    ensures r.Some? <==> Contains(url, BucketPart)
    ensures r.Some? ==> !Contains(r.value, "?")
  {
    if Contains(url, StorageHost) && Contains(url, BucketName) && Contains(url, BucketPart) then
      var p := Split(Split(url, BucketPart)[1], "?")[0];
      SplitHeadFree(Split(url, BucketPart)[1], "?");
      Some(p)
    else
      ContainsBucketPart(url);
      None
  }

  /** The bucket marker mentions the host and the bucket name. */
  lemma ContainsBucketPart(url: string)
    ensures Contains(url, BucketPart) ==> Contains(url, StorageHost) && Contains(url, BucketName)
  {
    if Contains(url, BucketPart) {
      var i: nat :| i <= |url| && IsAt(url, BucketPart, i);
      var w := url[i..i + |BucketPart|];
      var a := |StorageHost|;
      var h, t := StorageHost + "/", BucketName + "/";
      assert w == h + t;
      assert w[..a] == h[..a] == StorageHost;
      SliceOfSlice(url, i, |BucketPart|, 0, a);
      assert IsAt(url, StorageHost, i);
      var j := i + a + 1;
      assert w[a + 1..a + 1 + |BucketName|] == t[..|BucketName|] == BucketName;
      SliceOfSlice(url, i, |BucketPart|, a + 1, a + 1 + |BucketName|);
      assert IsAt(url, BucketName, j);
    }
  }

  /** The public URL shape of an object, as in the example of line 193. */
  function PublicUrl(path: string): string {
    "https://" + BucketPart + path
  }

  /** The only slashes of a storage path are the two separators. */
  lemma SlashesOfPath(et: string, id: string, hex: string, k: nat)
    requires '/' !in et && '/' !in id && '/' !in hex
    requires k < |et + "/" + id + "/foto_" + hex + ".jpg"|
    ensures (et + "/" + id + "/foto_" + hex + ".jpg")[k] == '/' ==> k == |et| || k == |et| + 1 + |id|
  {
    var p := et + "/" + id + "/foto_" + hex + ".jpg";
    var n := |et| + 1 + |id|;
    if k < |et| {
      assert p[k] == et[k];
    } else if |et| < k < n {
      assert p[k] == id[k - |et| - 1];
    } else if n < k <= n + 5 {
      assert p[k] == "/foto_"[k - n];
    } else if n + 5 < k < n + 6 + |hex| {
      assert p[k] == hex[k - n - 6];
    } else if n + 6 + |hex| <= k {
      assert p[k] == ".jpg"[k - n - 6 - |hex|];
    }
  }

  /** What an occurrence of the bucket marker puts at each offset: a slash,
      the bucket name, and a closing slash. */
  lemma BucketPartShape(p: string, i: nat)
    requires IsAt(p, BucketPart, i)
    ensures |BucketPart| == |StorageHost| + |BucketName| + 2
    ensures p[i + |StorageHost|] == '/' && p[i + |BucketPart| - 1] == '/'
    ensures forall k :: 0 <= k < |BucketName| ==> p[i + |StorageHost| + 1 + k] == BucketName[k]
  {
    var w := p[i..i + |BucketPart|];
    var a := |StorageHost|;
    var h, t := StorageHost + "/", BucketName + "/";
    assert w == h + t;
    assert h[a] == '/' && t[|BucketName|] == '/';
    assert w[a] == h[a] && w[|BucketPart| - 1] == t[|BucketName|];
    forall k | 0 <= k < |BucketName| ensures p[i + a + 1 + k] == BucketName[k] {
      assert w[a + 1 + k] == t[k] == p[i + a + 1 + k];
    }
  }

  /** An occurrence of the bucket marker in a storage path forces the entity
      id to be the bucket name itself. */
  lemma BucketPartInPath(et: string, id: string, hex: string, i: nat)
    requires '/' !in et && '/' !in id && '/' !in hex
    ensures IsAt(et + "/" + id + "/foto_" + hex + ".jpg", BucketPart, i) ==> id == BucketName
  {
    var p := et + "/" + id + "/foto_" + hex + ".jpg";
    if IsAt(p, BucketPart, i) {
      var a, b := |StorageHost|, |BucketPart| - 1;
      BucketPartShape(p, i);
      SlashesOfPath(et, id, hex, i + a);
      SlashesOfPath(et, id, hex, i + b);
      assert i + a == |et| && i + b == |et| + 1 + |id|;
      forall k | 0 <= k < |id| ensures id[k] == BucketName[k] {
        assert p[|et| + 1 + k] == id[k];
      }
    }
  }

  /** Decimal ids never contain the bucket marker's name. */
  lemma DigitsAreNotBucketName(id: string)
    requires forall k :: 0 <= k < |id| ==> IsDigit(id[k])
    ensures id != BucketName
  {
    if |id| > 0 {
      assert IsDigit(id[0]);
      assert BucketName[0] == 'g';
    }
  }

  /** A storage path built by `upload_image` does not contain the marker. */
  lemma PathFreeOfBucketPart(entityType: string, entityId: nat, hex: string)
    requires '/' !in entityType && IsHex(hex)
    ensures !Contains(StoragePath(entityType, entityId, hex), BucketPart)
  {
    var id := NatToString(entityId);
    assert '/' !in id by {
      forall k | 0 <= k < |id| ensures id[k] != '/' { assert IsDigit(id[k]); }
    }
    assert '/' !in hex by {
      forall k | 0 <= k < |hex| ensures hex[k] != '/' { assert IsHexDigit(hex[k]); }
    }
    DigitsAreNotBucketName(id);
    forall i: nat | i <= |StoragePath(entityType, entityId, hex)|
      ensures !IsAt(StoragePath(entityType, entityId, hex), BucketPart, i)
    {
      BucketPartInPath(entityType, id, hex, i);
    }
  }

  /** A storage path has no `?` when the entity type has none. */
  lemma PathFreeOfQuery(entityType: string, entityId: nat, hex: string)
    requires '?' !in entityType && IsHex(hex)
    ensures '?' !in StoragePath(entityType, entityId, hex)
  {
    var id := NatToString(entityId);
    var p := StoragePath(entityType, entityId, hex);
    var n := |entityType| + 1 + |id|;
    forall k | 0 <= k < |p| ensures p[k] != '?' {
      if k < |entityType| {
        assert p[k] == entityType[k];
      } else if |entityType| < k < n {
        assert p[k] == id[k - |entityType| - 1] && IsDigit(id[k - |entityType| - 1]);
      } else if n < k <= n + 5 {
        assert p[k] == "/foto_"[k - n];
      } else if n + 5 < k < n + 6 + |hex| {
        assert p[k] == hex[k - n - 6] && IsHexDigit(hex[k - n - 6]);
      } else if n + 6 + |hex| <= k {
        assert p[k] == ".jpg"[k - n - 6 - |hex|];
      }
    }
  }

  /** Round trip: extracting from the public URL of a path built by
      `upload_image` gives back that path. */
  lemma {:induction false} ExtractStoragePathRoundTrip(entityType: string, entityId: nat, hex: string)
    requires '/' !in entityType && '?' !in entityType && IsHex(hex)
    ensures ExtractStoragePath(PublicUrl(StoragePath(entityType, entityId, hex))) ==
      Some(StoragePath(entityType, entityId, hex))
  {
    var path := StoragePath(entityType, entityId, hex);
    var url := PublicUrl(path);
    var scheme := "https://";
    assert url == scheme + BucketPart + path;
    forall j: nat | j < |scheme|
      ensures !IsAt(scheme + BucketPart + path, BucketPart, j)
    {
      if j == 4 {
        NotAtByChar(url, BucketPart, j, 1);
      } else {
        NotAtByChar(url, BucketPart, j, 0);
      }
    }
    SplitAfterPrefix(scheme, BucketPart, path);
    PathFreeOfBucketPart(entityType, entityId, hex);
    assert Split(url, BucketPart)[1] == path;
    PathFreeOfQuery(entityType, entityId, hex);
    SplitCharAbsent(path, '?');
    assert url[8..8 + |BucketPart|] == BucketPart;
    assert IsAt(url, BucketPart, 8);
    ContainsBucketPart(url);
  }

  /** An upload whose public URL has the documented shape can be located
      again from the URL it returns. */
  lemma UploadThenExtract(file: ImageFile, entityType: string, entityId: nat, hex: string, env: UploadEnv)
    requires '/' !in entityType && '?' !in entityType && IsHex(hex)
    requires env.upload == Success(PublicUrl(StoragePath(entityType, entityId, hex)))
    ensures UploadImage(file, entityType, entityId, hex, env).Uploaded? ==>
      ExtractStoragePath(UploadImage(file, entityType, entityId, hex, env).url) ==
      Some(UploadImage(file, entityType, entityId, hex, env).storagePath)
  {
    ExtractStoragePathRoundTrip(entityType, entityId, hex);
  }
}

=== FILE: text.dfy ===
/** Python string operations the core relies on, stated over `seq<char>`:
    substring test (`in`), `find`, `split`, `join`, `startswith`, `lower`,
    `os.path.splitext` and decimal rendering of integers. */
module Text {
  import opened Wrappers

  /** `pat` occurs in `s` starting at index `i`. */
  predicate IsAt(s: string, pat: string, i: nat) {
    i + |pat| <= |s| && s[i..i + |pat|] == pat
  }

  /** Python's `pat in s` on strings. */
  predicate Contains(s: string, pat: string) {
    exists i: nat | i <= |s| :: IsAt(s, pat, i)
  }

  predicate StartsWith(s: string, prefix: string) {
    |prefix| <= |s| && s[..|prefix|] == prefix
  }

  predicate EndsWith(s: string, suffix: string) {
    |suffix| <= |s| && s[|s| - |suffix|..] == suffix
  }

  /** First occurrence of `pat` at or after index `k`. */
  function IndexFrom(s: string, pat: string, k: nat): (r: Option<nat>)
    requires k <= |s|
    ensures r.Some? ==> k <= r.value && IsAt(s, pat, r.value)
    ensures r.Some? ==> forall j: nat :: k <= j < r.value ==> !IsAt(s, pat, j)
    ensures r.None? ==> forall j: nat :: k <= j ==> !IsAt(s, pat, j)
    decreases |s| - k
  {
    if k + |pat| > |s| then None
    else if IsAt(s, pat, k) then Some(k)
    else IndexFrom(s, pat, k + 1)
  }

  /** Python's `s.find(pat)`, with `None` for -1. */
  function IndexOf(s: string, pat: string): (r: Option<nat>)
    ensures r.Some? <==> Contains(s, pat)
    ensures r.Some? ==> IsAt(s, pat, r.value)
    ensures r.Some? ==> forall j: nat :: j < r.value ==> !IsAt(s, pat, j)
  {
    IndexFrom(s, pat, 0)
  }

  /** Python's `s.split(sep)` for a non-empty separator: the pieces between
      non-overlapping occurrences of `sep`, found left to right. */
  function Split(s: string, sep: string): (r: seq<string>)
    requires |sep| > 0
    ensures |r| >= 1
    ensures |r| == 1 <==> !Contains(s, sep)
    decreases |s|
  {
    match IndexOf(s, sep)
    case None => [s]
    case Some(i) => [s[..i]] + Split(s[i + |sep|..], sep)
  }

  /** Python's `sep.join(parts)`. */
  function Join(parts: seq<string>, sep: string): string
  {
    if |parts| == 0 then ""
    else if |parts| == 1 then parts[0]
    else parts[0] + sep + Join(parts[1..], sep)
  }

  /** Joining a known first piece in front of at least one more. */
  lemma JoinCons(a: string, xs: seq<string>, sep: string)
    requires |xs| >= 1
    ensures Join([a] + xs, sep) == a + sep + Join(xs, sep)
  {
    assert ([a] + xs)[0] == a;
    assert ([a] + xs)[1..] == xs;
  }

  /** One step of `Split` at the first occurrence. */
  lemma SplitAt(s: string, sep: string)
    requires |sep| > 0 && IndexOf(s, sep).Some?
    ensures var i := IndexOf(s, sep).value; Split(s, sep) == [s[..i]] + Split(s[i + |sep|..], sep)
  {
  }

  /** A mismatch at offset `k` rules out an occurrence at `j`. */
  lemma NotAtByChar(s: string, pat: string, j: nat, k: nat)
    requires k < |pat| && j + k < |s| && s[j + k] != pat[k]
    ensures !IsAt(s, pat, j)
  {
    assert j + |pat| <= |s| ==> s[j..j + |pat|][k] == s[j + k];
  }

  /** A slice of a slice is a slice of the whole. */
  lemma SliceOfSlice(s: string, i: nat, n: nat, x: nat, y: nat)
    requires i + n <= |s| && x <= y <= n
    ensures s[i..i + n][x..y] == s[i + x..i + y]
  {
    var u, v := s[i..i + n][x..y], s[i + x..i + y];
    assert forall k :: 0 <= k < |u| ==> u[k] == v[k];
  }

  /** The middle part of a three-part concatenation. */
  lemma SliceMiddle(a: string, b: string, c: string)
    ensures (a + b + c)[|a|..|a| + |b|] == b
  {
    var u := (a + b + c)[|a|..|a| + |b|];
    assert forall k :: 0 <= k < |u| ==> u[k] == b[k];
  }

  lemma StartsWithConcat(a: string, b: string)
    ensures StartsWith(a + b, a)
  {
    assert (a + b)[..|a|] == a;
  }

  lemma Reassemble(s: string, i: nat, n: nat)
    requires i + n <= |s|
    ensures s[..i] + s[i..i + n] + s[i + n..] == s
  {
  }

  /** Joining the pieces of a split with the same separator gives back the string. */
  lemma {:induction false} JoinSplit(s: string, sep: string)
    requires |sep| > 0
    ensures Join(Split(s, sep), sep) == s
    decreases |s|
  {
    var idx := IndexOf(s, sep);
    if idx.Some? {
      var i := idx.value;
      assert IsAt(s, sep, i);
      var rest := s[i + |sep|..];
      var xs := Split(rest, sep);
      SplitAt(s, sep);
      JoinCons(s[..i], xs, sep);
      JoinSplit(rest, sep);
      Reassemble(s, i, |sep|);
    }
  }

  /** The first piece of a split is a prefix of the string. */
  lemma SplitHeadPrefix(s: string, sep: string)
    requires |sep| > 0
    ensures Split(s, sep)[0] <= s
  {
  }

  /** An occurrence inside a prefix is an occurrence in the whole string. */
  lemma IsAtInPrefix(s: string, pat: string, n: nat, j: nat)
    requires n <= |s|
    ensures IsAt(s[..n], pat, j) ==> IsAt(s, pat, j) && j + |pat| <= n
  {
    if IsAt(s[..n], pat, j) {
      assert s[..n][j..j + |pat|] == s[j..j + |pat|];
    }
  }

  /** The first piece of a split contains no occurrence of the separator. */
  lemma SplitHeadFree(s: string, sep: string)
    requires |sep| > 0
    ensures !Contains(Split(s, sep)[0], sep)
  {
    match IndexOf(s, sep)
    case None =>
    case Some(i) =>
      assert Split(s, sep)[0] == s[..i];
      forall j: nat | j <= i
        ensures !IsAt(s[..i], sep, j)
      {
        IsAtInPrefix(s, sep, i, j);
      }
  }

  /** When `sep` first occurs right after `a`, splitting peels `a` off. */
  lemma SplitAfterPrefix(a: string, sep: string, b: string)
    requires |sep| > 0
    requires forall j: nat :: j < |a| ==> !IsAt(a + sep + b, sep, j)
    ensures Split(a + sep + b, sep) == [a] + Split(b, sep)
  {
    var s := a + sep + b;
    assert s[|a|..|a| + |sep|] == sep;
    assert IsAt(s, sep, |a|);
    assert IndexOf(s, sep) == Some(|a|);
    assert s[..|a|] == a;
    assert s[|a| + |sep|..] == b;
  }

  /** A single-character separator absent from `a` cannot occur inside `a`. */
  lemma CharAbsentNotAt(a: string, c: char, b: string)
    requires c !in a
    ensures forall j: nat :: j < |a| ==> !IsAt(a + [c] + b, [c], j)
  {
    forall j: nat | j < |a|
      ensures !IsAt(a + [c] + b, [c], j)
    {
      var s := a + [c] + b;
      assert s[j] == a[j] != c;
      assert j + 1 <= |s| ==> s[j..j + 1][0] == s[j];
    }
  }

  /** `c in s` and `[c] in s` agree for a one-character pattern. */
  lemma ContainsChar(s: string, c: char)
    ensures Contains(s, [c]) <==> c in s
  {
    if c in s {
      var i :| 0 <= i < |s| && s[i] == c;
      assert s[i..i + 1] == [c];
      assert IsAt(s, [c], i);
    }
    if Contains(s, [c]) {
      var i: nat :| i <= |s| && IsAt(s, [c], i);
      assert s[i..i + 1][0] == s[i];
      assert s[i] == c;
    }
  }

  /** Splitting on a character peels off a leading piece free of it. */
  lemma SplitCharCons(a: string, c: char, b: string)
    requires c !in a
    ensures Split(a + [c] + b, [c]) == [a] + Split(b, [c])
  {
    CharAbsentNotAt(a, c, b);
    SplitAfterPrefix(a, [c], b);
  }

  /** Four leading pieces free of the separator character split off in order. */
  lemma SplitCharCons4(a: string, b: string, c: string, d: string, ch: char, rest: string)
    requires ch !in a && ch !in b && ch !in c && ch !in d
    ensures Split(a + [ch] + (b + [ch] + (c + [ch] + (d + [ch] + rest))), [ch]) ==
      [a, b, c, d] + Split(rest, [ch])
  {
    var s3 := d + [ch] + rest;
    var s2 := c + [ch] + s3;
    var s1 := b + [ch] + s2;
    calc {
      Split(a + [ch] + s1, [ch]);
      == { SplitCharCons(a, ch, s1); }
      [a] + Split(s1, [ch]);
      == { SplitCharCons(b, ch, s2); }
      [a] + ([b] + Split(s2, [ch]));
      == { SplitCharCons(c, ch, s3); }
      [a] + ([b] + ([c] + Split(s3, [ch])));
      == { SplitCharCons(d, ch, rest); }
      [a] + ([b] + ([c] + ([d] + Split(rest, [ch]))));
      ==
      [a, b, c, d] + Split(rest, [ch]);
    }
  }

  /** A string without the separator character splits into itself alone. */
  lemma SplitCharAbsent(s: string, c: char)
    requires c !in s
    ensures Split(s, [c]) == [s]
  {
    ContainsChar(s, c);
  }

  /** The first piece of splitting `a + [c] + b` on `c`, when `a` has no `c`. */
  lemma SplitCharHead(a: string, c: char, b: string)
    requires c !in a
    ensures Split(a + [c] + b, [c])[0] == a
  {
    SplitCharCons(a, c, b);
  }

  /** Python's `xs.index(x)`. */
  function FirstIndex<T(==)>(xs: seq<T>, x: T): (r: nat)
    requires x in xs
    ensures r < |xs| && xs[r] == x
    ensures forall j :: 0 <= j < r ==> xs[j] != x
  {
    if xs[0] == x then 0 else 1 + FirstIndex(xs[1..], x)
  }

  /** Python's `s[:n]`: the first `n` characters, or all of `s` when shorter. */
  function Prefix(s: string, n: nat): (r: string)
    ensures |r| == if |s| <= n then |s| else n
    ensures r <= s
  {
    if |s| <= n then s else s[..n]
  }

  /** Index of the last occurrence of `c` (`str.rfind`, `None` for -1). */
  function LastIndexOfChar(s: string, c: char): (r: Option<nat>)
    ensures r.None? <==> c !in s
    ensures r.Some? ==> r.value < |s| && s[r.value] == c
    ensures r.Some? ==> forall j :: r.value < j < |s| ==> s[j] != c
  {
    if |s| == 0 then None
    else if s[|s| - 1] == c then Some(|s| - 1)
    else LastIndexOfChar(s[..|s| - 1], c)
  }

  /** The extension part of `os.path.splitext(p)` (POSIX): from the last dot
      of the final path component, provided a non-dot character precedes it in
      that component; otherwise empty. */
  function Extension(p: string): (r: string)
    ensures r == [] || (r[0] == '.' && EndsWith(p, r))
    ensures forall k :: 0 < k < |r| ==> r[k] != '.' && r[k] != '/'
    ensures '.' !in p ==> r == []
  {
    match LastIndexOfChar(p, '.')
    case None => []
    case Some(d) =>
      var start := match LastIndexOfChar(p, '/') case None => 0 case Some(k) => k + 1;
      if start <= d && exists k :: start <= k < d && p[k] != '.' then
        assert p[|p| - |p[d..]|..] == p[d..];
        p[d..]
      else []
  }

  /** Python's `str.lower()` restricted to ASCII letters. */
  function LowerChar(c: char): char {
    if 'A' <= c <= 'Z' then (c as int + 32) as char else c
  }

  function Lower(s: string): (r: string)
    ensures |r| == |s|
    ensures forall k :: 0 <= k < |s| ==> r[k] == LowerChar(s[k])
  {
    seq(|s|, k requires 0 <= k < |s| => LowerChar(s[k]))
  }

  predicate IsDigit(c: char) {
    '0' <= c <= '9'
  }

  function DigitChar(d: nat): (c: char)
    requires d < 10
    ensures IsDigit(c)
  {
    ('0' as int + d) as char
  }

  /** Python's `str(n)` for a non-negative integer. */
  function NatToString(n: nat): (r: string)
    ensures |r| >= 1
    ensures n >= 10 ==> |r| >= 2
    ensures forall k :: 0 <= k < |r| ==> IsDigit(r[k])
  {
    if n < 10 then [DigitChar(n)] else NatToString(n / 10) + [DigitChar(n % 10)]
  }

  /** Python's `str(i)` for any integer. */
  function IntToString(i: int): (r: string)
    ensures |r| >= 1
  {
    if i < 0 then "-" + NatToString(-i) else NatToString(i)
  }

  /** The value of a run of decimal digits, most significant first. */
  function DigitsValue(s: string): nat
    requires forall k :: 0 <= k < |s| ==> IsDigit(s[k])
  {
    if s == [] then 0
    else assert IsDigit(s[|s| - 1]); DigitsValue(s[..|s| - 1]) * 10 + (s[|s| - 1] as int - '0' as int)
  }

  predicate AllDigits(s: string) {
    |s| >= 1 && forall k :: 0 <= k < |s| ==> IsDigit(s[k])
  }

  /** The texts Python's `int()` reads as a base-10 literal when they carry
    * no surrounding whitespace and no underscores: an optional sign, then
    * one or more digits. */
  predicate IsIntLiteral(s: string) {
    |s| >= 1 && if s[0] == '-' || s[0] == '+' then AllDigits(s[1..]) else AllDigits(s)
  }

  /** Python's `int(s)` on an integer literal. */
  function ParseInt(s: string): int
    requires IsIntLiteral(s)
  {
    if s[0] == '-' then -(DigitsValue(s[1..]) as int)
    else if s[0] == '+' then DigitsValue(s[1..])
    else DigitsValue(s)
  }

  /** Reading back the decimal rendering of a number gives the number. */
  lemma {:induction false} NatToStringValue(n: nat)
    ensures DigitsValue(NatToString(n)) == n
    decreases n
  {
    var r := NatToString(n);
    if n >= 10 {
      assert r[..|r| - 1] == NatToString(n / 10);
      assert r[|r| - 1] == DigitChar(n % 10);
      NatToStringValue(n / 10);
    }
  }

  /** `int(str(i)) == i`: every rendering is an integer literal that parses back. */
  lemma IntToStringParses(i: int)
    ensures IsIntLiteral(IntToString(i))
    ensures ParseInt(IntToString(i)) == i
  {
    var r := IntToString(i);
    if i < 0 {
      assert r[1..] == NatToString(-i);
      NatToStringValue(-i);
    } else {
      assert IsDigit(r[0]);
      NatToStringValue(i);
    }
  }

  /** Distinct numbers render as distinct decimal strings. */
  lemma {:induction false} NatToStringInjective(a: nat, b: nat)
    requires NatToString(a) == NatToString(b)
    ensures a == b
    decreases a
  {
    var sa, sb := NatToString(a), NatToString(b);
    if a < 10 && b < 10 {
      assert sa[0] == DigitChar(a) && sb[0] == DigitChar(b);
    } else if a >= 10 && b >= 10 {
      assert sa[|sa| - 1] == DigitChar(a % 10);
      assert sb[|sb| - 1] == DigitChar(b % 10);
      assert sa[..|sa| - 1] == NatToString(a / 10);
      assert sb[..|sb| - 1] == NatToString(b / 10);
      NatToStringInjective(a / 10, b / 10);
    }
  }

  /** The rendering starts with a minus sign exactly for negative numbers. */
  lemma IntToStringSign(i: int)
    ensures IntToString(i)[0] == '-' <==> i < 0
  {
    if i >= 0 {
      assert IsDigit(NatToString(i)[0]);
    }
  }

  /** Distinct integers render as distinct decimal strings. */
  lemma IntToStringInjective(a: int, b: int)
    requires IntToString(a) == IntToString(b)
    ensures a == b
  {
    var sa, sb := IntToString(a), IntToString(b);
    IntToStringSign(a);
    IntToStringSign(b);
    if a < 0 {
      assert sa[1..] == NatToString(-a);
      assert sb[1..] == NatToString(-b);
      NatToStringInjective(-a, -b);
    } else {
      NatToStringInjective(a, b);
    }
  }
}

=== FILE: usuarios.dfy ===
/** `UsuarioManager`: creating users and superusers, with the model's field
    defaults. The store stands in for the users table. */
module Usuarios {
  import opened Wrappers
  import opened Domain

  /** The keyword arguments a caller may pass through `**extra_fields`;
      `None` means the key was not given. */
  datatype ExtraFields = ExtraFields(
    nombre: Option<string>,
    apellidos: Option<string>,
    rol: Option<string>,
    activo: Option<bool>,
    isStaff: Option<bool>,
    isSuperuser: Option<bool>)

  /** The users table and the next primary key. */
  datatype UserStore = UserStore(usuarios: seq<Usuario>, nextId: nat)

  const EmailRequired: string := "El email es obligatorio"

  /** The `IntegrityError` the database raises at `save` when the unique
      `email` column already holds the address. */
  const DuplicateEmail: string := "IntegrityError: email"

  /** A stored user already has the address. */
  predicate EmailTaken(store: UserStore, e: string) {
    exists u :: u in store.usuarios && u.email == e
  }

  /** One of `Usuario.rol`'s choices. */
  predicate ValidRol(s: string) {
    s == AdminCode || s == UsuarioCode || s == DuenoCode
  }

  /** `create_user`. `normalize` is the framework's `normalize_email`. A
      missing password leaves the account without a usable password. Text
      fields not given default to the empty string; `activo` to true,
      `is_staff` and `is_superuser` to false. `email` is unique, so saving a
      normalized address that is already stored fails. */
  function CreateUser(store: UserStore, email: Option<string>, password: Option<string>,
                      extra: ExtraFields, normalize: string -> string): (r: Result<(UserStore, Usuario), string>)
    ensures r.Failure? <==> !Present(email) || EmailTaken(store, normalize(email.value))
    ensures !Present(email) ==> r == Failure(EmailRequired)
    ensures Present(email) && EmailTaken(store, normalize(email.value)) ==> r == Failure(DuplicateEmail)
    ensures r.Success? ==>
      var (s, u) := r.value;
      && s == UserStore(store.usuarios + [u], store.nextId + 1)
      && u.id == store.nextId
      && u.email == normalize(email.value)
      && u.nombre == extra.nombre.GetOr("") && u.apellidos == extra.apellidos.GetOr("")
      && u.rol == extra.rol.GetOr("")
      && u.activo == extra.activo.GetOr(true)
      && u.isStaff == extra.isStaff.GetOr(false)
      && u.isSuperuser == extra.isSuperuser.GetOr(false)
      && u.passwordUsable == password.Some?
  {
    if !Present(email) then Failure(EmailRequired)
    else if EmailTaken(store, normalize(email.value)) then Failure(DuplicateEmail)
    else
      var u := Usuario(store.nextId, normalize(email.value), extra.nombre.GetOr(""), extra.apellidos.GetOr(""),
                       extra.rol.GetOr(""), extra.activo.GetOr(true), extra.isStaff.GetOr(false),
                       extra.isSuperuser.GetOr(false), password.Some?);
      Success((UserStore(store.usuarios + [u], store.nextId + 1), u))
  }

  /** `extra_fields.setdefault(key, True)`. */
  function SetDefaultTrue(v: Option<bool>): (r: Option<bool>)
    ensures r.Some? && (v.Some? ==> r == v) && (v.None? ==> r.value)
  {
    if v.Some? then v else Some(true)
  }

  /** `create_superuser`: `is_staff` and `is_superuser` default to true. */
  function CreateSuperuser(store: UserStore, email: Option<string>, password: Option<string>,
                           extra: ExtraFields, normalize: string -> string): (r: Result<(UserStore, Usuario), string>)
    ensures r.Failure? <==> !Present(email) || EmailTaken(store, normalize(email.value))
  {
    CreateUser(store, email, password,
               extra.(isStaff := SetDefaultTrue(extra.isStaff), isSuperuser := SetDefaultTrue(extra.isSuperuser)),
               normalize)
  }

  /** A superuser is staff and superuser unless the caller said otherwise;
      every other field is what `create_user` makes of the same arguments. */
  lemma SuperuserFields(store: UserStore, email: Option<string>, password: Option<string>,
                        extra: ExtraFields, normalize: string -> string)
    ensures var s := CreateSuperuser(store, email, password, extra, normalize);
      var p := CreateUser(store, email, password, extra, normalize);
      && (s.Success? <==> p.Success?)
      && (s.Success? ==>
            var su := s.value.1;
            && su.isStaff == extra.isStaff.GetOr(true)
            && su.isSuperuser == extra.isSuperuser.GetOr(true)
            && su == p.value.1.(isStaff := su.isStaff, isSuperuser := su.isSuperuser))
  {
  }

  /** An address can be registered once: creating a second user with the
      same email fails and stores nothing more. */
  lemma EmailRegisteredOnce(store: UserStore, email: Option<string>, password: Option<string>,
                            extra: ExtraFields, password2: Option<string>, extra2: ExtraFields,
                            normalize: string -> string)
    requires CreateUser(store, email, password, extra, normalize).Success?
    ensures var s := CreateUser(store, email, password, extra, normalize).value.0;
      CreateUser(s, email, password2, extra2, normalize) == Failure(DuplicateEmail)
  {
    var (s, u) := CreateUser(store, email, password, extra, normalize).value;
    assert u in s.usuarios;
  }

  /** An empty or missing email stores nothing, for users and superusers alike. */
  lemma EmptyEmailRejected(store: UserStore, password: Option<string>, extra: ExtraFields, normalize: string -> string)
    ensures CreateUser(store, None, password, extra, normalize) == Failure(EmailRequired)
    ensures CreateUser(store, Some(""), password, extra, normalize) == Failure(EmailRequired)
    ensures CreateSuperuser(store, Some(""), password, extra, normalize) == Failure(EmailRequired)
  {
  }

  /** The model does not check `rol` against its choices: the stored role is
      one of them exactly when the caller passed one. */
  lemma RolChoiceNotEnforced(store: UserStore, email: Option<string>, password: Option<string>,
                             extra: ExtraFields, normalize: string -> string)
    ensures var r := CreateUser(store, email, password, extra, normalize);
      r.Success? ==> (ValidRol(r.value.1.rol) <==> extra.rol.Some? && ValidRol(extra.rol.value))
  {
    assert !ValidRol("") by {
      assert AdminCode == "admin" && UsuarioCode == "usuario" && DuenoCode == "dueño";
    }
  }
}

=== FILE: viewsets.dfy ===
/** The viewsets' permission choice by HTTP method and their per-role
    visibility filters for treatments, notifications and incidents. */
module Viewsets {
  import opened Wrappers
  import opened Domain
  import opened Ordering
  import opened Permissions

  predicate IsAdmin(u: Usuario) {
    u.rol == AdminCode
  }

  /** `TratamientoViewSet.get_permissions`. */
  function TratamientoPermissions(m: Method): seq<Permission> {
    if m == POST then [AdminUser] else [AllowAuthenticated]
  }

  /** Only admins create treatments; any logged-in user may read, update or
      delete through the viewset. */
  lemma TratamientoAccess(m: Method, ru: RequestUser)
    ensures Admits(TratamientoPermissions(m), ru) <==>
      if m == POST then ru.Authenticated? && ru.user.rol == "admin" else ru.Authenticated?
  {
    assert AdminCode == "admin";
    assert TratamientoPermissions(m)[0] == if m == POST then AdminUser else AllowAuthenticated;
  }

  /** `TratamientoViewSet.get_queryset`. */
  function TratamientosVisible(store: seq<Tratamiento>, u: Usuario): (r: seq<Tratamiento>)
    ensures IsAdmin(u) ==> r == store
    ensures !IsAdmin(u) ==> forall i :: 0 <= i < |r| ==> r[i].administradoPor == Some(u.id)
  {
    if IsAdmin(u) then store else Filter(store, (t: Tratamiento) => t.administradoPor == Some(u.id))
  }

  /** A user sees a stored treatment exactly when the user is an admin or
      administered it. */
  lemma TratamientoVisibility(store: seq<Tratamiento>, u: Usuario, t: Tratamiento)
    ensures t in TratamientosVisible(store, u) <==> t in store && (IsAdmin(u) || t.administradoPor == Some(u.id))
  {
    FilterMembership(store, (t: Tratamiento) => t.administradoPor == Some(u.id), t);
  }

  /** A non-admin may update a treatment they administered: the method is
      admitted and the record is in their queryset. */
  lemma NonAdminMayModifyOwn(store: seq<Tratamiento>, u: Usuario, t: Tratamiento, m: Method)
    requires t in store && t.administradoPor == Some(u.id) && m in {PUT, PATCH, DELETE}
    ensures Admits(TratamientoPermissions(m), Authenticated(u))
    ensures t in TratamientosVisible(store, u)
  {
    TratamientoAccess(m, Authenticated(u));
    TratamientoVisibility(store, u, t);
  }

  /** `NotificacionViewSet.get_permissions`, as written: `IsSelfOrAdmin` on
      POST, whose class-level check is the framework default. */
  function NotificacionPermissions(m: Method): seq<Permission> {
    if m == POST then [SelfOrAdmin] else [AllowAuthenticated]
  }

  /** As written, a POST is admitted for every request, even an anonymous
      one, although the view means to let only admins create. */
  lemma NotificacionCreateOpen(ru: RequestUser)
    ensures Admits(NotificacionPermissions(POST), ru)
    ensures Admits(NotificacionPermissions(POST), Anonymous) && !IsAuthenticated(Anonymous)
  {
    assert NotificacionPermissions(POST)[0] == SelfOrAdmin;
  }

  /** The permission choice the view's comment describes: admins create. */
  function NotificacionPermissionsIntended(m: Method): seq<Permission> {
    if m == POST then [AdminUser] else [AllowAuthenticated]
  }

  /** With the intended choice, creating needs an admin and everything else
      needs a login. */
  lemma NotificacionAccessIntended(m: Method, ru: RequestUser)
    ensures Admits(NotificacionPermissionsIntended(m), ru) <==>
      if m == POST then ru.Authenticated? && ru.user.rol == "admin" else ru.Authenticated?
    ensures !Admits(NotificacionPermissionsIntended(m), Anonymous)
  {
    assert AdminCode == "admin";
    assert NotificacionPermissionsIntended(m)[0] == if m == POST then AdminUser else AllowAuthenticated;
  }

  /** Apart from POST, both choices agree. */
  lemma NotificacionNonPostUnchanged(m: Method, ru: RequestUser)
    requires m != POST
    ensures Admits(NotificacionPermissions(m), ru) <==> Admits(NotificacionPermissionsIntended(m), ru)
    ensures Admits(NotificacionPermissions(m), ru) <==> IsAuthenticated(ru)
  {
    assert NotificacionPermissions(m)[0] == AllowAuthenticated;
  }

  /** `NotificacionViewSet.get_queryset`. */
  function NotificacionesVisible(store: seq<Notificacion>, u: Usuario): (r: seq<Notificacion>)
    ensures IsAdmin(u) ==> r == store
    ensures !IsAdmin(u) ==> forall i :: 0 <= i < |r| ==> r[i].usuario == u.id
  {
    if IsAdmin(u) then store else Filter(store, (n: Notificacion) => n.usuario == u.id)
  }

  /** A user sees a stored notification exactly when the user is an admin
      or its recipient. */
  lemma NotificacionVisibility(store: seq<Notificacion>, u: Usuario, n: Notificacion)
    ensures n in NotificacionesVisible(store, u) <==> n in store && (IsAdmin(u) || n.usuario == u.id)
  {
    FilterMembership(store, (n: Notificacion) => n.usuario == u.id, n);
  }

  /** `IncidenciaViewSet.permission_classes`: a login, whatever the method. */
  function IncidenciaPermissions(m: Method): seq<Permission> {
    [AllowAuthenticated]
  }

  lemma IncidenciaAccess(m: Method, ru: RequestUser)
    ensures Admits(IncidenciaPermissions(m), ru) <==> ru.Authenticated?
  {
    assert IncidenciaPermissions(m)[0] == AllowAuthenticated;
  }

  /** `IncidenciaViewSet.get_queryset`: a non-admin sees what they created. */
  function IncidenciasVisible(store: seq<Incidencia>, u: Usuario): (r: seq<Incidencia>)
    ensures IsAdmin(u) ==> r == store
    ensures !IsAdmin(u) ==> forall i :: 0 <= i < |r| ==> r[i].creadoPor == Some(u.id)
    ensures multiset(r) <= multiset(store)
  {
    if IsAdmin(u) then store else Filter(store, (i: Incidencia) => i.creadoPor == Some(u.id))
  }

  /** A user sees a stored incident exactly when the user is an admin or
      created it; having reported it is not enough. Whatever a non-admin
      sees, an admin sees too. */
  lemma IncidenciaVisibility(store: seq<Incidencia>, u: Usuario, admin: Usuario, x: Incidencia)
    requires IsAdmin(admin)
    ensures x in IncidenciasVisible(store, u) <==> x in store && (IsAdmin(u) || x.creadoPor == Some(u.id))
    ensures x in IncidenciasVisible(store, u) ==> x in IncidenciasVisible(store, admin)
    ensures !IsAdmin(u) && x.reportadoPor == Some(u.id) && x.creadoPor != Some(u.id) ==>
      x !in IncidenciasVisible(store, u)
  {
    FilterMembership(store, (i: Incidencia) => i.creadoPor == Some(u.id), x);
  }
}

=== FILE: websocket_utils.dfy ===
/** The helpers that persist a notification or a log and then publish it,
    the system-wide notification and the alert templates. The store is an
    in-memory database; saving a new row runs the `post_save` hook. */
module WebsocketUtils {
  import opened Wrappers
  import opened Text
  import opened Domain
  import opened Ordering
  import opened Channels
  import opened Publish
  import opened RecordHooks
  import NC = NotificacionConsumer

  /** The rows the helpers read and write, the next primary keys, and the
      clock reading `auto_now_add` stamps on new rows. */
  datatype Db = Db(
    usuarios: seq<Usuario>,
    notificaciones: seq<Notificacion>,
    logs: seq<LogEntry>,
    nextNotificacionId: nat,
    nextLogId: nat,
    now: int)

  /** A row written, the database after the write and the messages sent. */
  datatype Persisted<T> = Persisted(db: Db, pubs: seq<Publication>, record: T)

  /** Several notifications written in order. */
  datatype Batch = Batch(db: Db, pubs: seq<Publication>, records: seq<Notificacion>)

  /** `create_and_send_notification`: the row is stored (unread, stamped
      now), the save hook publishes it, and then it is published again. */
  function CreateAndSendNotification(db: Db, usuario: Usuario, mensaje: string, tipo: TipoNotificacion,
                                     animal: Option<nat>, evento: Option<nat>): (r: Persisted<Notificacion>)
    ensures r.record == Notificacion(db.nextNotificacionId, usuario.id, mensaje, tipo, db.now, false, animal, evento)
    ensures r.db == db.(notificaciones := db.notificaciones + [r.record],
                        nextNotificacionId := db.nextNotificacionId + 1)
    ensures |r.pubs| == 2 && r.pubs[0] == r.pubs[1]
    ensures r.pubs[0] == SendNotificationToUser(usuario.id, NotificationPayload(r.record))
  {
    var n := Notificacion(db.nextNotificacionId, usuario.id, mensaje, tipo, db.now, false, animal, evento);
    var db' := db.(notificaciones := db.notificaciones + [n], nextNotificacionId := db.nextNotificacionId + 1);
    Persisted(db', NotificacionSaved(n, true) + [SendNotificationToUser(usuario.id, NotificationPayload(n))], n)
  }

  /** The new notification is one more unread notification of its user and
      leaves every other user's unread count as it was. */
  lemma CreatedNotificationIsUnread(db: Db, usuario: Usuario, mensaje: string, tipo: TipoNotificacion,
                                    animal: Option<nat>, evento: Option<nat>, other: nat)
    ensures var r := CreateAndSendNotification(db, usuario, mensaje, tipo, animal, evento);
      && NC.UnreadTotal(r.db.notificaciones, usuario.id) == NC.UnreadTotal(db.notificaciones, usuario.id) + 1
      && (other != usuario.id ==>
            NC.UnreadTotal(r.db.notificaciones, other) == NC.UnreadTotal(db.notificaciones, other))
  {
    var r := CreateAndSendNotification(db, usuario, mensaje, tipo, animal, evento);
    FilterConcat(db.notificaciones, [r.record], (n: Notificacion) => NC.IsUnreadOf(n, usuario.id));
    FilterConcat(db.notificaciones, [r.record], (n: Notificacion) => NC.IsUnreadOf(n, other));
  }

  /** A connected notification stream of the user receives the new row
      twice, as two identical `notification` frames. */
  lemma NotificationDeliveredTwice(id: ConnId, reg: Registry, db: Db, usuario: Usuario, mensaje: string,
                                   tipo: TipoNotificacion, animal: Option<nat>, evento: Option<nat>)
    requires GroupsOf(reg, id) == {}
    ensures var s := NC.Connect(NewConn(id), Some(usuario), reg, db.notificaciones);
      var r := CreateAndSendNotification(db, usuario, mensaje, tipo, animal, evento);
      && id in Recipients(s.reg, r.pubs[0]) && id in Recipients(s.reg, r.pubs[1])
      && NC.Push(s.conn, s.reg, r.pubs[0].event).out == [Relayed("notification", NotificationPayload(r.record))]
      && NC.Push(s.conn, s.reg, r.pubs[1].event).out == [Relayed("notification", NotificationPayload(r.record))]
  {
    var r := CreateAndSendNotification(db, usuario, mensaje, tipo, animal, evento);
    NotificationReachesOnlyOwner(id, usuario, reg, db.notificaciones, usuario.id, NotificationPayload(r.record));
  }

  /** `create_and_send_log`: `entidad_id` is stored as `str(entidad_id)`;
      the save hook publishes the row, and then it is published again. */
  function CreateAndSendLog(db: Db, usuario: Option<nat>, tipoAccion: string, entidadAfectada: string,
                            entidadId: int, cambios: Option<Json>, observaciones: Option<string>): (r: Persisted<LogEntry>)
    ensures r.record == LogEntry(db.nextLogId, usuario, tipoAccion, entidadAfectada, IntToString(entidadId),
                                 db.now, cambios, observaciones)
    ensures r.db == db.(logs := db.logs + [r.record], nextLogId := db.nextLogId + 1)
    ensures |r.pubs| == 2 && r.pubs[0] == r.pubs[1]
    ensures r.pubs[0] == SendLogToAdmins(LogPayload(r.record))
  {
    var l := LogEntry(db.nextLogId, usuario, tipoAccion, entidadAfectada, IntToString(entidadId),
                      db.now, cambios, observaciones);
    Persisted(db.(logs := db.logs + [l], nextLogId := db.nextLogId + 1),
              LogSaved(l, true) + [SendLogToAdmins(LogPayload(l))], l)
  }

  /** Logs about different entities never share an `entidad_id`. */
  lemma LogEntityIdsDistinct(db: Db, u: Option<nat>, t: string, e: string, a: int, b: int,
                             c: Option<Json>, o: Option<string>)
    requires a != b
    ensures CreateAndSendLog(db, u, t, e, a, c, o).record.entidadId != CreateAndSendLog(db, u, t, e, b, c, o).record.entidadId
  {
    if IntToString(a) == IntToString(b) {
      IntToStringInjective(a, b);
    }
  }

  /** Indexing past a two-message prefix. */
  lemma PubsShift(a: seq<Publication>, b: seq<Publication>, i: nat)
    requires |a| == 2 && 0 < i && 2 * i + 1 < |a| + |b|
    ensures (a + b)[2 * i] == b[2 * (i - 1)] && (a + b)[2 * i + 1] == b[2 * (i - 1) + 1]
  {
  }

  /** `r` is what notifying `users` one after the other from `db` leaves:
      record `i` for user `i` with the next ids in turn, appended to the
      store, and each record published twice to its user's group. */
  predicate NotifiedInOrder(db: Db, users: seq<Usuario>, mensaje: string, tipo: TipoNotificacion,
                            animal: Option<nat>, evento: Option<nat>, r: Batch)
  {
    && |r.records| == |users| && |r.pubs| == 2 * |users|
    && (forall i :: 0 <= i < |users| ==>
          r.records[i] == Notificacion(db.nextNotificacionId + i, users[i].id, mensaje, tipo, db.now, false, animal, evento))
    && r.db == db.(notificaciones := db.notificaciones + r.records,
                   nextNotificacionId := db.nextNotificacionId + |users|)
    && (forall i :: 0 <= i < |users| ==>
          r.pubs[2 * i] == SendNotificationToUser(users[i].id, NotificationPayload(r.records[i])) &&
          r.pubs[2 * i + 1] == r.pubs[2 * i])
  }

  /** Notifying the first user and then the rest notifies them all in order. */
  lemma NotifiedCons(db: Db, users: seq<Usuario>, mensaje: string, tipo: TipoNotificacion,
                     animal: Option<nat>, evento: Option<nat>, first: Persisted<Notificacion>, rest: Batch)
    requires |users| > 0
    requires first == CreateAndSendNotification(db, users[0], mensaje, tipo, animal, evento)
    requires NotifiedInOrder(first.db, users[1..], mensaje, tipo, animal, evento, rest)
    ensures NotifiedInOrder(db, users, mensaje, tipo, animal, evento,
                            Batch(rest.db, first.pubs + rest.pubs, [first.record] + rest.records))
  {
    var r := Batch(rest.db, first.pubs + rest.pubs, [first.record] + rest.records);
    assert r.db.notificaciones == db.notificaciones + r.records by {
      assert rest.db.notificaciones == (db.notificaciones + [first.record]) + rest.records;
    }
    forall i | 0 < i < |users|
      ensures r.records[i] == Notificacion(db.nextNotificacionId + i, users[i].id, mensaje, tipo, db.now, false, animal, evento)
      ensures r.pubs[2 * i] == SendNotificationToUser(users[i].id, NotificationPayload(r.records[i]))
      ensures r.pubs[2 * i + 1] == r.pubs[2 * i]
    {
      assert r.records[i] == rest.records[i - 1];
      PubsShift(first.pubs, rest.pubs, i);
      assert users[i] == users[1..][i - 1];
    }
  }

  /** One `create_and_send_notification` per user, in order, all with the
      same message and relations. */
  function NotifyEach(db: Db, users: seq<Usuario>, mensaje: string, tipo: TipoNotificacion,
                      animal: Option<nat>, evento: Option<nat>): (r: Batch)
    decreases |users|
    ensures NotifiedInOrder(db, users, mensaje, tipo, animal, evento, r)
  {
    if |users| == 0 then Batch(db, [], [])
    else
      var first := CreateAndSendNotification(db, users[0], mensaje, tipo, animal, evento);
      var rest := NotifyEach(first.db, users[1..], mensaje, tipo, animal, evento);
      NotifiedCons(db, users, mensaje, tipo, animal, evento, first, rest);
      Batch(rest.db, first.pubs + rest.pubs, [first.record] + rest.records)
  }

  predicate IsActive(u: Usuario) {
    u.activo
  }

  /** The users `send_system_notification` writes to: the given ones, or
      every active user. */
  function SystemTargets(db: Db, usuarios: Option<seq<Usuario>>): seq<Usuario> {
    match usuarios
    case None => Filter(db.usuarios, IsActive)
    case Some(us) => us
  }

  /** `send_system_notification`: one `informativa` notification per target. */
  function SendSystemNotification(db: Db, mensaje: string, usuarios: Option<seq<Usuario>>): (r: Batch)
    ensures |r.records| == |SystemTargets(db, usuarios)|
    ensures forall i :: 0 <= i < |r.records| ==>
      && r.records[i].usuario == SystemTargets(db, usuarios)[i].id
      && r.records[i].tipo == Informativa
      && r.records[i].mensaje == mensaje
      && r.records[i].animal.None? && r.records[i].evento.None?
  {
    NotifyEach(db, SystemTargets(db, usuarios), mensaje, Informativa, None, None)
  }

  predicate UniqueUserIds(us: seq<Usuario>) {
    forall i, j :: 0 <= i < j < |us| ==> us[i].id != us[j].id
  }

  /** Records written one per selected user, in order, name a stored user
      exactly when `p` selects that user. */
  lemma RecordsForSelected(users: seq<Usuario>, p: Usuario -> bool, recs: seq<Notificacion>, u: Usuario)
    requires UniqueUserIds(users) && u in users
    requires |recs| == |Filter(users, p)|
    requires forall i :: 0 <= i < |recs| ==> recs[i].usuario == Filter(users, p)[i].id
    ensures (exists i :: 0 <= i < |recs| && recs[i].usuario == u.id) <==> p(u)
  {
    var ts := Filter(users, p);
    FilterMembership(users, p, u);
    if p(u) {
      var i := FirstIndex(ts, u);
      assert recs[i].usuario == u.id;
    }
    if exists i :: 0 <= i < |recs| && recs[i].usuario == u.id {
      var i :| 0 <= i < |recs| && recs[i].usuario == u.id;
      var t := ts[i];
      FilterMembership(users, p, t);
      SameIdSameUser(users, t, u);
    }
  }

  /** Notifying the stored users selected by `p` writes to a stored user
      exactly when `p` selects that user. */
  lemma FilteredRecipients(db: Db, p: Usuario -> bool, mensaje: string, tipo: TipoNotificacion,
                           animal: Option<nat>, evento: Option<nat>, u: Usuario, r: Batch)
    requires UniqueUserIds(db.usuarios) && u in db.usuarios
    requires r == NotifyEach(db, Filter(db.usuarios, p), mensaje, tipo, animal, evento)
    ensures (exists i :: 0 <= i < |r.records| && r.records[i].usuario == u.id) <==> p(u)
  {
    RecordsForSelected(db.usuarios, p, r.records, u);
  }

  /** Without an explicit list, the targets are the stored active users. */
  lemma SystemTargetsDefault(db: Db, mensaje: string)
    ensures SendSystemNotification(db, mensaje, None) ==
      NotifyEach(db, Filter(db.usuarios, IsActive), mensaje, Informativa, None, None)
  {
  }

  lemma ActiveRecipients(db: Db, mensaje: string, u: Usuario)
    requires UniqueUserIds(db.usuarios) && u in db.usuarios
    ensures var q := NotifyEach(db, Filter(db.usuarios, IsActive), mensaje, Informativa, None, None);
      (exists i :: 0 <= i < |q.records| && q.records[i].usuario == u.id) <==> u.activo
  {
    FilteredRecipients(db, IsActive, mensaje, Informativa, None, None, u,
                       NotifyEach(db, Filter(db.usuarios, IsActive), mensaje, Informativa, None, None));
  }

  /** Without an explicit list, a stored user gets a system notification
      exactly when the user is active. */
  lemma SystemNotificationTargetsActive(db: Db, mensaje: string, u: Usuario)
    requires UniqueUserIds(db.usuarios) && u in db.usuarios
    ensures var r := SendSystemNotification(db, mensaje, None);
      (exists i :: 0 <= i < |r.records| && r.records[i].usuario == u.id) <==> u.activo
  {
    SystemTargetsDefault(db, mensaje);
    ActiveRecipients(db, mensaje, u);
  }

  /** In a list with unique ids, two members with the same id are the same. */
  lemma SameIdSameUser(us: seq<Usuario>, a: Usuario, b: Usuario)
    requires UniqueUserIds(us) && a in us && b in us && a.id == b.id
    ensures a == b
  {
    var i :| 0 <= i < |us| && us[i] == a;
    var j :| 0 <= j < |us| && us[j] == b;
    assert us[i].id == us[j].id;
  }

  /** `send_incidencia_alert`. */
  function SendIncidenciaAlert(db: Db, usuario: Usuario, animal: Animal, incidenciaTipo: string): (r: Persisted<Notificacion>)
    ensures r.record.usuario == usuario.id && r.record.tipo == AlertaSanitaria
    ensures r.record.mensaje == "Nueva incidencia detectada: " + incidenciaTipo + " en animal " + animal.chapeta
    ensures r.record.animal == Some(animal.id) && r.record.evento.None?
    ensures r.record in r.db.notificaciones && |r.pubs| == 2
  {
    CreateAndSendNotification(db, usuario, "Nueva incidencia detectada: " + incidenciaTipo + " en animal " + animal.chapeta,
                              AlertaSanitaria, Some(animal.id), None)
  }

  /** `send_tratamiento_reminder`; `tratamiento` is the treatment's `str()`. */
  function SendTratamientoReminder(db: Db, usuario: Usuario, animal: Animal, tratamiento: string): (r: Persisted<Notificacion>)
    ensures r.record.usuario == usuario.id && r.record.tipo == Recordatorio
    ensures r.record.mensaje == "Recordatorio: Administrar " + tratamiento + " a animal " + animal.chapeta
    ensures r.record.animal == Some(animal.id) && r.record.evento.None?
    ensures r.record in r.db.notificaciones && |r.pubs| == 2
  {
    CreateAndSendNotification(db, usuario, "Recordatorio: Administrar " + tratamiento + " a animal " + animal.chapeta,
                              Recordatorio, Some(animal.id), None)
  }

  /** `send_evento_reminder`. */
  function SendEventoReminder(db: Db, usuario: Usuario, evento: Evento): (r: Persisted<Notificacion>)
    ensures r.record.usuario == usuario.id && r.record.tipo == Recordatorio
    ensures r.record.mensaje == "Recordatorio: " + evento.titulo + " programado para hoy"
    ensures r.record.animal.None? && r.record.evento == Some(evento.id)
    ensures r.record in r.db.notificaciones && |r.pubs| == 2
  {
    CreateAndSendNotification(db, usuario, "Recordatorio: " + evento.titulo + " programado para hoy",
                              Recordatorio, None, Some(evento.id))
  }
}

=== FILE: wrappers.dfy ===
/** Failure-compatible wrappers used throughout the model. */
module Wrappers {

  /** A value that may be absent: Python's `None` versus a present value. */
  datatype Option<+T> = None | Some(value: T) {

    /** Returns the value, or `default` when absent (`dict.get(k, default)`). */
    function GetOr(default: T): T {
      match this
      case Some(v) => v
      case None => default
    }
  }

  /** The outcome of an operation that may raise: a value or an error message. */
  datatype Result<+R, +E> = Success(value: R) | Failure(error: E) {

    predicate IsFailure() {
      Failure?
    }

    function PropagateFailure<U>(): Result<U, E>
      requires Failure?
    {
      Failure(error)
    }

    function Extract(): R
      requires Success?
    {
      value
    }
  }
}
